=== FILE: README.md ===
# EA Corretor de Imóveis: a Dafny model of the site's logic

EA Corretor de Imóveis is a real-estate web site with an admin panel, built in React on a hosted
Postgres/auth/storage backend. With the store, auth, storage and realtime calls taken out, what
is left is a set of small, pure transformations and state machines. This project states them in
Dafny and proves what the pages promise about them:

- **The public catalogue.** The listing page's filters are a conjunction of search, category,
  purpose and city. They are followed by a stable sort, and the page reads and writes URL
  parameters (`Catalog`, `UrlParams`, `StableSort`). The home page's search form writes those
  parameters too (`SearchForm`).
- **What a listing shows.** The price line and its suffix, the cover image, the gallery's
  wrap-around arrows, the feature and detail grids that hide empty values, and the number and
  area formatting (`PropertyCard`, `PropertyDetail`, `Format`).
- **The listing queries.** The image-to-listing join of the data hooks (`PropertyQueries`), the
  sample catalogue and its lookups (`MockData`), category tiles (`CategoryCard`), the SEO tags
  (`Seo`), the public settings map (`SiteSettings`) and the header's highlighted link (`Header`).
- **The forms.**
  - The contact and "anuncie" lead forms (`Leads`).
  - The login, password-reset and new-user schemas (`AdminLogin`, `ResetPassword`, `AdminUsers`).
  - All of them rest on one model of zod's object validation and field-error map (`Validation`).
- **The admin panel.**
  - The notification bell (`Notifications`) and the image editor (`ImageUpload`).
  - The listing form, with its slug, required fields, payload and image-saving plan (`Slug`,
    `PropertyForm`).
  - Categories (`AdminCategories`), the listing and lead tables (`AdminLists`), the dashboard's
    counts, chart and CSV report (`Dashboard`), and users and roles (`AdminUsers`).
  - Site settings (`AdminSettings`) and the sidebar (`AdminSidebar`).
- **The `admin-update-user` edge function.** Its guard chain decides the HTTP status, and then it
  makes one call to the auth admin API (`UpdateUserFunction`).

`Wrappers` (an `Option`), `Text` (the JavaScript string operations the code uses), `Arrays`
(filter and find) and `Listing` (the record types) are shared by the rest.

Conventions of the model:
- **Numbers.** Money, areas, counts and timestamps are integers, and days are integer indices.
- **Store calls.** Every store, auth or storage call is replaced by its outcome. That outcome is
  a parameter of the operation: an optional error code, the rows returned, or whether an upload
  failed.
- **Opaque helpers.** A few helpers the code calls but does not define are parameters too:
  - `isEmail` is zod's e-mail regular expression;
  - `parseNumber` is `parseFloat`;
  - `fullDate` is the `dd/MM/yyyy` date format;
  - `preview` is the object URL of a chosen file.

## Model

| member | source | states |
|---|---|---|
| Catalog.Keep | src/pages/PropertiesPage.tsx:66-90 | one filter step keeps exactly the listings that meet its criterion, and never more listings than it was given |
| Catalog.FindCategory | src/pages/PropertiesPage.tsx:57 | the category found has the slug asked for and no earlier category has it; nothing is found exactly when no category has it |
| Catalog.ApplyAllIsConjunction | src/pages/PropertiesPage.tsx:60-91 | running the page's filters one after another equals a single pass that keeps the listings every active criterion accepts |
| Catalog.KeepAllMembers | src/pages/PropertiesPage.tsx:60-91 | a listing survives the filters exactly when it was loaded and satisfies every active criterion |
| Catalog.KeepAllOrderFree | src/pages/PropertiesPage.tsx:60-91 | the surviving listings, and their order, depend only on the set of active criteria |
| Catalog.FilterOrderIrrelevant | src/pages/PropertiesPage.tsx:63-91 | applying the four filters in any order gives the same list |
| Catalog.ActiveCriteriaMeaning | src/pages/PropertiesPage.tsx:63-91 | the criteria the URL switches on accept a listing exactly when it matches every non-empty parameter (search over title, city, neighbourhood and code; known category; purpose; city) |
| Catalog.ResultsMembers | src/pages/PropertiesPage.tsx:60-112 | the page shows exactly the loaded listings that match every non-empty URL parameter |
| Catalog.NoParamsShowsAll | src/pages/PropertiesPage.tsx:104-108 | with no parameters every loaded listing is shown, newest first |
| Catalog.UnknownCategoryIgnored | src/pages/PropertiesPage.tsx:76-81 | a category slug that names no category drops the constraint instead of emptying the list |
| Catalog.ResultsOrdered | src/pages/PropertiesPage.tsx:93-109 | the list is sorted by the key `ordem` selects, is a permutation of the filtered listings, and listings with equal keys keep the order the store returned |
| Catalog.BelowIrreflexive | src/pages/PropertiesPage.tsx:53 | the default string order never puts a string before itself |
| Catalog.BelowTransitive | src/pages/PropertiesPage.tsx:53 | the default string order is transitive |
| Catalog.BelowTotal | src/pages/PropertiesPage.tsx:53 | any two different strings are ordered one way or the other |
| Catalog.DistinctSorted | src/pages/PropertiesPage.tsx:52-53 | the de-duplicated, sorted list is strictly increasing and holds exactly the given names |
| Catalog.CitiesMeaning | src/pages/PropertiesPage.tsx:51-54 | the city selector is strictly sorted and offers a city exactly when some loaded listing is in it |
| Catalog.CitiesDistinct | src/pages/PropertiesPage.tsx:51-54 | no city is offered twice |
| Catalog.ApplyFiltersReadBack | src/pages/PropertiesPage.tsx:114-123 | what the panel writes the page reads back ('all' as no constraint), the current order survives, and `ordem` is written only when it is not 'recent' |
| Catalog.ClearFiltersShowsAll | src/pages/PropertiesPage.tsx:125-131 | clearing the filters empties the panel and shows every loaded listing again |
| Catalog.RemoveChipKeepsOthers | src/pages/PropertiesPage.tsx:281-284 | removing a filter chip removes that parameter and leaves every other parameter as it was |
| Catalog.SortSelectKeepsFilters | src/pages/PropertiesPage.tsx:320-323 | choosing a sort order changes the order and leaves the active filters unchanged |
| UrlParams.GetMeaning | src/pages/PropertiesPage.tsx:38-42 | `get` finds a value exactly when some pair has the name, and the value is that pair's |
| UrlParams.Delete | src/pages/PropertiesPage.tsx:283 | `delete` removes every pair with the name and keeps every other pair |
| UrlParams.GetDelete | src/pages/PropertiesPage.tsx:282-284 | after `delete` the name reads as absent and every other name reads as before |
| UrlParams.GetSet | src/pages/PropertiesPage.tsx:321-323 | after `set` the name reads back the new value and every other name reads as before |
| UrlParams.SetSingle | src/pages/PropertiesPage.tsx:321-323 | `set` leaves exactly one pair with that name |
| UrlParams.SetNonEmptyReadBack | src/pages/PropertiesPage.tsx:115-120 | building parameters from non-empty values only: each name reads back its value, and an empty value leaves the name out |
| StableSort.Sort | src/pages/PropertiesPage.tsx:94-109 | the sorted list is ordered by the key and is a permutation of the input |
| StableSort.SortStable | src/pages/PropertiesPage.tsx:94-109 | elements with equal keys keep their relative order |
| StableSort.SortSorted | src/pages/PropertiesPage.tsx:94-109 | a list already in key order is left unchanged |
| SearchForm.SearchParamsReadBack | src/components/SearchForm.tsx:29-38 | every choice reads back under its own parameter name, an empty choice sends nothing, and the form never sends `cidade` or `ordem` |
| SearchForm.EmptyFormSendsNothing | src/components/SearchForm.tsx:29-38 | an untouched form navigates with no parameters |
| SearchForm.CompactSendsOnlySearch | src/components/SearchForm.tsx:40-57 | the compact form can only send the text search |
| SearchForm.AllPurposesShowsNothing | src/components/SearchForm.tsx:118 | choosing 'Todas' sends `finalidade=all`, which the catalog compares literally, so no listing is shown |
| SearchForm.AllCategoriesShowsAll | src/components/SearchForm.tsx:97 | choosing 'Todos' sends `categoria=all`, which names no category, so the catalog shows what it would without it |
| SearchForm.PriceAndBedroomsIgnored | src/components/SearchForm.tsx:35-36 | the price band and bedroom count are sent but never change the catalog's result |
| Format.GroupDigitsUndotted | src/hooks/useProperties.ts:224 | grouping thousands only inserts separators: removing the dots gives back the digits |
| Format.GroupDigitsSpacing | src/hooks/useProperties.ts:224 | every `.` separator is followed by exactly three digits |
| Format.GroupedReadBack | src/hooks/useProperties.ts:224 | the digits of a grouped whole number read back that number |
| Format.FormatPriceReadBack | src/hooks/useProperties.ts:211-218 | a formatted price shows its magnitude in its digits and starts with `-` exactly when it is negative |
| Format.FormatPriceNonEmpty | src/hooks/useProperties.ts:211-218 | a formatted price is never empty |
| Format.FormatAreaHectares | src/hooks/useProperties.ts:221-222 | from 10 000 m² on, the digits the pages show are the area in tenths of a hectare, rounded half up, followed by ` ha`; the corrected helper shows the same text there |
| Format.FormatAreaMetres | src/hooks/useProperties.ts:224 | below a hectare (in the corrected helper) the digits read back the area and the text ends in ` m²` |
| Format.FormatAreaAsWrittenUnit | src/hooks/useProperties.ts:224 | the helper as written ends a sub-hectare area in `mÂ²` instead of the square-metre sign (`100` gives `100 mÂ²`) |
| Format.FormatAreasAgree | src/data/mockData.ts:547-552 | below a hectare the sample data's `formatArea` shows the same digits as the pages' one and exactly the corrected helper's text; on whole hectares it shows the number of hectares, and the pages' helper the same digits followed by a `0` tenth |
| Format.FormatAreaNonEmpty | src/hooks/useProperties.ts:220-225 | a formatted area is never empty, as written or corrected |
| PropertyCard.FirstCoverMeaning | src/components/PropertyCard.tsx:12 | `find(is_cover)` returns the earliest image marked as cover, and nothing when none is |
| PropertyCard.CoverImageMeaning | src/components/PropertyCard.tsx:12 | a card has a picture exactly when the listing has images; a marked cover wins over position, else the first image |
| PropertyCard.PriceLineMeaning | src/components/PropertyCard.tsx:20-28 | the suffix is present exactly for rent and seasonal listings; those show a non-zero rental price when set, and every other listing, a rental whose rental price is missing or zero included, shows the sale price |
| PropertyCard.PriceSuffixReadBack | src/components/PropertyCard.tsx:24-28 | two listings with the same amount and the same price line have the same suffix: the suffix is recoverable from the line |
| PropertyCard.FeaturesMeaning | src/components/PropertyCard.tsx:90-115 | the feature row shows when there are bedrooms or an area, each count only when positive, and always ends with the total area as the pages' `formatArea` writes it (`mÂ²` below a hectare) |
| PropertyCard.CategoryNameNonEmpty | src/components/PropertyCard.tsx:73 | the category text is never empty and is 'Imóvel' for a listing without a category |
| PropertyDetail.ArrowsInverse | src/pages/PropertyDetailPage.tsx:132-142 | both gallery arrows keep the index on a photo, and each arrow undoes the other |
| PropertyDetail.NextTimesAdd | src/pages/PropertyDetailPage.tsx:132-136 | pressing "next" a times and then b times is pressing it a + b times |
| PropertyDetail.NextTimesForward | src/pages/PropertyDetailPage.tsx:132-136 | before the last photo, pressing "next" k times moves k photos forward |
| PropertyDetail.FullRound | src/pages/PropertyDetailPage.tsx:132-136 | a full round of "next" returns to the starting photo |
| PropertyDetail.ShownOnlyMembers | src/pages/PropertyDetailPage.tsx:155 | the grid filter keeps exactly the entries whose value is truthy |
| PropertyDetail.ShownNamed | src/pages/PropertyDetailPage.tsx:155 | an entry whose name no other entry has is shown exactly when its value is truthy |
| PropertyDetail.FeaturesAlwaysShown | src/pages/PropertyDetailPage.tsx:144-155 | the total area, as the pages' `formatArea` writes it, and the furnished flag are always in the feature grid |
| PropertyDetail.FeaturesCounts | src/pages/PropertyDetailPage.tsx:144-155 | bedrooms, bathrooms and parking spaces are in the feature grid exactly when they are not zero |
| PropertyDetail.FeaturesBuiltArea | src/pages/PropertyDetailPage.tsx:144-155 | the built area is in the feature grid exactly when it is set and not zero |
| PropertyDetail.DetailsPlain | src/pages/PropertyDetailPage.tsx:157-169 | the exchange flag is always shown; the type and the suite count only when not empty or zero |
| PropertyDetail.DetailsCategory | src/pages/PropertyDetailPage.tsx:157-169 | the category row is shown exactly when the listing has a category with a name |
| PropertyDetail.DetailsFees | src/pages/PropertyDetailPage.tsx:157-169 | the condominium fee and the property tax are shown exactly when set and not zero |
| PropertyDetail.AddressLineMeaning | src/pages/PropertyDetailPage.tsx:285 | the address line always ends with `bairro - cidade` and starts with `endereco, ` exactly when there is a street address |
| PropertyDetail.PageForMeaning | src/pages/PropertyDetailPage.tsx:40-68 | the page shows a listing only when the fetch found one, and shows that listing; it shows the loader exactly while loading |
| PropertyQueries.Where | src/hooks/useProperties.ts:68 | an `.eq` filter keeps exactly the rows that pass |
| PropertyQueries.Take | src/hooks/useProperties.ts:108 | `.limit(n)` keeps the first n rows, or all of them when there are fewer |
| PropertyQueries.ImagesOfMembers | src/hooks/useProperties.ts:87 | an image is attached to a listing exactly when a row pairs it with that listing's id |
| PropertyQueries.ImagesOfSorted | src/hooks/useProperties.ts:80-87 | filtering rows already in `ordem` order gives images in `ordem` order |
| PropertyQueries.RowsForKeeps | src/hooks/useProperties.ts:74-79 | restricting the image query to the fetched ids loses none of a fetched listing's images |
| PropertyQueries.ImagesOfPermutation | src/hooks/useProperties.ts:80-87 | reordering the image rows only reorders each listing's images |
| PropertyQueries.ImagesOfAppend | src/hooks/useProperties.ts:87 | the images of two row lists are the images of each, concatenated |
| PropertyQueries.WithImagesMeaning | src/hooks/useProperties.ts:73-90 | every fetched listing is its stored row with every field as stored except `images`, which holds exactly the images stored under its id, lowest `ordem` first |
| PropertyQueries.NewestFirstMeaning | src/hooks/useProperties.ts:69 | ordering by `created_at` descending keeps the same listings, as many, newest first |
| PropertyQueries.PublishedListingsMeaning | src/hooks/useProperties.ts:58-92 | `useProperties` returns as many listings as there are published rows; each is a stored published row, every published row is among them, newest first |
| PropertyQueries.FeaturedListingsMeaning | src/hooks/useProperties.ts:95-131 | the home page receives six listings, or every published featured row when there are fewer; each is a stored published featured row, newest first; a published featured row is left out only when six no older than it are shown |
| PropertyQueries.RelatedListingsMeaning | src/hooks/useProperties.ts:169-207 | related listings are empty without a category; otherwise three listings, or every match when there are fewer, each a stored published row of that category other than the one being viewed; a match is left out only when three are shown |
| PropertyQueries.ListingBySlugMeaning | src/hooks/useProperties.ts:134-166 | an empty slug gives no listing; no row with the slug, or two rows with it, is an error; exactly one row with it gives that row as stored, with its own images lowest `ordem` first |
| MockData.FeaturedArePublished | src/data/mockData.ts:535-536 | the featured helper returns the published listings that are featured, in the same order |
| MockData.PropertiesByCategoryMeaning | src/data/mockData.ts:534 | a listing is in a category's list exactly when it is a sample listing of that category |
| MockData.LookupsFindTheirOwn | src/data/mockData.ts:532-533 | looking a sample listing up by its own id or slug finds that listing |
| MockData.CategoryLookupsFindTheirOwn | src/data/mockData.ts:530-531 | looking a category up by its own id or slug finds that category |
| MockData.IdsDistinct | src/data/mockData.ts:94-477 | no two sample listings share an id |
| MockData.SlugsDistinct | src/data/mockData.ts:94-477 | no two sample listings share a slug |
| MockData.CategoriesExist | src/data/mockData.ts:85-92 | every sample listing's category is one of the sample categories |
| MockData.OneCoverEach | src/data/mockData.ts:126-129 | every sample listing has exactly one cover, its first image with `ordem` 1, and the card shows that image |
| MockData.AllPublished | src/data/mockData.ts:536 | every sample listing is published, so the published helper returns the whole catalogue |
| CategoryCard.IconNamesRoundTrip | src/components/CategoryCard.tsx:11-19 | every icon is found under its own name and under no other |
| CategoryCard.IconForMeaning | src/components/CategoryCard.tsx:22 | a known non-empty icon name picks that icon; a missing, empty or unknown name shows Home |
| CategoryCard.CountLabelMeaning | src/components/CategoryCard.tsx:42 | the count is followed by the singular exactly when it is one, so zero reads '0 imóveis' |
| CategoryCard.LinkMeaning | src/components/CategoryCard.tsx:31 | the link carries the slug as `categoria` and no other filter, with the default order |
| CategoryCard.LinkShowsCategory | src/components/CategoryCard.tsx:31 | following a tile lists exactly the category's listings (or everything when the slug is empty) |
| Seo.FullTitleMeaning | src/components/SEO.tsx:23 | the title is the site name alone exactly for 'Início'; any other title is followed by ` \| ` and the site name |
| Seo.TitlesAgree | src/components/SEO.tsx:27-43 | the document, Open Graph and Twitter titles are the same text |
| Seo.DefaultsMeaning | src/components/SEO.tsx:13-36 | omitted description, keywords and type take their defaults; given ones are used as they are |
| Seo.RobotsMeaning | src/components/SEO.tsx:31 | the robots tag is present exactly when `noIndex` is true |
| Seo.UrlTagsMeaning | src/components/SEO.tsx:38-48 | `og:url` and the canonical link are present exactly when a non-empty URL is given, and carry it |
| Seo.ImageTagsMeaning | src/components/SEO.tsx:39-45 | the Open Graph and Twitter image tags are present exactly when a non-empty image is given |
| SiteSettings.BuildMeaning | src/hooks/useSiteSettings.ts:21-24 | a key is in the settings map exactly when some row has it, holding the last such row's value |
| SiteSettings.LastValueNonNull | src/hooks/useSiteSettings.ts:22 | the value read for a key is some row's value, a null value read as '' |
| SiteSettings.GetSettingMeaning | src/hooks/useSiteSettings.ts:37-39 | the fallback is used exactly when the key is missing or its value is empty |
| SiteSettings.GetSettingFromRows | src/hooks/useSiteSettings.ts:21-39 | reading a key gives the last row's value for it when not empty, else the fallback |
| SiteSettings.UnfetchedDefaults | src/hooks/useSiteSettings.ts:9-29 | before the rows arrive, or when the fetch fails, every read gives its fallback |
| Slug.StripAccents | src/pages/admin/AdminPropertyFormPage.tsx:195-196 | removing the combining marks after decomposition never lengthens the text, and no combining mark survives |
| Slug.StripAccentsMeaning | src/pages/admin/AdminPropertyFormPage.tsx:195-196 | stripping works character by character, in order: a combining mark is dropped and any other character becomes its base letter |
| Slug.CollapseShape | src/pages/admin/AdminPropertyFormPage.tsx:197 | collapsing runs yields only `[a-z0-9-]`, never `--`, and keeps every letter and digit in order |
| Slug.GenerateSlugIsSlug | src/pages/admin/AdminPropertyFormPage.tsx:192-199 | a generated slug has only `[a-z0-9-]`, no `-` at either end and no `--` |
| Slug.GenerateSlugAlnums | src/pages/admin/AdminPropertyFormPage.tsx:192-199 | a generated slug keeps exactly the letters and digits of the lower-cased, unaccented title, in order |
| Slug.GenerateSlugEmpty | src/pages/admin/AdminPropertyFormPage.tsx:192-199 | the slug is empty exactly when the folded title has no letter or digit |
| Slug.SlugFixedPoint | src/pages/admin/AdminPropertyFormPage.tsx:192-199 | a well-formed slug is its own slug |
| Slug.GenerateSlugIdempotent | src/pages/admin/AdminCategoriesPage.tsx:60-67 | generating a slug from a slug changes nothing |
| Leads.ContactValidMeaning | src/pages/ContactPage.tsx:14-19 | the contact schema accepts exactly names of 2-100, e-mails up to 255, phones of 10-20 and messages of 10-1000 characters |
| Leads.SubmitContactMeaning | src/pages/ContactPage.tsx:48-86 | a lead is written exactly for an acceptable form, with its four fields as 'contato'/'novo'; success empties the form, a store error keeps it, and a rejected form keeps it with its field errors |
| Leads.RuleIssuesPaths | src/pages/ContactPage.tsx:71-78 | every validation issue of the contact form is on one of its four fields |
| Leads.EditContactMeaning | src/pages/ContactPage.tsx:40-46 | typing in a field stores the value and blanks that field's shown error only |
| Leads.AdvertiseValidMeaning | src/pages/AdvertisePage.tsx:22-30 | the advertise schema accepts exactly the forms within its seven fields' bounds |
| Leads.AdvertiseMessageMeaning | src/pages/AdvertisePage.tsx:69-77 | the stored message lists category, city and neighbourhood, then the description with trailing blanks trimmed |
| Leads.AdvertiseBlankMessage | src/pages/AdvertisePage.tsx:29-77 | a description of whitespace alone, which the schema accepts when long enough, leaves the message ending at `Descrição:` |
| Leads.SubmitAdvertiseMeaning | src/pages/AdvertisePage.tsx:61-108 | a lead is written exactly for an acceptable form, as 'anuncie'/'novo' with the composed message; the thank-you state follows only a stored lead; the form is kept |
| Leads.CategoryOptionsMeaning | src/pages/AdvertisePage.tsx:296-300 | the category selector offers a value exactly when some category bears that name |
| Leads.SelectCategoryMeaning | src/pages/AdvertisePage.tsx:286-288 | choosing a category changes only the category and leaves the shown errors alone |
| Validation.RuleIssuesMeaning | src/pages/ContactPage.tsx:14-19 | a field has no issue exactly when all of its checks pass, and every issue it raises is on that field |
| Validation.FieldIssuesPaths | src/pages/ContactPage.tsx:72-77 | every issue a field check raises is on one of the schema's fields |
| Validation.IssuesEmptyMeaning | src/pages/ContactPage.tsx:53 | parsing succeeds exactly when every check passes and every refinement holds |
| Validation.ErrorMapMeaning | src/pages/ContactPage.tsx:72-77 | a field appears in the error map exactly when some issue is on it, with the last such issue's message |
| Validation.ErrorMapKeys | src/pages/ContactPage.tsx:74 | the error map holds only non-empty paths some issue names |
| Validation.ClearErrorMeaning | src/pages/ContactPage.tsx:43-45 | editing blanks only the edited field's message and keeps the set of keys |
| Notifications.FromRows | src/components/admin/AdminNotifications.tsx:50-55 | loading makes one notification per fetched lead |
| Notifications.FromRowsMeaning | src/components/admin/AdminNotifications.tsx:50-55 | every fetched lead keeps its place, and its notification is read exactly when the lead's status is not 'novo' |
| Notifications.RecentLeadsMeaning | src/components/admin/AdminNotifications.tsx:43-47 | the initial query returns the ten newest leads of the table, or all of them when there are fewer, none more often than it is stored, newest first; a lead is left out only behind ten no older than it |
| Notifications.LoadedMeaning | src/components/admin/AdminNotifications.tsx:49-57 | a failed fetch leaves the list as it was; a successful one shows one notification per fetched lead, in order, carrying that lead and read exactly when its status is not 'novo' |
| Notifications.ReceiveMeaning | src/components/admin/AdminNotifications.tsx:74-89 | a new lead goes first and unread, followed by the first nine previous entries in order; the list never exceeds ten; the toast shows the new lead |
| Notifications.ReceiveKeepsDuplicates | src/components/admin/AdminNotifications.tsx:78-83 | a lead received twice is listed twice: nothing removes the older entry with the same id |
| Notifications.UnreadCountMeaning | src/components/admin/AdminNotifications.tsx:98 | the unread count never exceeds the list length and is zero exactly when every entry is read |
| Notifications.ReceiveUnread | src/components/admin/AdminNotifications.tsx:78-83 | a new lead adds one to the unread count of the entries that are kept |
| Notifications.MarkAsRead | src/components/admin/AdminNotifications.tsx:100-104 | marking one entry read keeps the list length |
| Notifications.MarkAsReadMeaning | src/components/admin/AdminNotifications.tsx:100-104 | marking an id read sets `read` on the entries with that id and changes nothing else |
| Notifications.MarkAsReadUnread | src/components/admin/AdminNotifications.tsx:100-104 | marking read never raises the unread count |
| Notifications.MarkAllAsRead | src/components/admin/AdminNotifications.tsx:106-110 | marking all read keeps the list length |
| Notifications.MarkAllAsReadMeaning | src/components/admin/AdminNotifications.tsx:106-110 | after marking all read nothing is unread, and each entry is otherwise unchanged |
| Notifications.BadgeMeaning | src/components/admin/AdminNotifications.tsx:177-183 | the badge is hidden exactly at zero, shows the digit from one to nine, and '9+' beyond |
| Notifications.DismissToastMeaning | src/components/admin/AdminNotifications.tsx:112-114 | dismissing hides the toast and keeps the list |
| Notifications.StepsStayBounded | src/components/admin/AdminNotifications.tsx:35-114 | every step of the panel (load, receive, open an entry, mark all, dismiss) keeps the list within ten entries |
| ImageUpload.MaxOf | src/components/admin/ImageUpload.tsx:32 | `Math.max` returns an element of the list that is no smaller than any other |
| ImageUpload.StagedOrigin | src/components/admin/ImageUpload.tsx:35-57 | every staged image is new, loading, without id, and comes from an accepted file at position j with `ordem` = max + 1 + j and that file's preview |
| ImageUpload.StagedRising | src/components/admin/ImageUpload.tsx:52 | staged numbers rise strictly along the list |
| ImageUpload.StagedCover | src/components/admin/ImageUpload.tsx:51 | a staged image is the cover exactly when it is the first file, accepted, and the list was empty |
| ImageUpload.StagedComplete | src/components/admin/ImageUpload.tsx:35-57 | every accepted file is staged, numbered by its position |
| ImageUpload.SelectFilesKeeps | src/components/admin/ImageUpload.tsx:29-61 | choosing files keeps the existing images in front, unchanged, and choosing no files changes nothing |
| ImageUpload.SelectFilesNumbers | src/components/admin/ImageUpload.tsx:32-52 | every new image is numbered above every image before it |
| ImageUpload.SelectFilesCover | src/components/admin/ImageUpload.tsx:51-60 | choosing files keeps at most one cover, and a rejected first file leaves an empty list without a cover |
| ImageUpload.DoneLoading | src/components/admin/ImageUpload.tsx:64-70 | the loading step keeps the list length |
| ImageUpload.DoneLoadingMeaning | src/components/admin/ImageUpload.tsx:64-70 | after the loading step nothing is loading and every other field is as it was |
| ImageUpload.RemoveMeaning | src/components/admin/ImageUpload.tsx:88-101 | removing drops exactly image k and keeps the rest in order; a removed cover passes to the new first image |
| ImageUpload.RemoveCover | src/components/admin/ImageUpload.tsx:95-99 | removing keeps at most one cover |
| ImageUpload.SetCover | src/components/admin/ImageUpload.tsx:103-108 | setting a cover keeps the list length |
| ImageUpload.SetCoverMeaning | src/components/admin/ImageUpload.tsx:103-108 | setting a cover marks exactly that image and leaves every other field alone, so there is at most one cover |
| PropertyForm.TitleChangedMeaning | src/pages/admin/AdminPropertyFormPage.tsx:201-208 | typing a title changes only the title and the slug, and the new slug is a well-formed slug that slugifies to itself |
| PropertyForm.RequiredGateMeaning | src/pages/admin/AdminPropertyFormPage.tsx:217-220 | nothing is written, and the page stays, exactly when one of the seven required fields is empty; the initial form is refused |
| PropertyForm.PayloadSlug | src/pages/admin/AdminPropertyFormPage.tsx:227 | a typed slug is kept and an empty one is replaced by the title's slug, which is then well-formed |
| PropertyForm.OrNullMeaning | src/pages/admin/AdminPropertyFormPage.tsx:228 | `text \|\| null` is null for exactly the empty text and keeps any other text |
| PropertyForm.CountMeaning | src/pages/admin/AdminPropertyFormPage.tsx:243-246 | a count reads back the number it renders, and an unreadable or empty count is 0 |
| PropertyForm.PayloadOptionals | src/pages/admin/AdminPropertyFormPage.tsx:228-258 | every optional text is null exactly when left empty and copied otherwise, an optional number is parsed only when typed, the price and total area fall back to 0 when unreadable, and the author is the signed-in user |
| PropertyForm.CurrentIdsMeaning | src/pages/admin/AdminPropertyFormPage.tsx:307 | the current ids are exactly the truthy ids of the edited images |
| PropertyForm.ToDeleteMeaning | src/pages/admin/AdminPropertyFormPage.tsx:310-316 | the ids deleted are exactly the stored ids that no current image has, and never more than were stored |
| PropertyForm.ActionsMeaning | src/pages/admin/AdminPropertyFormPage.tsx:319-352 | each image, in order, is inserted when it is new with a file whose upload succeeds, updated with its cover mark and order when it has an id, and otherwise left alone |
| PropertyForm.EmptiedListKeepsStoredImages | src/pages/admin/AdminPropertyFormPage.tsx:280-282 | as written, removing every image of a stored listing deletes none of the stored images |
| PropertyForm.ImagePlanDeletesRemoved | src/pages/admin/AdminPropertyFormPage.tsx:298-316 | with the removals always applied, exactly the dropped images are deleted, and an emptied list deletes them all |
| PropertyForm.ToDeleteNone | src/pages/admin/AdminPropertyFormPage.tsx:310 | with no current ids every stored id is deleted |
| PropertyForm.PlansAgreeWhenImagesRemain | src/pages/admin/AdminPropertyFormPage.tsx:280-282 | whenever an image is left, the corrected plan is the one the page makes |
| PropertyForm.SubmitMessages | src/pages/admin/AdminPropertyFormPage.tsx:262-292 | the page leaves for the listing table exactly when the write succeeds; 23505 gets the duplicate-code toast, other errors the generic one, success the per-mode toast and the image writes, which happen only when an image is left and then delete the dropped stored images |
| AdminCategories.NameChangedMeaning | src/pages/admin/AdminCategoriesPage.tsx:69-76 | typing a name changes the name and the slug only, and the slug is a well-formed slug of the name |
| AdminCategories.NextOrdemMeaning | src/pages/admin/AdminCategoriesPage.tsx:99-101 | a new category is numbered one above some existing one and above all of them, and 0 when there are none |
| AdminCategories.SubmitGate | src/pages/admin/AdminCategoriesPage.tsx:81-84 | an empty name never reaches the store and leaves the dialog as it was; a filled name always does |
| AdminCategories.WriteDefaults | src/pages/admin/AdminCategoriesPage.tsx:86-111 | editing updates and creating inserts; an empty slug falls back to the name's slug; an empty icon becomes 'Home' on insert and null on update; an insert gets the next `ordem` |
| AdminCategories.SubmitMessages | src/pages/admin/AdminCategoriesPage.tsx:97-126 | 23505 gets the duplicate-slug toast, other errors the generic one with the dialog kept, and success closes and empties the dialog with the per-mode toast |
| AdminCategories.EditRoundTrip | src/pages/admin/AdminCategoriesPage.tsx:129-137 | opening a category and saving it unchanged writes back its own name, slug and icon |
| AdminCategories.OpenChangeMeaning | src/pages/admin/AdminCategoriesPage.tsx:159-165 | closing the dialog always empties it and forgets the edited category; opening changes nothing else |
| AdminCategories.DeleteMessageMeaning | src/pages/admin/AdminCategoriesPage.tsx:139-157 | a declined confirmation does nothing; 23503 gets the linked-listings toast and any other error the generic one |
| AdminLists.StatusFilterMeaning | src/pages/admin/AdminPropertiesPage.tsx:58-60 | the status filter reaches the query exactly when a real status is chosen (neither empty nor 'all'), and then it is that status |
| AdminLists.ByStatusMeaning | src/pages/admin/AdminLeadsPage.tsx:51-53 | the fetched rows are exactly the rows of the chosen status, or all rows when no status applies |
| AdminLists.SearchedMeaning | src/pages/admin/AdminPropertiesPage.tsx:118-122 | the search keeps exactly the rows whose title, internal code or city contains the search text, ignoring case |
| AdminLists.SearchedKeepsOrder | src/pages/admin/AdminPropertiesPage.tsx:118-122 | the kept rows appear in the order the query returned them |
| AdminLists.EmptySearchKeepsAll | src/pages/admin/AdminPropertiesPage.tsx:118-122 | an empty search keeps every row |
| AdminLists.BairroNotSearched | src/pages/admin/AdminPropertiesPage.tsx:118-122 | the neighbourhood is not searched: changing it never changes whether a row matches |
| AdminLists.PropertyBadgeMeaning | src/pages/admin/AdminPropertiesPage.tsx:100-116 | the five listing statuses get captions other than their raw values and no two alike, sold and rented are destructive, and any other status is shown as itself on a secondary badge |
| AdminLists.LeadBadgeMeaning | src/pages/admin/AdminLeadsPage.tsx:85-97 | the three lead statuses get captions other than their raw values and no two alike, and any other status is shown as itself on a secondary badge |
| AdminLists.OrigemLabelMeaning | src/pages/admin/AdminLeadsPage.tsx:99-106 | the three known origins get labels other than their raw values and no two alike, and any other origin is shown as it is |
| AdminLists.StatusChoicesMeaning | src/pages/admin/AdminLeadsPage.tsx:197-208 | every row's selector offers exactly the three lead statuses, in order, each captioned as its badge, so any status can be changed to any of them |
| AdminLists.WhatsAppLinkMeaning | src/pages/admin/AdminLeadsPage.tsx:214 | the link is the wa.me prefix with country code 55 followed by the phone's digits only, so formatting characters make no difference |
| AdminLists.ListingLinkMeaning | src/pages/admin/AdminLeadsPage.tsx:222-226 | the edit link of the lead's listing is offered exactly when the lead names a listing, and points at that listing's edit page |
| AdminLists.DeleteListingMessageMeaning | src/pages/admin/AdminPropertiesPage.tsx:78-90 | a declined confirmation does nothing; otherwise the toast says whether the delete succeeded |
| AdminLists.StatusUpdatedMeaning | src/pages/admin/AdminLeadsPage.tsx:43-83 | a failed update leaves the table as it was; a successful one gives the new status to the rows with that id and leaves every other row and field alone; the list then shows exactly the updated rows that pass the status filter, so a lead moved out of the filtered status leaves it |
| Dashboard.StatsMeaning | src/pages/admin/AdminDashboard.tsx:96-110 | the cards count the listings and leads of each status, published plus draft never exceeds the total, new leads never exceed all leads, and a failed query counts as zero rows |
| Dashboard.ChartDataShape | src/pages/admin/AdminDashboard.tsx:122-146 | the chart has one row per day of the chosen period, on consecutive days ending today, each counting the leads and listings created that day |
| Dashboard.RowsTotals | src/pages/admin/AdminDashboard.tsx:128-134 | summed over the chart's rows, the daily counts equal the number of items created inside the window |
| Dashboard.CountWindowBound | src/pages/admin/AdminDashboard.tsx:128-134 | no window counts more items than there are |
| Dashboard.PeriodTotals | src/pages/admin/AdminDashboard.tsx:189-190 | the period totals of the report are the leads and listings created within the period, so never more than the overall totals |
| Dashboard.CsvLineRoundTrip | src/pages/admin/AdminDashboard.tsx:153 | a CSV line splits at its commas back into the date and the two counts, and the counts read back as the numbers written |
| Dashboard.CsvLineFree | src/pages/admin/AdminDashboard.tsx:153 | a CSV line holds no newline when its date does not |
| Dashboard.CsvShape | src/pages/admin/AdminDashboard.tsx:149-154 | the report splits at its newlines back into the header and one line per chart row, and holds exactly one newline per row |
| AdminUsers.CreateValidMeaning | src/pages/admin/AdminUsersPage.tsx:55-66 | the new-user schema accepts exactly a name of two or more characters, a valid email, a password and confirmation of six or more, a role of 'admin' or 'editor', and a confirmation equal to the password |
| AdminUsers.BadRoleSkipsRefinement | src/pages/admin/AdminUsersPage.tsx:61-66 | a role outside the enum aborts the object, so the password match is then not reported |
| AdminUsers.CreateMeaning | src/pages/admin/AdminUsersPage.tsx:145-194 | only an acceptable form reaches sign-up, with its email, password and name; the dialog closes exactly when sign-up returns a user and the profile and role writes succeed; every other outcome shows a non-empty error |
| AdminUsers.WithoutMeaning | src/pages/admin/AdminUsersPage.tsx:178 | deleting a user's role rows leaves them with no role and every other user's roles unchanged |
| AdminUsers.RolesOfAppend | src/pages/admin/AdminUsersPage.tsx:89-91 | the roles read from two stretches of the table are the roles of the first followed by those of the second |
| AdminUsers.ResetLeavesOneRole | src/pages/admin/AdminUsersPage.tsx:177-182 | deleting a user's roles and inserting one leaves them with exactly that role, and no other user's roles change |
| AdminUsers.RolesOfMeaning | src/pages/admin/AdminUsersPage.tsx:89-91 | a role is listed for a user exactly when a row of the role table gives it to them |
| AdminUsers.FetchedMeaning | src/pages/admin/AdminUsersPage.tsx:68-100 | the user list keeps the profiles' order and gives each profile its own roles; a failed query keeps the previous list |
| AdminUsers.SavedRoleReopens | src/pages/admin/AdminUsersPage.tsx:213-217 | after a role is saved, the refetched user opens for editing with that role |
| AdminUsers.FormRoleDefault | src/pages/admin/AdminUsersPage.tsx:251-259 | a user without roles opens as an editor, and otherwise with their first role |
| AdminUsers.EditMeaning | src/pages/admin/AdminUsersPage.tsx:198-229 | an edit without an id does nothing, one without a name is refused with its toast, and a complete one that succeeds leaves the user with exactly the chosen role |
| AdminUsers.DeleteDropsRoles | src/pages/admin/AdminUsersPage.tsx:232-248 | deleting removes all of the user's roles even when the profile delete fails, and the dialog closes exactly when it does not fail |
| AdminUsers.CredentialsRequestMeaning | src/pages/admin/AdminUsersPage.tsx:266-295 | a request goes out only with an id, a field to change and the function's endpoint and secret configured, and its body carries exactly the non-empty fields |
| AdminUsers.OpenCredentialsSendsEmail | src/pages/admin/AdminUsersPage.tsx:261-264 | a freshly opened credentials form sends the user's current email and no password |
| AdminUsers.CredentialsNoticeMeaning | src/pages/admin/AdminUsersPage.tsx:297-308 | the toast is a success exactly when the function answered ok, and otherwise shows its error detail or the generic message |
| AdminSettings.ChangedMeaning | src/pages/admin/AdminSettingsPage.tsx:60-62 | a change keeps one entry per key, records the latest value for its key, leaves every other key alone, is idempotent, and adds to the count only for a new key |
| AdminSettings.ChangeCountMeaning | src/pages/admin/AdminSettingsPage.tsx:179-181 | the pending-changes banner counts the distinct changed keys |
| AdminSettings.ShownValueMeaning | src/pages/admin/AdminSettingsPage.tsx:64-66 | an input shows its pending value, even an empty one, and otherwise the stored value, with null shown as empty |
| AdminSettings.SaveMeaning | src/pages/admin/AdminSettingsPage.tsx:94-118 | saving with no changes writes nothing and says so; otherwise one update per changed key, in order, with its latest value; success clears the changes and a failure keeps them after the failing update |
| AdminSettings.StoredMeaning | src/pages/admin/AdminSettingsPage.tsx:103-107 | the updates, whose keys are distinct as `Save` sends them, change the value of the rows with their key only, and keep every row's key and category |
| AdminSettings.SaveKeepsShownValues | src/pages/admin/AdminSettingsPage.tsx:94-118 | after a successful save every input shows, now from the store, the value it showed before the save |
| AdminSettings.UploadedMeaning | src/pages/admin/AdminSettingsPage.tsx:68-91 | a failed upload changes nothing, a finished one shows the file's public URL, and clearing the image leaves it empty |
| AdminSettings.UploadNameMeaning | src/pages/admin/AdminSettingsPage.tsx:71-72 | the stored file name is the key, a dash, the upload time and the text after the original name's last dot |
| AdminSettings.CategoriesMeaning | src/pages/admin/AdminSettingsPage.tsx:122-130 | a tab exists exactly for each category some setting has, and no tab appears twice |
| AdminSettings.CategoriesGrow | src/pages/admin/AdminSettingsPage.tsx:122-130 | tabs appear in order of first appearance: the tabs of a prefix of the settings are a prefix of all the tabs |
| AdminSettings.GroupMeaning | src/pages/admin/AdminSettingsPage.tsx:122-128 | each setting sits in the tab of its own category and in no other, and that tab exists |
| AdminSettings.CategoryLabelMeaning | src/pages/admin/AdminSettingsPage.tsx:24-30 | the five known categories get labels other than their raw names and no two alike, and any other shows its own name |
| AdminSettings.WidgetForMeaning | src/pages/admin/AdminSettingsPage.tsx:206-260 | image settings get the uploader whatever their key, a key containing 'texto' or 'descricao' gets a text area, and only the rest get a one-line input |
| UpdateUserFunction.PreflightFirst | supabase/functions/admin-update-user/index.ts:25-27 | a preflight request is answered 200 before anything else is checked, and calls nothing |
| UpdateUserFunction.ConfigBeforeAuth | supabase/functions/admin-update-user/index.ts:29-35 | a missing service key or shared secret is a 500 whatever the request carries, and calls nothing |
| UpdateUserFunction.CallMeaning | supabase/functions/admin-update-user/index.ts:24-71 | the admin API is called exactly when every guard passes, for the payload's user, with only the truthy email and password; every refusal is a 4xx or 5xx |
| UpdateUserFunction.UnauthorizedMeaning | supabase/functions/admin-update-user/index.ts:37-40 | once configured, a request is refused with 401 exactly when its credential is not the shared secret |
| UpdateUserFunction.ResponseMeaning | supabase/functions/admin-update-user/index.ts:71-83 | an API error is a 400 with its message; a success is a 200 whose flags name exactly the fields that were changed |
| UpdateUserFunction.BearerCredential | supabase/functions/admin-update-user/index.ts:37 | without an `x-admin-secret`, a bearer token is read with its "Bearer " prefix removed |
| UpdateUserFunction.SecretHeaderWins | supabase/functions/admin-update-user/index.ts:37 | a non-empty `x-admin-secret` is the credential whatever the `Authorization` header says |
| UpdateUserFunction.PageRequestAccepted | src/pages/admin/AdminUsersPage.tsx:283-295 | every request the credentials form sends, with the deployment's secret, passes all the function's guards and changes the form's user |
| AdminLogin.ValidMeaning | src/pages/admin/AdminLoginPage.tsx:12-25 | each mode's schema accepts exactly what the mode asks for: a valid email always, a password of six or more outside recovery, and a name of two or more on sign-up |
| AdminLogin.SubmitGate | src/pages/admin/AdminLoginPage.tsx:41-66 | only an acceptable form reaches auth, with the mode's own call; a rejected one keeps what was typed, shows the schema's field errors and calls nothing |
| AdminLogin.SignupSuccess | src/pages/admin/AdminLoginPage.tsx:78-92 | a successful sign-up returns to login with the email kept and the name and password cleared, and does not enter the dashboard |
| AdminLogin.ForgotSuccess | src/pages/admin/AdminLoginPage.tsx:69-77 | the sent-email panel appears exactly after a recovery request that succeeds |
| AdminLogin.LoginSuccess | src/pages/admin/AdminLoginPage.tsx:93-105 | only a successful login with an acceptable form leads to the dashboard |
| AdminLogin.ErrorTextMeaning | src/pages/admin/AdminLoginPage.tsx:72-100 | the 'already registered' and 'Invalid login credentials' messages get fixed texts wherever they occur; any other message is shown as sent, and an empty recovery error gets the fallback |
| AdminLogin.ModeChangedMeaning | src/pages/admin/AdminLoginPage.tsx:114-118 | changing mode clears the errors and the sent panel and keeps what was typed |
| AdminLogin.LinksMeaning | src/pages/admin/AdminLoginPage.tsx:153-307 | login and sign-up lead to each other, the recovery form is reached from login only and leads back to login only, and no link shows the sent panel |
| ResetPassword.ResetValidMeaning | src/pages/admin/AdminResetPasswordPage.tsx:12-18 | the schema accepts exactly a password of six or more characters typed twice alike |
| ResetPassword.MismatchOnConfirm | src/pages/admin/AdminResetPasswordPage.tsx:12-18 | a mismatch is reported on the confirmation field even next to a too-short password, and the password field shows only its length error |
| ResetPassword.SubmitGate | src/pages/admin/AdminResetPasswordPage.tsx:42-64 | only an acceptable pair reaches the password update, with the new password; a rejected one keeps the page and calls nothing |
| ResetPassword.SuccessMeaning | src/pages/admin/AdminResetPasswordPage.tsx:64-73 | the page turns to its success state exactly when a valid password is stored without error |
| ResetPassword.RedirectsMeaning | src/pages/admin/AdminResetPasswordPage.tsx:31-40 | a recovery link or a live session keeps the visitor on the page, and anything else sends them to login |
| AdminSidebar.LinkActiveMeaning | src/components/admin/AdminSidebar.tsx:44-47 | the root entry is highlighted on its own path only, and any other entry on its own path and every path that begins with it |
| Header.IsActiveMeaning | src/components/layout/Header.tsx:8-24 | the header highlights the home link on `/` alone and every other link on its own path and below it; on the home page no other link is highlighted |
| AdminSidebar.PrefixNotSegment | src/components/admin/AdminSidebar.tsx:46 | the prefix test does not stop at a path segment: `/admin/imoveisX` highlights "Imóveis", and the dashboard is not highlighted below itself |
| AdminSidebar.AtMostOneActive | src/components/admin/AdminSidebar.tsx:26-47 | whatever the path, at most one menu entry is highlighted |
| AdminSidebar.HrefsUnrelated | src/components/admin/AdminSidebar.tsx:26-33 | no entry's path below the dashboard begins with another entry's path |
| AdminSidebar.VisibleMeaning | src/components/admin/AdminSidebar.tsx:49 | an entry is shown exactly when it is in the menu and is not admin-only or the user is an admin |
| AdminSidebar.VisibleLists | src/components/admin/AdminSidebar.tsx:26-49 | an admin sees all six entries and anyone else the first five, without "Usuários", in the same order |
| AdminSidebar.RoleLabelMeaning | src/components/admin/AdminSidebar.tsx:145 | the card says "Administrador" exactly for admins and "Editor" for everyone else |
| AdminSidebar.CardMeaning | src/components/admin/AdminSidebar.tsx:138-142 | the card's name is the address's part before the first `@`, and its avatar the upper-cased first letter |

## Where the description and the code differ

Where the repository's written description of its behaviour differs from the code, the model follows the code:
- The purposes are the strings `venda`, `aluguel` and `temporada`, as the code compares them.
- A field's error in the error map is the last issue zod reports for it, not the first (src/pages/ContactPage.tsx:71-78).
- A rent listing with no rental price still carries the `/mês` suffix (src/components/PropertyCard.tsx:24-28).
- The two defects under Findings are kept in the page models: areas below a hectare end in `mÂ²`, and a save that leaves no image writes no image rows. The corrected definitions stand beside them, with their own lemmas.

## Left out

- Store, auth, storage and realtime calls: only their outcomes are modelled, as parameters of the operations (an error code, the rows returned, whether an upload failed).
- Exceptions thrown on the way to a store call: the `catch` branches that only show a generic toast are not modelled, for example AdminLoginPage.tsx:107-108 and AdminResetPasswordPage.tsx:75-76.
- A failed `res.json()` in the credentials update: the page's message for a non-JSON answer is not modelled.
- Load-time query errors of the pages and hooks: they only show a toast or leave a list empty. The dashboard and the user list, where a failure changes what is shown, are modelled.
- Timers and event-loop order: the 5-second toast, the 2-second redirect after a reset, loading flags, and the race between the bell's first fetch and its subscription.
- Floating point: prices and areas are whole numbers, `parseFloat` is the parameter `parseNumber`, and `parseInt` is modelled for decimal digits after white space and a sign.
- Format.FormatAreaHectares: rounds a tenth of a hectare half up on the exact value, while `toFixed(1)` works on the binary double and can round a tie down (11 500 m² gives `1,1` there and `1,2` here).
- Format.FormatPrice: states `Intl.NumberFormat` for pt-BR and BRL as `R$`, a no-break space and the `.`-grouped digits. Other locales and fraction digits are not modelled.
- Dates: `date-fns` day bucketing and its time zone are replaced by integer days. `fullDate` (the `dd/MM/yyyy` text of a day) is a parameter. The weekday and `dd/MM` chart labels are not modelled.
- The dashboard's PDF export and the file downloads: rendering and DOM plumbing. The period totals the PDF prints are modelled.
- Text encoding:
  - Strings are sequences of Unicode scalar values, while JavaScript's `length` counts UTF-16 code units. The two differ only for characters outside the Basic Multilingual Plane, which the length bounds of the forms would count twice.
  - `toLowerCase`/`toUpperCase` are modelled for ASCII and Latin-1 only.
  - The NFD accent strip of `generateSlug` is modelled for the precomposed Latin-1 letters only.
- `encodeURIComponent` and the percent-encoding of `URLSearchParams`: parameters are kept as decoded name/value pairs.
- JavaScript `Record` lookups are modelled on the objects' own keys. A key such as `constructor`, which finds an inherited property in JavaScript, is treated as unknown.
- Non-string JSON values in the edge function's payload: the three fields are modelled as optional strings, and a JSON `null` body as a payload with no fields.
- The sign-in/sign-up/reset helpers of the auth hook, and the admin redirect and session gating of the admin layout: they are not part of this model.
- The resend-confirmation and send-reset buttons of the user list (AdminUsersPage.tsx:314-345): each is a single auth call followed by a toast of its outcome.
- Loading an existing listing into the property form (AdminPropertyFormPage.tsx:120-168): a field-by-field copy of a fetched row.
- `uploadImages` in ImageUpload.tsx: it is never called, and it is storage I/O only.
- The storage file names `saveImages` gives uploaded listing photos (AdminPropertyFormPage.tsx:322): they come from the clock and a random number. The settings page's file name is modelled, with the time as a parameter.
- Markup-only pages and components (home, about, privacy, terms, not found, footer, categories list, routing, the WhatsApp button) and the query-only `useCategories` hook.
- Postgres ordering: rows with equal sort keys come back in the order they were stored (the model treats the store's sort as stable).
- ImageUpload.DoneLoading: clears the loading flags of the list as it stands. The uploader's 500 ms timer instead replays the list captured when the files were chosen (src/components/admin/ImageUpload.tsx:60-70), so a removal or cover change made within that half second is undone. Timers are not modelled.
- ImageUpload.Remove: builds a fresh list. The uploader sets `is_cover` in place on the first remaining image object (src/components/admin/ImageUpload.tsx:97-99), which also changes the list a pending timer holds, so its replay can show two covers. Object identity is not modelled.
- AdminSettings.Save: writes the changes in the order they were made. `Object.entries` (src/pages/admin/AdminSettingsPage.tsx:102) lists integer-like keys first, in ascending order; setting keys are taken not to be integer-like.
- AdminSettings.Categories: lists categories in the order they first appear. `Object.keys` (src/pages/admin/AdminSettingsPage.tsx:130) lists integer-like names first; category names are taken not to be integer-like.
- Catalog.Below: orders the city selector by character, while the default `sort` (src/pages/PropertiesPage.tsx:53) compares UTF-16 code units. The two differ only when a name holds a character outside the Basic Multilingual Plane: such a character sorts before one from U+E000 to U+FFFF there, and after it here.

## Findings

| source | as written | input that shows it | evidently intended | confidence | as-written member | corrected member |
|---|---|---|---|---|---|---|
| src/hooks/useProperties.ts:224 | the square-metre unit is the mis-encoded literal `mÂ²` | `formatArea(100)` gives `100 mÂ²` | `100 m²`, as the sample data's `formatArea` writes it | not executed | Format.FormatAreaAsWrittenUnit | Format.FormatAreaMetres |
| src/pages/admin/AdminPropertyFormPage.tsx:280-282 | `saveImages`, which deletes the removed images, runs only when `images.length > 0` | editing a stored listing with one image, removing it and saving deletes nothing, so the image stays in `property_images` | the stored images the editor removed are deleted whatever is left | not executed | PropertyForm.EmptiedListKeepsStoredImages | PropertyForm.ImagePlanDeletesRemoved |

=== FILE: admin_categories.dfy ===
/**
 * The admin category page: its dialog form, where the name drives the slug;
 * the write a submit makes, with its `ordem`, slug and icon defaults; and
 * the messages for store errors.
 */
module AdminCategories {
  import opened Wrappers
  import Slug
  import opened Listing
  import ImageUpload

  datatype CategoryForm = CategoryForm(nome: string, slug: string, icon: string)

  const EmptyForm := CategoryForm("", "", "")

  /** The dialog: open or not, the category being edited (none for a new one), and the form. */
  datatype Dialog = Dialog(isOpen: bool, editing: Option<Category>, form: CategoryForm)

  /** The write a valid submit makes. */
  datatype Write =
    | UpdateCategory(id: string, nome: string, slug: string, iconOrNull: Option<string>)
    | InsertCategory(nome: string, slug: string, icon: string, ordem: int)

  /** `handleNameChange`: the name is stored and the slug regenerated from it. */
  function NameChanged(f: CategoryForm, nome: string): CategoryForm {
    f.(nome := nome, slug := Slug.GenerateSlug(nome))
  }

  /** `Math.max(...ordem) + 1`, or 0 with no categories. */
  function NextOrdem(categories: seq<Category>): int {
    if |categories| > 0 then
      ImageUpload.MaxOf(seq(|categories|, i requires 0 <= i < |categories| => categories[i].ordem)) + 1
    else 0
  }

  /** `formData.slug || generateSlug(formData.nome)`. */
  function SlugOf(f: CategoryForm): string {
    if f.slug != "" then f.slug else Slug.GenerateSlug(f.nome)
  }

  function WriteFor(d: Dialog, categories: seq<Category>): Write {
    if d.editing.Some? then
      UpdateCategory(d.editing.value.id, d.form.nome, SlugOf(d.form), if d.form.icon != "" then Some(d.form.icon) else None)
    else
      InsertCategory(d.form.nome, SlugOf(d.form), if d.form.icon != "" then d.form.icon else "Home", NextOrdem(categories))
  }

  datatype Submitted = Submitted(write: Option<Write>, dialog: Dialog, message: string)

  /**
   * `handleSubmit`: an empty name writes nothing; otherwise the write is made
   * and `storeError` is its error code, if any.  Success closes and resets the dialog.
   */
  function Submit(d: Dialog, categories: seq<Category>, storeError: Option<string>): Submitted {
    if d.form.nome == "" then Submitted(None, d, "Nome é obrigatório")
    else
      var w := WriteFor(d, categories);
      if storeError.Some? then
        Submitted(Some(w), d, if storeError.value == "23505" then "Já existe uma categoria com este slug" else "Erro ao salvar categoria")
      else
        Submitted(Some(w), Dialog(false, None, EmptyForm), if d.editing.Some? then "Categoria atualizada!" else "Categoria criada!")
  }

  /** `handleEdit`: the dialog opens on the category, a null icon shown as empty. */
  function Edit(c: Category): Dialog {
    Dialog(true, Some(c), CategoryForm(c.nome, c.slug, c.icon.GetOr("")))
  }

  /** `handleOpenChange`: closing forgets the edited category and empties the form. */
  function OpenChange(d: Dialog, open: bool): Dialog {
    if open then d.(isOpen := true) else Dialog(false, None, EmptyForm)
  }

  /** `handleDelete`'s toast: `None` when the confirmation is declined and nothing is deleted. */
  function DeleteMessage(confirmed: bool, storeError: Option<string>): Option<string> {
    if !confirmed then None
    else if storeError.None? then Some("Categoria excluída!")
    else if storeError.value == "23503" then Some("Não é possível excluir categoria com imóveis vinculados")
    else Some("Erro ao excluir categoria")
  }

  // ---------------------------------------------------------------------
  // Properties

  /** Typing a name changes the name and the slug only, and the slug is a well-formed slug of it. */
  lemma NameChangedMeaning(f: CategoryForm, nome: string)
    ensures NameChanged(f, nome).nome == nome && NameChanged(f, nome).icon == f.icon
    ensures Slug.IsSlug(NameChanged(f, nome).slug)
    ensures NameChanged(f, nome).slug == Slug.GenerateSlug(nome)
  {
    Slug.GenerateSlugIsSlug(nome);
  }

  /** A new category is numbered above every existing one, and 0 is the first number. */
  lemma NextOrdemMeaning(categories: seq<Category>)
    ensures forall i :: 0 <= i < |categories| ==> categories[i].ordem < NextOrdem(categories)
    ensures |categories| > 0 ==> exists i :: 0 <= i < |categories| && NextOrdem(categories) == categories[i].ordem + 1
    ensures |categories| == 0 ==> NextOrdem(categories) == 0
  {
    if |categories| > 0 {
      var ordens := seq(|categories|, i requires 0 <= i < |categories| => categories[i].ordem);
      assert forall i :: 0 <= i < |categories| ==> ordens[i] == categories[i].ordem;
      var m := ImageUpload.MaxOf(ordens);
      var i :| 0 <= i < |ordens| && ordens[i] == m;
      assert NextOrdem(categories) == categories[i].ordem + 1;
    }
  }

  /** An empty name never reaches the store, and a filled one always does. */
  lemma SubmitGate(d: Dialog, categories: seq<Category>, storeError: Option<string>)
    ensures Submit(d, categories, storeError).write.None? <==> d.form.nome == ""
    ensures d.form.nome == "" ==> Submit(d, categories, storeError).dialog == d
  {
  }

  /**
   * The write: an empty slug falls back to the name's slug on both paths; an
   * empty icon becomes 'Home' on insert and null on update.
   */
  lemma WriteDefaults(d: Dialog, categories: seq<Category>)
    ensures var w := WriteFor(d, categories);
      && (w.UpdateCategory? <==> d.editing.Some?)
      && w.nome == d.form.nome
      && (d.form.slug == "" ==> w.slug == Slug.GenerateSlug(d.form.nome) && Slug.IsSlug(w.slug))
      && (d.form.slug != "" ==> w.slug == d.form.slug)
      && (w.InsertCategory? ==> (w.icon == if d.form.icon == "" then "Home" else d.form.icon))
      && (w.UpdateCategory? ==> (w.iconOrNull.None? <==> d.form.icon == "") && w.id == d.editing.value.id)
      && (w.InsertCategory? ==> w.ordem == NextOrdem(categories))
  {
    Slug.GenerateSlugIsSlug(d.form.nome);
  }

  /** The toasts of a submit with a name: duplicate slug, other error, and success per mode. */
  lemma SubmitMessages(d: Dialog, categories: seq<Category>, storeError: Option<string>)
    requires d.form.nome != ""
    ensures var s := Submit(d, categories, storeError);
      && (storeError == Some("23505") ==> s.message == "Já existe uma categoria com este slug")
      && (storeError.Some? && storeError.value != "23505" ==> s.message == "Erro ao salvar categoria" && s.dialog == d)
      && (storeError.None? ==> !s.dialog.isOpen && s.dialog.editing.None? && s.dialog.form == EmptyForm)
      && (storeError.None? && d.editing.Some? ==> s.message == "Categoria atualizada!")
      && (storeError.None? && d.editing.None? ==> s.message == "Categoria criada!")
  {
  }

  /** Editing and saving unchanged keeps the category's name and slug. */
  lemma EditRoundTrip(c: Category, categories: seq<Category>)
    requires c.nome != "" && c.slug != ""
    ensures Submit(Edit(c), categories, None).write == Some(UpdateCategory(c.id, c.nome, c.slug,
      if c.icon.Some? && c.icon.value != "" then c.icon else None))
  {
  }

  /** Closing the dialog always leaves it empty and not editing; opening changes nothing else. */
  lemma OpenChangeMeaning(d: Dialog, open: bool)
    ensures !open ==> OpenChange(d, open) == Dialog(false, None, EmptyForm)
    ensures open ==> OpenChange(d, open).form == d.form && OpenChange(d, open).editing == d.editing
    ensures OpenChange(d, open).isOpen == open
  {
  }

  /** The delete toast maps 23503 to the linked-listings message and declines to nothing. */
  lemma DeleteMessageMeaning(confirmed: bool, storeError: Option<string>)
    ensures DeleteMessage(confirmed, storeError).None? <==> !confirmed
    ensures confirmed && storeError == Some("23503") ==>
      DeleteMessage(confirmed, storeError) == Some("Não é possível excluir categoria com imóveis vinculados")
    ensures confirmed && storeError.Some? && storeError.value != "23503" ==>
      DeleteMessage(confirmed, storeError) == Some("Erro ao excluir categoria")
  {
  }
}

=== FILE: admin_lists.dfy ===
/**
 * The admin listing and lead tables: the status filter that reaches the
 * query, the text search over listings, the status and origin badges, and
 * the links a lead row offers.
 */
module AdminLists {
  import opened Wrappers
  import Text
  import opened Arrays

  /** `statusFilter && statusFilter !== 'all'`: the status the query is restricted to, if any. */
  function StatusFilter(choice: string): Option<string> {
    if choice != "" && choice != "all" then Some(choice) else None
  }

  /** The query's `.eq('status', …)`, when the filter reaches it. */
  function ByStatus<T>(rows: seq<T>, status: T -> string, choice: string): seq<T> {
    match StatusFilter(choice)
    case None => rows
    case Some(s) => Filter(rows, (r: T) => status(r) == s)
  }

  // ---------------------------------------------------------------------
  // Listings

  /** A row of the listing table. */
  datatype AdminProperty = AdminProperty(
    id: string, titulo: string, codigoInterno: string, cidade: string, bairro: string,
    preco: int, status: string, finalidade: string, createdAt: int)

  /** The search box matches the title, the internal code or the city, ignoring case. */
  predicate SearchHit(search: string, p: AdminProperty) {
    var q := Text.Lower(search);
    || Text.Contains(Text.Lower(p.titulo), q)
    || Text.Contains(Text.Lower(p.codigoInterno), q)
    || Text.Contains(Text.Lower(p.cidade), q)
  }

  /** `filteredProperties`. */
  function Searched(ps: seq<AdminProperty>, search: string): seq<AdminProperty> {
    Filter(ps, (p: AdminProperty) => SearchHit(search, p))
  }

  datatype Variant = Default | Secondary | Destructive | Outline

  datatype Badge = Badge(variant: Variant, caption: string)

  const PropertyStatuses: seq<string> := ["publicado", "rascunho", "inativo", "vendido", "alugado"]

  /** `getStatusBadge` of the listing table; an unknown status shows itself on a secondary badge. */
  function PropertyBadge(status: string): Badge {
    if status == "publicado" then Badge(Default, "Publicado")
    else if status == "rascunho" then Badge(Secondary, "Rascunho")
    else if status == "inativo" then Badge(Outline, "Inativo")
    else if status == "vendido" then Badge(Destructive, "Vendido")
    else if status == "alugado" then Badge(Destructive, "Alugado")
    else Badge(Secondary, status)
  }

  // ---------------------------------------------------------------------
  // Leads

  /** The statuses a lead can be given. */
  const LeadStatuses: seq<string> := ["novo", "em_contato", "fechado"]

  /** `getStatusBadge` of the lead table. */
  function LeadBadge(status: string): Badge {
    if status == "novo" then Badge(Destructive, "Novo")
    else if status == "em_contato" then Badge(Default, "Em Contato")
    else if status == "fechado" then Badge(Secondary, "Fechado")
    else Badge(Secondary, status)
  }

  /** `getOrigemLabel`: the three known origins, otherwise the raw value. */
  function OrigemLabel(origem: string): string {
    if origem == "contato" then "Contato"
    else if origem == "anuncie" then "Anuncie"
    else if origem == "imovel" then "Imóvel"
    else origem
  }

  /** One item of a row's status selector: the value written and the caption shown. */
  datatype StatusChoice = StatusChoice(value: string, caption: string)

  /** The items of every row's status selector, whatever the row's current status. */
  const StatusChoices: seq<StatusChoice> :=
    [StatusChoice("novo", "Novo"), StatusChoice("em_contato", "Em Contato"), StatusChoice("fechado", "Fechado")]

  /** `https://wa.me/55` and the phone with every non-digit removed. */
  function WhatsAppLink(telefone: string): string {
    "https://wa.me/55" + Text.DigitsOf(telefone)
  }

  /** The edit link of the listing a lead came from, shown when `property_id` is truthy. */
  function ListingLink(propertyId: Option<string>): Option<string> {
    if propertyId.Some? && propertyId.value != "" then Some("/admin/imoveis/" + propertyId.value + "/editar") else None
  }

  /** `handleDelete`'s toast; `None` when the confirmation is declined and nothing is deleted. */
  function DeleteListingMessage(confirmed: bool, storeError: Option<string>): Option<string> {
    if !confirmed then None
    else if storeError.None? then Some("Imóvel excluído com sucesso")
    else Some("Erro ao excluir imóvel")
  }

  /** A row of the lead table, with the fields the row's controls use. */
  datatype LeadEntry = LeadEntry(id: string, telefone: string, origem: string, status: string, propertyId: Option<string>)

  /** The store's `.update({ status }).eq('id', id)` on the lead table. */
  function SetStatus(table: seq<LeadEntry>, id: string, status: string): seq<LeadEntry> {
    seq(|table|, i requires 0 <= i < |table| => if table[i].id == id then table[i].(status := status) else table[i])
  }

  /** The lead table after a status change, the rows the page then lists, and the toast. */
  datatype StatusUpdate = StatusUpdate(table: seq<LeadEntry>, shown: seq<LeadEntry>, message: string)

  /**
   * `updateStatus`: the store's update, then `fetchLeads`, which queries the
   * table again through the current status filter.  On failure nothing is
   * written and the page keeps the rows of its last fetch.
   */
  function StatusUpdated(table: seq<LeadEntry>, choice: string, id: string, status: string,
                         storeError: Option<string>): StatusUpdate {
    if storeError.Some? then
      StatusUpdate(table, ByStatus(table, (l: LeadEntry) => l.status, choice), "Erro ao atualizar status")
    else
      var after := SetStatus(table, id, status);
      StatusUpdate(after, ByStatus(after, (l: LeadEntry) => l.status, choice), "Status atualizado!")
  }

  // ---------------------------------------------------------------------
  // Properties

  /** The filter reaches the query exactly when a real status is chosen, and then it is that status. */
  lemma StatusFilterMeaning(choice: string)
    ensures StatusFilter(choice).None? <==> choice == "" || choice == "all"
    ensures StatusFilter(choice).Some? ==> StatusFilter(choice).value == choice
  {
  }

  /** The filtered rows are the rows of the chosen status, or all rows when no status applies. */
  lemma ByStatusMeaning<T>(rows: seq<T>, status: T -> string, choice: string, r: T)
    ensures StatusFilter(choice).None? ==> ByStatus(rows, status, choice) == rows
    ensures StatusFilter(choice).Some? ==>
      (r in ByStatus(rows, status, choice) <==> r in rows && status(r) == choice)
  {
    if StatusFilter(choice).Some? {
      FilterMeaning(rows, (x: T) => status(x) == choice, r);
    }
  }

  /** The search keeps exactly the matching rows. */
  lemma SearchedMeaning(ps: seq<AdminProperty>, search: string, p: AdminProperty)
    ensures p in Searched(ps, search) <==> p in ps && SearchHit(search, p)
    ensures |Searched(ps, search)| <= |ps|
  {
    FilterMeaning(ps, (q: AdminProperty) => SearchHit(search, q), p);
  }

  /** The kept rows stay in the order the query returned them. */
  lemma SearchedKeepsOrder(ps: seq<AdminProperty>, search: string, a: nat, b: nat)
    requires a < b < |Searched(ps, search)|
    ensures var idx := KeptAt(ps, (q: AdminProperty) => SearchHit(search, q));
      && |idx| == |Searched(ps, search)|
      && idx[a] < idx[b] && idx[b] < |ps|
      && ps[idx[a]] == Searched(ps, search)[a] && ps[idx[b]] == Searched(ps, search)[b]
  {
    var keep := (q: AdminProperty) => SearchHit(search, q);
    KeptAtMeaning(ps, keep, a);
    KeptAtMeaning(ps, keep, b);
    KeptAtRising(ps, keep, a, b);
  }

  /** An empty search keeps every row. */
  lemma EmptySearchKeepsAll(ps: seq<AdminProperty>)
    ensures Searched(ps, "") == ps
  {
    forall i | 0 <= i < |ps| ensures SearchHit("", ps[i]) {
      assert Text.Lower("") == "";
      Text.ContainsEmpty(Text.Lower(ps[i].titulo));
    }
    FilterAll(ps, (q: AdminProperty) => SearchHit("", q));
  }

  /** The neighbourhood is not searched: changing it never changes a match. */
  lemma BairroNotSearched(search: string, p: AdminProperty, bairro: string)
    ensures SearchHit(search, p.(bairro := bairro)) == SearchHit(search, p)
  {
  }

  /**
   * The five statuses have labels of their own, no two alike; any other
   * status is shown as itself on a secondary badge.
   */
  lemma PropertyBadgeMeaning(status: string, other: string)
    ensures status !in PropertyStatuses ==> PropertyBadge(status) == Badge(Secondary, status)
    ensures status in PropertyStatuses ==> PropertyBadge(status).caption != status
    ensures status in PropertyStatuses && other in PropertyStatuses && status != other ==>
      PropertyBadge(status).caption != PropertyBadge(other).caption
    ensures PropertyBadge("vendido").variant == PropertyBadge("alugado").variant == Destructive
  {
  }

  lemma LeadBadgeMeaning(status: string, other: string)
    ensures status !in LeadStatuses ==> LeadBadge(status) == Badge(Secondary, status)
    ensures status in LeadStatuses ==> LeadBadge(status).caption != status
    ensures status in LeadStatuses && other in LeadStatuses && status != other ==>
      LeadBadge(status).caption != LeadBadge(other).caption
  {
  }

  lemma OrigemLabelMeaning(origem: string, other: string)
    ensures origem !in ["contato", "anuncie", "imovel"] ==> OrigemLabel(origem) == origem
    ensures origem in ["contato", "anuncie", "imovel"] ==> OrigemLabel(origem) != origem
    ensures origem in ["contato", "anuncie", "imovel"] && other in ["contato", "anuncie", "imovel"] && origem != other ==>
      OrigemLabel(origem) != OrigemLabel(other)
  {
  }

  /**
   * The selector offers exactly the lead statuses, in order, each captioned
   * as its badge, so any status can be changed to any of the three.
   */
  lemma StatusChoicesMeaning(target: string)
    ensures |StatusChoices| == |LeadStatuses|
    ensures forall i :: 0 <= i < |StatusChoices| ==>
      StatusChoices[i].value == LeadStatuses[i] && StatusChoices[i].caption == LeadBadge(LeadStatuses[i]).caption
    ensures target in LeadStatuses <==> exists i :: 0 <= i < |StatusChoices| && StatusChoices[i].value == target
  {
  }

  /** The link holds digits only after its prefix, and formatting characters make no difference. */
  lemma WhatsAppLinkMeaning(telefone: string, a: string, c: char, b: string)
    requires !Text.IsAsciiDigit(c)
    ensures var link := WhatsAppLink(telefone);
      && link[..16] == "https://wa.me/55"
      && forall i :: 16 <= i < |link| ==> Text.IsAsciiDigit(link[i])
    ensures WhatsAppLink(Text.DigitsOf(telefone)) == WhatsAppLink(telefone)
    ensures WhatsAppLink(a + [c] + b) == WhatsAppLink(a + b)
  {
    var link := WhatsAppLink(telefone);
    var d := Text.DigitsOf(telefone);
    assert link[..16] == "https://wa.me/55";
    assert forall i :: 16 <= i < |link| ==> link[i] == d[i - 16];
    assert Text.DigitsOf(d) == d;
    DropNonDigit(a, c, b);
  }

  lemma DropNonDigit(a: string, c: char, b: string)
    requires !Text.IsAsciiDigit(c)
    ensures Text.DigitsOf(a + [c] + b) == Text.DigitsOf(a + b)
  {
    Text.DigitsOfAppend(a + [c], b);
    Text.DigitsOfAppend(a, [c]);
    Text.DigitsOfAppend(a, b);
    assert Text.DigitsOf([c]) == "";
  }

  /** The listing link is offered exactly when the lead names a listing. */
  lemma ListingLinkMeaning(propertyId: Option<string>)
    ensures ListingLink(propertyId).Some? <==> propertyId.Some? && propertyId.value != ""
    ensures ListingLink(propertyId).Some? ==>
      ListingLink(propertyId).value == "/admin/imoveis/" + propertyId.value + "/editar"
  {
  }

  lemma DeleteListingMessageMeaning(confirmed: bool, storeError: Option<string>)
    ensures DeleteListingMessage(confirmed, storeError).None? <==> !confirmed
    ensures confirmed ==>
      (DeleteListingMessage(confirmed, storeError) == Some("Imóvel excluído com sucesso") <==> storeError.None?)
  {
  }

  /**
   * A failed update leaves the table as it was; a successful one gives the
   * new status to the rows with that id and leaves every other row and field
   * alone.  The page then lists the updated rows that pass the status filter,
   * so a lead moved out of the filtered status leaves the list.
   */
  lemma StatusUpdatedMeaning(table: seq<LeadEntry>, choice: string, id: string, status: string,
                             storeError: Option<string>, i: nat, r: LeadEntry)
    requires i < |table|
    ensures var u := StatusUpdated(table, choice, id, status, storeError);
      && |u.table| == |table|
      && (storeError.Some? ==> u.table == table && u.message == "Erro ao atualizar status")
      && (storeError.None? ==> u.message == "Status atualizado!")
      && (storeError.None? && table[i].id == id ==> u.table[i].status == status)
      && (table[i].id != id ==> u.table[i] == table[i])
      && u.table[i].(status := table[i].status) == table[i]
      && (StatusFilter(choice).None? ==> u.shown == u.table)
      && (StatusFilter(choice).Some? ==> (r in u.shown <==> r in u.table && r.status == choice))
      && (storeError.None? && StatusFilter(choice).Some? && table[i].id == id ==>
            (u.table[i] in u.shown <==> status == choice))
  {
    var u := StatusUpdated(table, choice, id, status, storeError);
    ByStatusMeaning(u.table, (l: LeadEntry) => l.status, choice, r);
    ByStatusMeaning(u.table, (l: LeadEntry) => l.status, choice, u.table[i]);
  }
}

=== FILE: admin_login.dfy ===
/**
 * The admin login page: three modes (login, sign-up, forgotten password),
 * the schema each mode validates, the auth call a valid form makes, how auth
 * errors become toasts, and which mode each link leads to.
 */
module AdminLogin {
  import opened Wrappers
  import Text
  import opened Validation

  datatype Mode = Login | Signup | ForgotPassword

  /** The page's state. */
  datatype Page = Page(mode: Mode, nome: string, email: string, password: string,
                       errors: map<string, string>, resetEmailSent: bool)

  const Initial := Page(Login, "", "", "", map[], false)

  const EmailField := Field("email", "", [EmailRule("Email inválido")])

  const NomeTooShort := "Nome deve ter pelo menos 2 caracteres"
  const EmailInvalid := "Email inválido"
  const PasswordTooShort := "Senha deve ter pelo menos 6 caracteres"

  /** The schema of the current mode, over the page's fields. */
  function SchemaFor(p: Page): Schema {
    var nome := Field("nome", p.nome, [MinLen(2, NomeTooShort)]);
    var email := Field("email", p.email, [EmailRule(EmailInvalid)]);
    var password := Field("password", p.password, [MinLen(6, PasswordTooShort)]);
    match p.mode
    case Signup => Schema([nome, email, password], [])
    case ForgotPassword => Schema([email], [])
    case Login => Schema([email, password], [])
  }

  /** What each mode asks of the form. */
  predicate Acceptable(p: Page, isEmail: string -> bool) {
    && isEmail(p.email)
    && (p.mode != ForgotPassword ==> |p.password| >= 6)
    && (p.mode == Signup ==> |p.nome| >= 2)
  }

  /** The auth helper a valid submit calls. */
  datatype AuthCall =
    | ResetPassword(email: string)
    | SignUp(email: string, password: string, nome: string)
    | SignIn(email: string, password: string)

  datatype Notice = NoNotice | Success(text: string) | Failure(text: string)

  datatype Submitted = Submitted(page: Page, call: Option<AuthCall>, notice: Notice, toAdmin: bool)

  /** The toast for an auth error of the mode; two known messages get fixed texts. */
  function ErrorText(mode: Mode, message: string): string {
    match mode
    case ForgotPassword => if message != "" then message else "Erro ao enviar email de recuperação"
    case Signup => if Text.Contains(message, "already registered") then "Este email já está cadastrado" else message
    case Login => if Text.Contains(message, "Invalid login credentials") then "Email ou senha incorretos" else message
  }

  /**
   * `handleSubmit`: the errors are cleared and the mode's schema checked; an
   * invalid form shows its field errors and calls nothing.  Otherwise the
   * mode's helper is called and `authError` is its error message, if any.
   */
  function Submit(p: Page, isEmail: string -> bool, authError: Option<string>): Submitted {
    var issues := Issues(SchemaFor(p), isEmail);
    if issues != [] then Submitted(p.(errors := ErrorMap(issues)), None, NoNotice, false)
    else
      var q := p.(errors := map[]);
      match p.mode
      case ForgotPassword =>
        var call := Some(ResetPassword(p.email));
        if authError.Some? then Submitted(q, call, Failure(ErrorText(ForgotPassword, authError.value)), false)
        else Submitted(q.(resetEmailSent := true), call,
                       Success("Email de recuperação enviado! Verifique sua caixa de entrada."), false)
      case Signup =>
        var call := Some(SignUp(p.email, p.password, p.nome));
        if authError.Some? then Submitted(q, call, Failure(ErrorText(Signup, authError.value)), false)
        else Submitted(q.(mode := Login, nome := "", password := ""), call,
                       Success("Conta criada! Agora um administrador precisa liberar seu acesso."), false)
      case Login =>
        var call := Some(SignIn(p.email, p.password));
        if authError.Some? then Submitted(q, call, Failure(ErrorText(Login, authError.value)), false)
        else Submitted(q, call, Success("Login realizado com sucesso!"), true)
  }

  /** `handleModeChange`: a new mode, with no errors and no sent-email panel. */
  function ModeChanged(p: Page, m: Mode): Page {
    p.(mode := m, errors := map[], resetEmailSent := false)
  }

  /** The "email sent" panel replaces the form. */
  predicate SentPanel(p: Page) {
    p.mode == ForgotPassword && p.resetEmailSent
  }

  /** The links the page shows: the sign-up toggle, "forgot password", and "back to login". */
  datatype Link = Toggle | Forgot | Back

  function Links(p: Page): set<Link> {
    match p.mode
    case Login => {Toggle, Forgot}
    case Signup => {Toggle}
    case ForgotPassword => {Back}
  }

  /** The mode a link leads to. */
  function Target(p: Page, l: Link): Mode {
    match l
    case Toggle => if p.mode == Signup then Login else Signup
    case Forgot => ForgotPassword
    case Back => Login
  }

  /** Following a link the page shows. */
  function Follow(p: Page, l: Link): Page
    requires l in Links(p)
  {
    ModeChanged(p, Target(p, l))
  }

  // ---------------------------------------------------------------------
  // Properties

  /** Each mode's schema accepts exactly what the mode asks for. */
  lemma ValidMeaning(p: Page, isEmail: string -> bool)
    ensures Issues(SchemaFor(p), isEmail) == [] <==> Acceptable(p, isEmail)
  {
    IssuesEmptyMeaning(SchemaFor(p), isEmail);
    match p.mode
    case Signup => SignupValid(p, isEmail);
    case ForgotPassword => ForgotValid(p, isEmail);
    case Login => LoginValid(p, isEmail);
  }

  lemma SignupValid(p: Page, isEmail: string -> bool)
    requires p.mode == Signup
    ensures Valid(SchemaFor(p), isEmail) <==> Acceptable(p, isEmail)
  {
    var s := SchemaFor(p);
    if Acceptable(p, isEmail) {
      forall i, j | 0 <= i < |s.fields| && 0 <= j < |s.fields[i].rules|
        ensures Passes(s.fields[i].rules[j], s.fields[i].value, isEmail)
      {
      }
    } else if |p.nome| < 2 {
      assert !Passes(s.fields[0].rules[0], s.fields[0].value, isEmail);
    } else if !isEmail(p.email) {
      assert !Passes(s.fields[1].rules[0], s.fields[1].value, isEmail);
    } else {
      assert !Passes(s.fields[2].rules[0], s.fields[2].value, isEmail);
    }
  }

  lemma ForgotValid(p: Page, isEmail: string -> bool)
    requires p.mode == ForgotPassword
    ensures Valid(SchemaFor(p), isEmail) <==> Acceptable(p, isEmail)
  {
    var s := SchemaFor(p);
    if !Acceptable(p, isEmail) {
      assert !Passes(s.fields[0].rules[0], s.fields[0].value, isEmail);
    }
  }

  lemma LoginValid(p: Page, isEmail: string -> bool)
    requires p.mode == Login
    ensures Valid(SchemaFor(p), isEmail) <==> Acceptable(p, isEmail)
  {
    var s := SchemaFor(p);
    if Acceptable(p, isEmail) {
      forall i, j | 0 <= i < |s.fields| && 0 <= j < |s.fields[i].rules|
        ensures Passes(s.fields[i].rules[j], s.fields[i].value, isEmail)
      {
      }
    } else if !isEmail(p.email) {
      assert !Passes(s.fields[0].rules[0], s.fields[0].value, isEmail);
    } else {
      assert !Passes(s.fields[1].rules[0], s.fields[1].value, isEmail);
    }
  }

  /**
   * Only an acceptable form reaches auth, with the mode's call; a rejected
   * one keeps the form and shows the schema's field errors.
   */
  lemma SubmitGate(p: Page, isEmail: string -> bool, authError: Option<string>)
    ensures var r := Submit(p, isEmail, authError);
      && (r.call.Some? <==> Acceptable(p, isEmail))
      && (r.call.None? ==>
            && r.page == p.(errors := ErrorMap(Issues(SchemaFor(p), isEmail)))
            && r.notice == NoNotice && !r.toAdmin)
      && (r.call.Some? ==> r.call.value == match p.mode
            case ForgotPassword => ResetPassword(p.email)
            case Signup => SignUp(p.email, p.password, p.nome)
            case Login => SignIn(p.email, p.password))
  {
    ValidMeaning(p, isEmail);
  }

  /** A successful sign-up returns to login with the email kept and the name and password cleared. */
  lemma SignupSuccess(p: Page, isEmail: string -> bool)
    requires p.mode == Signup && Acceptable(p, isEmail)
    ensures var r := Submit(p, isEmail, None);
      && r.page.mode == Login && r.page.email == p.email
      && r.page.nome == "" && r.page.password == ""
      && r.notice.Success? && !r.toAdmin
  {
    ValidMeaning(p, isEmail);
    assert Issues(SchemaFor(p), isEmail) == [];
  }

  /**
   * The sent-email panel appears exactly after a successful recovery request
   * (the form is submitted only while the panel is not shown).
   */
  lemma ForgotSuccess(p: Page, isEmail: string -> bool, authError: Option<string>)
    requires p.mode == ForgotPassword && !SentPanel(p) && Acceptable(p, isEmail)
    ensures SentPanel(Submit(p, isEmail, authError).page) <==> authError.None?
  {
    ValidMeaning(p, isEmail);
  }

  /** Only a successful login leads to the dashboard. */
  lemma LoginSuccess(p: Page, isEmail: string -> bool, authError: Option<string>)
    ensures Submit(p, isEmail, authError).toAdmin <==> p.mode == Login && Acceptable(p, isEmail) && authError.None?
  {
    ValidMeaning(p, isEmail);
  }

  /** The two known auth messages get fixed texts wherever they occur; any other is shown as sent. */
  lemma ErrorTextMeaning(a: string, b: string, message: string)
    ensures ErrorText(Signup, a + "already registered" + b) == "Este email já está cadastrado"
    ensures ErrorText(Login, a + "Invalid login credentials" + b) == "Email ou senha incorretos"
    ensures !Text.Contains(message, "already registered") ==> ErrorText(Signup, message) == message
    ensures !Text.Contains(message, "Invalid login credentials") ==> ErrorText(Login, message) == message
    ensures message != "" ==> ErrorText(ForgotPassword, message) == message
  {
    ContainsInside(a, "already registered", b);
    ContainsInside(a, "Invalid login credentials", b);
  }

  lemma ContainsInside(a: string, w: string, b: string)
    ensures Text.Contains(a + w + b, w)
  {
    var s := a + w + b;
    assert s[|a|..][..|w|] == w;
    Text.ContainsAt(s, w);
  }

  /** Changing mode clears the errors and the sent panel, and keeps what was typed. */
  lemma ModeChangedMeaning(p: Page, m: Mode)
    ensures var q := ModeChanged(p, m);
      && q.mode == m && q.errors == map[] && !SentPanel(q)
      && q.nome == p.nome && q.email == p.email && q.password == p.password
  {
  }

  /**
   * Login and sign-up lead to each other; the recovery form is reached from
   * login only, and leads back to login only.
   */
  lemma LinksMeaning(p: Page, l: Link)
    requires l in Links(p)
    ensures Target(p, l) == ForgotPassword ==> p.mode == Login
    ensures p.mode == ForgotPassword ==> Follow(p, l).mode == Login
    ensures p.mode == Signup ==> Follow(p, l).mode == Login
    ensures p.mode == Login ==> Follow(p, l).mode != Login
    ensures !SentPanel(Follow(p, l))
  {
  }
}

=== FILE: admin_settings.dfy ===
/**
 * The admin settings page: pending changes kept per key over the stored
 * settings, the value each input shows, saving the changes, the tabs that
 * group the settings by category, and the widget each setting gets.
 */
module AdminSettings {
  import opened Wrappers
  import Text
  import opened Arrays

  /** A `site_settings` row; `kind` is its `type` column and `caption` its `label`. */
  datatype Setting = Setting(id: string, key: string, value: Option<string>, kind: string, caption: string, category: string)

  /**
   * The `changes` object: its values by key, and its keys in insertion
   * order, the order `Object.entries` walks them.
   */
  datatype Changes = Changes(order: seq<string>, values: map<string, string>)

  const NoChanges := Changes([], map[])

  predicate Distinct(s: seq<string>) {
    forall i, j :: 0 <= i < j < |s| ==> s[i] != s[j]
  }

  /** The keys in `order` are the keys with a value, each once. */
  ghost predicate Wf(c: Changes) {
    Distinct(c.order) && (forall k :: k in c.values <==> k in c.order)
  }

  /** `handleChange`: the latest value per key; a new key goes to the end of the order. */
  function Changed(c: Changes, key: string, value: string): Changes {
    if key in c.values then c.(values := c.values[key := value])
    else Changes(c.order + [key], c.values[key := value])
  }

  /** `getValue`: the pending value, even an empty one, else the stored value with null as empty. */
  function ShownValue(c: Changes, s: Setting): string {
    if s.key in c.values then c.values[s.key] else s.value.GetOr("")
  }

  /** `Object.keys(changes).length`. */
  function ChangeCount(c: Changes): nat {
    |c.order|
  }

  /** One `update({ value }).eq('key', key)`. */
  datatype Update = Update(key: string, value: string)

  function Updates(c: Changes, order: seq<string>): seq<Update>
    requires forall k :: k in order ==> k in c.values
  {
    seq(|order|, i requires 0 <= i < |order| => Update(order[i], c.values[order[i]]))
  }

  datatype Notice = Info(text: string) | Saved(text: string) | Failed(text: string)

  datatype SaveResult = SaveResult(writes: seq<Update>, changes: Changes, notice: Notice)

  /**
   * `handleSave`: nothing to save is an info toast; otherwise the updates go
   * out in key order, and `failsAt` is the index of the first update the
   * store rejects, if any: the loop stops there and the changes stay.
   */
  function Save(c: Changes, failsAt: Option<nat>): SaveResult
    requires Wf(c)
  {
    if |c.order| == 0 then SaveResult([], c, Info("Nenhuma alteração para salvar"))
    else if failsAt.Some? && failsAt.value < |c.order| then
      SaveResult(Updates(c, c.order[..failsAt.value + 1]), c, Failed("Erro ao salvar configurações"))
    else SaveResult(Updates(c, c.order), NoChanges, Saved("Configurações salvas com sucesso!"))
  }

  /** The stored settings once the updates have run. */
  function Stored(settings: seq<Setting>, writes: seq<Update>): (r: seq<Setting>)
    ensures |r| == |settings|
    decreases |writes|
  {
    if |writes| == 0 then settings
    else
      var w := writes[0];
      var next := seq(|settings|, i requires 0 <= i < |settings| =>
        if settings[i].key == w.key then settings[i].(value := Some(w.value)) else settings[i]);
      Stored(next, writes[1..])
  }

  /** `handleImageUpload`: an uploaded file's public URL becomes the key's pending value; a failure changes nothing. */
  function Uploaded(c: Changes, key: string, publicUrl: Option<string>): Changes {
    if publicUrl.Some? then Changed(c, key, publicUrl.value) else c
  }

  /** The stored file name: the key, the upload time and the text after the file name's last dot. */
  function UploadName(key: string, now: nat, fileName: string): string {
    var parts := Text.Split(fileName, '.');
    key + "-" + Text.NatToString(now) + "." + parts[|parts| - 1]
  }

  // ---------------------------------------------------------------------
  // Tabs

  /** The categories in order of first appearance: `Object.keys` of the grouped object. */
  function Categories(settings: seq<Setting>): seq<string> {
    if |settings| == 0 then []
    else
      var before := Categories(settings[..|settings| - 1]);
      var c := settings[|settings| - 1].category;
      if c in before then before else before + [c]
  }

  /** One tab's settings, in their fetched order. */
  function Group(settings: seq<Setting>, category: string): seq<Setting> {
    Filter(settings, (s: Setting) => s.category == category)
  }

  function CategoryLabel(category: string): string {
    if category == "contato" then "Contato"
    else if category == "social" then "Redes Sociais"
    else if category == "banner" then "Banner Principal"
    else if category == "seo" then "SEO"
    else if category == "sobre" then "Página Sobre"
    else category
  }

  datatype Widget = Uploader | TextArea | TextInput

  function WidgetFor(s: Setting): Widget {
    if s.kind == "image" then Uploader
    else if Text.Contains(s.key, "texto") || Text.Contains(s.key, "descricao") then TextArea
    else TextInput
  }

  // ---------------------------------------------------------------------
  // Properties

  /** A change keeps the keys distinct and in step with the values, and only the last value counts. */
  lemma ChangedMeaning(c: Changes, key: string, value: string, other: string)
    requires Wf(c)
    ensures Wf(Changed(c, key, value))
    ensures Changed(c, key, value).values[key] == value
    ensures other != key ==> (other in Changed(c, key, value).values <==> other in c.values)
    ensures other != key && other in c.values ==> Changed(c, key, value).values[other] == c.values[other]
    ensures Changed(Changed(c, key, value), key, value) == Changed(c, key, value)
    ensures ChangeCount(Changed(c, key, value)) == ChangeCount(c) + (if key in c.values then 0 else 1)
  {
  }

  /** The count the banner shows is the number of distinct changed keys. */
  lemma {:induction false} ChangeCountMeaning(c: Changes)
    requires Wf(c)
    ensures ChangeCount(c) == |c.values.Keys|
  {
    DistinctCard(c.order);
    assert c.values.Keys == set k | k in c.order;
  }

  lemma {:induction false} DistinctCard(s: seq<string>)
    requires Distinct(s)
    ensures |set k | k in s| == |s|
    decreases |s|
  {
    if |s| > 0 {
      var t := s[..|s| - 1];
      DistinctCard(t);
      assert s == t + [s[|s| - 1]];
      assert (set k | k in s) == (set k | k in t) + {s[|s| - 1]};
      assert s[|s| - 1] !in t;
    }
  }

  /** An input shows the pending value when there is one, even an empty one, else the stored value. */
  lemma ShownValueMeaning(c: Changes, s: Setting, key: string, value: string)
    ensures ShownValue(Changed(c, s.key, value), s) == value
    ensures ShownValue(NoChanges, s) == (if s.value.Some? then s.value.value else "")
    ensures key != s.key ==> ShownValue(Changed(c, key, value), s) == ShownValue(c, s)
  {
  }

  /**
   * Saving with no changes writes nothing; otherwise one update per changed
   * key, in order, with its latest value; success empties the changes and
   * failure keeps them, after the failing update.
   */
  lemma SaveMeaning(c: Changes, failsAt: Option<nat>, i: nat)
    requires Wf(c)
    ensures var r := Save(c, failsAt);
      && (|c.order| == 0 ==> r.writes == [] && r.changes == c && r.notice.Info?)
      && (r.notice.Saved? ==> r.changes == NoChanges && |r.writes| == |c.order|)
      && (r.notice.Failed? ==> r.changes == c && |r.writes| == failsAt.value + 1)
      && (i < |r.writes| ==> r.writes[i] == Update(c.order[i], c.values[c.order[i]]))
      && (r.notice.Saved? <==> |c.order| > 0 && (failsAt.None? || failsAt.value >= |c.order|))
  {
  }

  /** Applying one key's update changes that key's rows only. */
  lemma {:induction false} StoredMeaning(settings: seq<Setting>, writes: seq<Update>, i: nat)
    requires i < |settings|
    requires forall a, b :: 0 <= a < b < |writes| ==> writes[a].key != writes[b].key
    ensures |Stored(settings, writes)| == |settings|
    ensures Stored(settings, writes)[i].key == settings[i].key
    ensures Stored(settings, writes)[i].category == settings[i].category
    ensures (forall k :: 0 <= k < |writes| ==> writes[k].key != settings[i].key) ==>
      Stored(settings, writes)[i] == settings[i]
    ensures forall k :: 0 <= k < |writes| && writes[k].key == settings[i].key ==>
      Stored(settings, writes)[i].value == Some(writes[k].value)
    decreases |writes|
  {
    if |writes| > 0 {
      var w := writes[0];
      var next := seq(|settings|, j requires 0 <= j < |settings| =>
        if settings[j].key == w.key then settings[j].(value := Some(w.value)) else settings[j]);
      StoredMeaning(next, writes[1..], i);
      forall k | 0 < k < |writes| ensures writes[1..][k - 1] == writes[k] { }
    }
  }

  /** After a successful save every input shows, from the store, what it showed before the save. */
  lemma SaveKeepsShownValues(settings: seq<Setting>, c: Changes, i: nat)
    requires Wf(c) && |c.order| > 0 && i < |settings|
    ensures var r := Save(c, None);
      ShownValue(r.changes, Stored(settings, r.writes)[i]) == ShownValue(c, settings[i])
  {
    var r := Save(c, None);
    StoredMeaning(settings, r.writes, i);
    var key := settings[i].key;
    if key in c.values {
      var k :| 0 <= k < |c.order| && c.order[k] == key;
      assert r.writes[k].key == key;
    } else {
      forall k | 0 <= k < |r.writes| ensures r.writes[k].key != key {
        assert r.writes[k].key == c.order[k];
      }
    }
  }

  /** A failed upload changes nothing; a finished one shows the new URL; clearing the image leaves it empty. */
  lemma UploadedMeaning(c: Changes, s: Setting, url: Option<string>)
    ensures url.None? ==> Uploaded(c, s.key, url) == c
    ensures url.Some? ==> ShownValue(Uploaded(c, s.key, url), s) == url.value
    ensures ShownValue(Changed(c, s.key, ""), s) == ""
  {
  }

  /** The stored name keeps the key and ends with the extension; a name without a dot is its own extension. */
  lemma UploadNameMeaning(key: string, now: nat, base: string, ext: string)
    requires Text.Free(ext, '.') && Text.Free(base, '.')
    ensures UploadName(key, now, base + "." + ext) == key + "-" + Text.NatToString(now) + "." + ext
    ensures UploadName(key, now, ext) == key + "-" + Text.NatToString(now) + "." + ext
  {
    Text.SplitJoin([base, ext], '.');
    assert Text.Join([base, ext], '.') == base + "." + ext by {
      assert [base, ext][1..] == [ext];
    }
    Text.SplitJoin([ext], '.');
  }

  lemma {:induction false} CategoriesMeaning(settings: seq<Setting>, category: string)
    ensures category in Categories(settings) <==> exists i :: 0 <= i < |settings| && settings[i].category == category
    ensures Distinct(Categories(settings))
    decreases |settings|
  {
    if |settings| > 0 {
      var t := settings[..|settings| - 1];
      CategoriesMeaning(t, category);
      assert forall i :: 0 <= i < |t| ==> t[i] == settings[i];
      if category in Categories(t) {
        var i :| 0 <= i < |t| && t[i].category == category;
        assert settings[i].category == category;
      }
    }
  }

  /** Tabs never reorder: the categories of a prefix of the settings are a prefix of the tabs. */
  lemma {:induction false} CategoriesGrow(settings: seq<Setting>, k: nat)
    requires k <= |settings|
    ensures IsPrefixSeq(Categories(settings[..k]), Categories(settings))
    decreases |settings| - k
  {
    if k < |settings| {
      CategoriesGrow(settings, k + 1);
      var s := settings[..k + 1];
      assert s[..|s| - 1] == settings[..k];
    } else {
      assert settings[..k] == settings;
    }
  }

  predicate IsPrefixSeq(a: seq<string>, b: seq<string>) {
    |a| <= |b| && b[..|a|] == a
  }

  /** Each setting sits in the tab of its own category, and in no other. */
  lemma GroupMeaning(settings: seq<Setting>, s: Setting, category: string)
    ensures s in Group(settings, category) <==> s in settings && s.category == category
    ensures s in settings ==> s.category in Categories(settings)
  {
    FilterMeaning(settings, (x: Setting) => x.category == category, s);
    if s in settings {
      var i :| 0 <= i < |settings| && settings[i] == s;
      CategoriesMeaning(settings, s.category);
    }
  }

  lemma CategoryLabelMeaning(category: string, other: string)
    ensures category !in ["contato", "social", "banner", "seo", "sobre"] ==> CategoryLabel(category) == category
    ensures category in ["contato", "social", "banner", "seo", "sobre"] ==> CategoryLabel(category) != category
    ensures (category in ["contato", "social", "banner", "seo", "sobre"] && other in ["contato", "social", "banner", "seo", "sobre"]
             && category != other) ==> CategoryLabel(category) != CategoryLabel(other)
  {
  }

  /** Images get the uploader whatever their key; a key holding 'texto' or 'descricao' gets a text area. */
  lemma WidgetForMeaning(s: Setting, a: string, b: string, word: string)
    requires word == "texto" || word == "descricao"
    ensures s.kind == "image" ==> WidgetFor(s) == Uploader
    ensures s.kind != "image" && s.key == a + word + b ==> WidgetFor(s) == TextArea
    ensures WidgetFor(s) == TextInput ==> s.kind != "image" && !Text.Contains(s.key, "texto")
  {
    if s.kind != "image" && s.key == a + word + b {
      Text.ContainsAt(s.key, word);
      assert s.key[|a|..][..|word|] == word;
    }
  }
}

=== FILE: admin_sidebar.dfy ===
/**
 * The admin sidebar: which menu entries a user sees, which one is
 * highlighted for the current path, and the user card at its foot.  The
 * public header highlights its links by the same rule.
 */
module AdminSidebar {
  import opened Wrappers
  import Text
  import opened Arrays

  datatype NavItem = NavItem(caption: string, href: string, adminOnly: bool)

  const NavItems: seq<NavItem> := [
    NavItem("Dashboard", "/admin", false),
    NavItem("Imóveis", "/admin/imoveis", false),
    NavItem("Categorias", "/admin/categorias", false),
    NavItem("Leads", "/admin/leads", false),
    NavItem("Configurações", "/admin/configuracoes", false),
    NavItem("Usuários", "/admin/usuarios", true)
  ]

  /**
   * `isActive`: the root entry (`/admin` here, `/` in the public header)
   * only on its own path, any other entry on every path that begins with its own.
   */
  predicate LinkActive(root: string, pathname: string, href: string) {
    if href == root then pathname == root else Text.IsPrefix(href, pathname)
  }

  predicate IsActive(pathname: string, href: string) {
    LinkActive("/admin", pathname, href)
  }

  /** `filteredNavItems`: the admin-only entries are kept for admins only. */
  function Visible(isAdmin: bool): seq<NavItem> {
    Filter(NavItems, (item: NavItem) => !item.adminOnly || isAdmin)
  }

  function RoleLabel(isAdmin: bool): string {
    if isAdmin then "Administrador" else "Editor"
  }

  /** `email?.split('@')[0]`: the part before the first `@`. */
  function DisplayName(email: Option<string>): Option<string> {
    match email
    case None => None
    case Some(e) => Some(Text.Split(e, '@')[0])
  }

  /** `email?.charAt(0).toUpperCase()`: an empty address gives the empty string. */
  function Avatar(email: Option<string>): Option<string> {
    match email
    case None => None
    case Some(e) => Some(if e == "" then "" else Text.UpperChar(e[0]))
  }

  // ---------------------------------------------------------------------
  // Properties

  /** The root entry is highlighted on its own path only; another entry on its path and everything below it. */
  lemma LinkActiveMeaning(root: string, pathname: string, href: string, rest: string)
    ensures LinkActive(root, pathname, root) <==> pathname == root
    ensures href != root ==> LinkActive(root, href + rest, href)
    ensures href != root && LinkActive(root, pathname, href) ==> |href| <= |pathname| && pathname[..|href|] == href
  {
    assert (href + rest)[..|href|] == href;
  }

  /** The prefix test does not stop at a path segment: `/admin/imoveisX` highlights "Imóveis". */
  lemma PrefixNotSegment()
    ensures IsActive("/admin/imoveisX", "/admin/imoveis")
    ensures !IsActive("/admin/imoveis", "/admin")
  {
    LinkActiveMeaning("/admin", "/admin/imoveisX", "/admin/imoveis", "X");
    assert "/admin/imoveisX" == "/admin/imoveis" + "X";
  }

  /** Two prefixes of one path are prefixes of each other. */
  lemma PrefixesNest(a: string, b: string, s: string)
    ensures Text.IsPrefix(a, s) && Text.IsPrefix(b, s) && |a| <= |b| ==> Text.IsPrefix(a, b)
  {
    if Text.IsPrefix(a, s) && Text.IsPrefix(b, s) && |a| <= |b| {
      assert b[..|a|] == s[..|b|][..|a|];
    }
  }

  /** No entry's path other than the dashboard's begins with another's. */
  lemma HrefsUnrelated(i: nat, j: nat)
    requires i < |NavItems| && j < |NavItems| && i != j && NavItems[i].href != "/admin"
    ensures |NavItems[i].href| <= |NavItems[j].href| ==> !Text.IsPrefix(NavItems[i].href, NavItems[j].href)
  {
    var a := NavItems[i].href;
    var b := NavItems[j].href;
    assert 0 < i;
    if |a| <= |b| {
      assert 0 < j;
      // the entries below the dashboard already differ in their ninth character
      assert a[8] != b[8] by {
        assert NavItems[1].href[8] == 'm' && NavItems[2].href[8] == 'a' && NavItems[3].href[8] == 'e';
        assert NavItems[4].href[8] == 'o' && NavItems[5].href[8] == 's';
      }
      assert b[..|a|][8] != a[8];
    }
  }

  /** At most one entry is highlighted, whatever the path. */
  lemma AtMostOneActive(pathname: string, i: nat, j: nat)
    requires i < |NavItems| && j < |NavItems| && i != j
    ensures !(IsActive(pathname, NavItems[i].href) && IsActive(pathname, NavItems[j].href))
  {
    var a := NavItems[i].href;
    var b := NavItems[j].href;
    if a == "/admin" || b == "/admin" {
      assert |NavItems[1].href| > 6 && |NavItems[2].href| > 6 && |NavItems[3].href| > 6;
      assert |NavItems[4].href| > 6 && |NavItems[5].href| > 6;
    } else if |a| <= |b| {
      PrefixesNest(a, b, pathname);
      HrefsUnrelated(i, j);
    } else {
      PrefixesNest(b, a, pathname);
      HrefsUnrelated(j, i);
    }
  }

  /** Only admins see an admin-only entry; the order of the entries is kept. */
  lemma VisibleMeaning(isAdmin: bool, item: NavItem)
    ensures item in Visible(isAdmin) <==> item in NavItems && (!item.adminOnly || isAdmin)
  {
    FilterMeaning(NavItems, (x: NavItem) => !x.adminOnly || isAdmin, item);
  }

  /** An admin sees every entry; anyone else sees all but "Usuários", in the same order. */
  lemma VisibleLists()
    ensures Visible(true) == NavItems
    ensures Visible(false) == NavItems[..5]
  {
    FilterAll(NavItems, (x: NavItem) => !x.adminOnly || true);
    var keep := (x: NavItem) => !x.adminOnly || false;
    assert NavItems == NavItems[..5] + [NavItems[5]];
    FilterAppend(NavItems[..5], [NavItems[5]], keep);
    FilterAll(NavItems[..5], keep);
    assert Filter([NavItems[5]], keep) == [] by {
      assert [NavItems[5]][1..] == [];
    }
  }

  lemma RoleLabelMeaning(isAdmin: bool)
    ensures RoleLabel(isAdmin) == "Administrador" <==> isAdmin
    ensures RoleLabel(isAdmin) == "Editor" <==> !isAdmin
  {
  }

  /** The name is the local part of the address, and the avatar the upper-cased first letter of the address. */
  lemma CardMeaning(local: string, domain: string)
    requires Text.Free(local, '@')
    ensures DisplayName(Some(local + "@" + domain)) == Some(local)
    ensures local != "" ==> Avatar(Some(local + "@" + domain)) == Some(Text.UpperChar(local[0]))
    ensures DisplayName(None).None? && Avatar(None).None?
  {
    var e := local + "@" + domain;
    assert e[|local|] == '@';
    assert forall j :: 0 <= j < |local| ==> e[j] == local[j];
    assert Text.IndexOf(e, '@') == |local|;
    assert e[..|local|] == local;
  }
}

=== FILE: admin_users.dfy ===
/**
 * The admin user page: the creation schema, the join of profiles with their
 * roles, the role an edit form opens with, the guards of the edit, delete and
 * credentials actions, and the role table after a save.
 */
module AdminUsers {
  import opened Wrappers
  import opened Validation
  import Leads

  // ---------------------------------------------------------------------
  // Creation

  datatype CreateForm = CreateForm(nome: string, email: string, senha: string, confirmarSenha: string, role: string)

  const EmptyCreate := CreateForm("", "", "", "", "editor")

  const Roles: seq<string> := ["admin", "editor"]

  /** zod's message for a value outside an enum. */
  function EnumMessage(received: string): string {
    "Invalid enum value. Expected 'admin' | 'editor', received '" + received + "'"
  }

  /** `createUserSchema`: four string checks, the role enum, and the password match reported on `confirmarSenha`. */
  function CreateSchema(f: CreateForm): Schema {
    Schema([
      Field("nome", f.nome, [MinLen(2, "Nome deve ter pelo menos 2 caracteres")]),
      Field("email", f.email, [EmailRule("Email inválido")]),
      Field("senha", f.senha, [MinLen(6, "Senha deve ter pelo menos 6 caracteres")]),
      Field("confirmarSenha", f.confirmarSenha, [MinLen(6, "Confirmação deve ter pelo menos 6 caracteres")]),
      Field("role", f.role, [OneOf(Roles, EnumMessage(f.role))])
    ], [Refinement(f.senha == f.confirmarSenha, "confirmarSenha", "As senhas não conferem")])
  }

  predicate CreateAcceptable(f: CreateForm, isEmail: string -> bool) {
    && |f.nome| >= 2
    && isEmail(f.email)
    && |f.senha| >= 6
    && |f.confirmarSenha| >= 6
    && f.role in Roles
    && f.senha == f.confirmarSenha
  }

  /** The toast of a rejected form: the first issue's message, or a fallback when it is empty. */
  function FirstIssueMessage(issues: seq<Issue>): string {
    if |issues| > 0 && issues[0].message != "" then issues[0].message
    else "Dados inválidos. Verifique os campos."
  }

  /** `err?.message || fallback`. */
  function OrFallback(message: string, fallback: string): string {
    if message != "" then message else fallback
  }

  /** A row of `user_roles`. */
  datatype RoleRow = RoleRow(userId: string, role: string)

  /** The writes the page sends to the store, in order. */
  datatype Write =
    | SignUp(email: string, password: string, nome: string)
    | InsertProfile(userId: string, nome: string, email: string)
    | UpdateProfileName(userId: string, nome: string)
    | DeleteProfile(userId: string)
    | DeleteRoles(userId: string)
    | InsertRole(userId: string, role: string)

  /** The sign-up's answer: an error message, or the new user's id when one is returned. */
  datatype SignUpAnswer = SignUpError(message: string) | SignedUp(userId: Option<string>)

  datatype Outcome = Outcome(writes: seq<Write>, notice: Leads.Notice, closes: bool)

  /**
   * `handleCreate`: an invalid form writes nothing and shows its first issue;
   * otherwise sign-up, the profile, the role reset and the role insert run in
   * order until one fails.
   */
  function Create(f: CreateForm, isEmail: string -> bool, answer: SignUpAnswer,
                  profileError: Option<string>, roleError: Option<string>): Outcome {
    var issues := Issues(CreateSchema(f), isEmail);
    if issues != [] then Outcome([], Leads.Failure(FirstIssueMessage(issues)), false)
    else Register(f, answer, profileError, roleError)
  }

  /** The store writes of a valid new user: sign-up, the profile, the role reset and the role insert, until one fails. */
  function Register(f: CreateForm, answer: SignUpAnswer, profileError: Option<string>, roleError: Option<string>): Outcome {
    var signUp := SignUp(f.email, f.senha, f.nome);
    match answer
    case SignUpError(m) => Outcome([signUp], Leads.Failure(OrFallback(m, "Erro ao criar usuário")), false)
    case SignedUp(userId) =>
      if userId.None? || userId.value == "" then
        Outcome([signUp], Leads.Failure("Usuário não retornado pelo Supabase"), false)
      else
        var u := userId.value;
        var profile := [signUp, InsertProfile(u, f.nome, f.email)];
        if profileError.Some? then
          Outcome(profile, Leads.Failure(OrFallback(profileError.value, "Erro ao criar usuário")), false)
        else
          var all := profile + [DeleteRoles(u), InsertRole(u, f.role)];
          if roleError.Some? then
            Outcome(all, Leads.Failure(OrFallback(roleError.value, "Erro ao criar usuário")), false)
          else
            Outcome(all, Leads.Success("Usuário criado com sucesso. Confirme o email para ativar a conta."), true)
  }

  // ---------------------------------------------------------------------
  // The role table and the user list

  /** `.delete().eq('user_id', u)` on `user_roles`. */
  function Without(table: seq<RoleRow>, u: string): seq<RoleRow> {
    if |table| == 0 then []
    else (if table[0].userId == u then [] else [table[0]]) + Without(table[1..], u)
  }

  /** The role table after the writes that touch it; the others leave it alone. */
  function ApplyRoles(table: seq<RoleRow>, writes: seq<Write>): seq<RoleRow>
    decreases |writes|
  {
    if |writes| == 0 then table
    else
      var next := match writes[0]
        case DeleteRoles(u) => Without(table, u)
        case InsertRole(u, r) => table + [RoleRow(u, r)]
        case _ => table;
      ApplyRoles(next, writes[1..])
  }

  /** `roles.filter(r => r.user_id === u).map(r => r.role)`. */
  function RolesOf(table: seq<RoleRow>, u: string): seq<string> {
    if |table| == 0 then []
    else (if table[0].userId == u then [table[0].role] else []) + RolesOf(table[1..], u)
  }

  datatype Profile = Profile(userId: string, nome: string, email: string, createdAt: int)

  datatype UserWithRole = UserWithRole(id: string, nome: string, email: string, createdAt: int, roles: seq<string>)

  /** `usersWithRoles`: each profile, in order, with its roles. */
  function Join(profiles: seq<Profile>, table: seq<RoleRow>): (r: seq<UserWithRole>)
    ensures |r| == |profiles|
  {
    seq(|profiles|, i requires 0 <= i < |profiles| =>
      UserWithRole(profiles[i].userId, profiles[i].nome, profiles[i].email, profiles[i].createdAt,
                   RolesOf(table, profiles[i].userId)))
  }

  /** `fetchUsers`: a failed query keeps the list and shows an error; otherwise the join replaces it. */
  function Fetched(users: seq<UserWithRole>, profiles: Option<seq<Profile>>, table: Option<seq<RoleRow>>)
    : (seq<UserWithRole>, Leads.Notice)
  {
    if profiles.None? || table.None? then (users, Leads.Failure("Erro ao carregar usuários"))
    else (Join(profiles.value, table.value), Leads.NoNotice)
  }

  // ---------------------------------------------------------------------
  // Editing, deleting, credentials

  datatype EditForm = EditForm(id: string, nome: string, email: string, role: string)

  /** `user.roles[0] || 'editor'`. */
  function FormRole(user: UserWithRole): string {
    if |user.roles| > 0 && user.roles[0] != "" then user.roles[0] else "editor"
  }

  /** `openEditModal`. */
  function OpenEdit(user: UserWithRole): EditForm {
    EditForm(user.id, user.nome, user.email, FormRole(user))
  }

  /**
   * `handleEdit`: nothing without an id, 'Informe o nome' without a name;
   * otherwise the name update, then the role reset and insert.
   */
  function Edit(f: EditForm, profileError: Option<string>, roleError: Option<string>): Outcome {
    if f.id == "" then Outcome([], Leads.NoNotice, false)
    else if f.nome == "" then Outcome([], Leads.Failure("Informe o nome"), false)
    else
      var update := UpdateProfileName(f.id, f.nome);
      if profileError.Some? then
        Outcome([update], Leads.Failure(OrFallback(profileError.value, "Erro ao editar usuário")), false)
      else
        var all := [update, DeleteRoles(f.id), InsertRole(f.id, f.role)];
        if roleError.Some? then
          Outcome(all, Leads.Failure(OrFallback(roleError.value, "Erro ao editar usuário")), false)
        else Outcome(all, Leads.Success("Usuário atualizado"), true)
  }

  /** `handleDelete`: the roles go first, whatever happens to the profile. */
  function Delete(f: EditForm, profileError: Option<string>): Outcome {
    if f.id == "" then Outcome([], Leads.NoNotice, false)
    else
      var all := [DeleteRoles(f.id), DeleteProfile(f.id)];
      if profileError.Some? then
        Outcome(all, Leads.Failure(OrFallback(profileError.value, "Erro ao remover usuário")), false)
      else Outcome(all, Leads.Success("Usuário removido (credenciais na Auth não foram apagadas)"), true)
  }

  datatype CredentialsForm = CredentialsForm(id: string, email: string, password: string)

  /** `openCredentialsModal`: the current email, an empty password. */
  function OpenCredentials(user: UserWithRole): CredentialsForm {
    CredentialsForm(user.id, user.email, "")
  }

  /** The request body; an empty field is sent as `undefined`. */
  datatype CredentialsBody = CredentialsBody(userId: string, email: Option<string>, password: Option<string>)

  /** `handleUpdateCredentials` up to the request: the body sent, or the toast that stops it. */
  datatype CredentialsStep = NoRequest | Refused(message: string) | Send(body: CredentialsBody)

  function UndefinedIfEmpty(s: string): Option<string> {
    if s != "" then Some(s) else None
  }

  function CredentialsRequest(f: CredentialsForm, endpoint: string, secret: string): CredentialsStep {
    if f.id == "" then NoRequest
    else if f.email == "" && f.password == "" then Refused("Informe email e/ou senha")
    else if endpoint == "" || secret == "" then Refused("Endpoint ou segredo da função não configurados")
    else Send(CredentialsBody(f.id, UndefinedIfEmpty(f.email), UndefinedIfEmpty(f.password)))
  }

  /** The toast after the response: `detail || 'Erro ao atualizar credenciais'` on a failed status. */
  function CredentialsNotice(ok: bool, detail: string): Leads.Notice {
    if ok then Leads.Success("Credenciais atualizadas")
    else Leads.Failure(OrFallback(detail, "Erro ao atualizar credenciais"))
  }

  // ---------------------------------------------------------------------
  // Properties

  /** A new user is accepted exactly when every field and the password match hold. */
  lemma CreateValidMeaning(f: CreateForm, isEmail: string -> bool)
    ensures Issues(CreateSchema(f), isEmail) == [] <==> CreateAcceptable(f, isEmail)
  {
    IssuesEmptyMeaning(CreateSchema(f), isEmail);
    if CreateAcceptable(f, isEmail) {
      AcceptableValid(f, isEmail);
    } else {
      UnacceptableInvalid(f, isEmail);
    }
  }

  lemma AcceptableValid(f: CreateForm, isEmail: string -> bool)
    requires CreateAcceptable(f, isEmail)
    ensures Valid(CreateSchema(f), isEmail)
  {
    var s := CreateSchema(f);
    forall i, j | 0 <= i < |s.fields| && 0 <= j < |s.fields[i].rules|
      ensures Passes(s.fields[i].rules[j], s.fields[i].value, isEmail)
    {
    }
  }

  lemma UnacceptableInvalid(f: CreateForm, isEmail: string -> bool)
    requires !CreateAcceptable(f, isEmail)
    ensures !Valid(CreateSchema(f), isEmail)
  {
    var s := CreateSchema(f);
    if |f.nome| < 2 { assert !Passes(s.fields[0].rules[0], s.fields[0].value, isEmail); }
    else if !isEmail(f.email) { assert !Passes(s.fields[1].rules[0], s.fields[1].value, isEmail); }
    else if |f.senha| < 6 { assert !Passes(s.fields[2].rules[0], s.fields[2].value, isEmail); }
    else if |f.confirmarSenha| < 6 { assert !Passes(s.fields[3].rules[0], s.fields[3].value, isEmail); }
    else if f.role !in Roles { assert !Passes(s.fields[4].rules[0], s.fields[4].value, isEmail); }
    else { assert !s.refinements[0].holds; }
  }

  /** A role outside the enum aborts the object: the password match is then not checked. */
  lemma BadRoleSkipsRefinement(f: CreateForm, isEmail: string -> bool)
    requires f.role !in Roles
    ensures Issues(CreateSchema(f), isEmail) == FieldIssues(CreateSchema(f).fields, isEmail)
  {
    var s := CreateSchema(f);
    assert Aborts(s.fields[4].rules[0]) && !Passes(s.fields[4].rules[0], s.fields[4].value, isEmail);
    assert Aborted(s.fields, isEmail);
  }

  /**
   * Only an acceptable form reaches the store; a rejected one shows a message;
   * a full success writes the chosen role and closes the dialog.
   */
  lemma CreateMeaning(f: CreateForm, isEmail: string -> bool, answer: SignUpAnswer,
                      profileError: Option<string>, roleError: Option<string>)
    ensures var o := Create(f, isEmail, answer, profileError, roleError);
      && (o.writes != [] <==> CreateAcceptable(f, isEmail))
      && (o.writes != [] ==> o.writes[0] == SignUp(f.email, f.senha, f.nome))
      && (o.closes <==>
            && CreateAcceptable(f, isEmail) && answer.SignedUp? && answer.userId.Some?
            && answer.userId.value != "" && profileError.None? && roleError.None?)
      && (!o.closes ==> o.notice.Failure? && o.notice.text != "")
  {
    CreateValidMeaning(f, isEmail);
    var issues := Issues(CreateSchema(f), isEmail);
    if issues == [] {
      RegisterMeaning(f, answer, profileError, roleError);
      assert Create(f, isEmail, answer, profileError, roleError) == Register(f, answer, profileError, roleError);
    } else {
      assert FirstIssueMessage(issues) != "";
    }
  }

  /** Registration always begins with the sign-up, and completes exactly when no step fails. */
  lemma RegisterMeaning(f: CreateForm, answer: SignUpAnswer, profileError: Option<string>, roleError: Option<string>)
    ensures var o := Register(f, answer, profileError, roleError);
      && o.writes != [] && o.writes[0] == SignUp(f.email, f.senha, f.nome)
      && (o.closes <==>
            answer.SignedUp? && answer.userId.Some? && answer.userId.value != ""
            && profileError.None? && roleError.None?)
      && (!o.closes ==> o.notice.Failure? && o.notice.text != "")
  {
    var signUp := SignUp(f.email, f.senha, f.nome);
    if answer.SignedUp? && answer.userId.Some? && answer.userId.value != "" && profileError.None? {
      var u := answer.userId.value;
      var all := [signUp, InsertProfile(u, f.nome, f.email)] + [DeleteRoles(u), InsertRole(u, f.role)];
      assert all[0] == signUp;
    }
  }

  lemma {:induction false} WithoutMeaning(table: seq<RoleRow>, u: string, v: string)
    ensures RolesOf(Without(table, u), u) == []
    ensures v != u ==> RolesOf(Without(table, u), v) == RolesOf(table, v)
    decreases |table|
  {
    if |table| > 0 {
      WithoutMeaning(table[1..], u, v);
      var rest := Without(table[1..], u);
      if table[0].userId != u {
        assert Without(table, u) == [table[0]] + rest;
        assert ([table[0]] + rest)[0] == table[0];
        assert ([table[0]] + rest)[1..] == rest;
      } else {
        assert Without(table, u) == rest;
      }
    }
  }

  lemma {:induction false} RolesOfAppend(a: seq<RoleRow>, b: seq<RoleRow>, u: string)
    ensures RolesOf(a + b, u) == RolesOf(a, u) + RolesOf(b, u)
    decreases |a|
  {
    if |a| == 0 {
      assert a + b == b;
    } else {
      assert (a + b)[1..] == a[1..] + b;
      RolesOfAppend(a[1..], b, u);
    }
  }

  /** Resetting and inserting leaves the user with exactly the chosen role, and no other user changes. */
  lemma ResetLeavesOneRole(table: seq<RoleRow>, u: string, role: string, v: string)
    ensures RolesOf(ApplyRoles(table, [DeleteRoles(u), InsertRole(u, role)]), u) == [role]
    ensures v != u ==> RolesOf(ApplyRoles(table, [DeleteRoles(u), InsertRole(u, role)]), v) == RolesOf(table, v)
  {
    var t := Without(table, u);
    var writes := [DeleteRoles(u), InsertRole(u, role)];
    assert writes[1..] == [InsertRole(u, role)];
    assert writes[1..][1..] == [];
    assert ApplyRoles(table, writes) == ApplyRoles(t, writes[1..]);
    assert ApplyRoles(t, writes[1..]) == ApplyRoles(t + [RoleRow(u, role)], []);
    WithoutMeaning(table, u, v);
    RolesOfAppend(t, [RoleRow(u, role)], u);
    RolesOfAppend(t, [RoleRow(u, role)], v);
  }

  /** A role is listed for a user exactly when a row gives it to them. */
  lemma {:induction false} RolesOfMeaning(table: seq<RoleRow>, u: string, r: string)
    ensures r in RolesOf(table, u) <==> RoleRow(u, r) in table
    decreases |table|
  {
    if |table| > 0 {
      RolesOfMeaning(table[1..], u, r);
      assert table == [table[0]] + table[1..];
    }
  }

  /** The list keeps the profiles' order and gives each its own roles; a failed query keeps the old list. */
  lemma FetchedMeaning(users: seq<UserWithRole>, profiles: Option<seq<Profile>>, table: Option<seq<RoleRow>>, i: nat)
    ensures profiles.None? || table.None? ==> Fetched(users, profiles, table).0 == users
    ensures profiles.Some? && table.Some? && i < |profiles.value| ==>
      var r := Fetched(users, profiles, table).0;
      && |r| == |profiles.value|
      && r[i].id == profiles.value[i].userId
      && r[i].roles == RolesOf(table.value, profiles.value[i].userId)
  {
  }

  /** After a save, the refetched user opens for editing with the role that was saved. */
  lemma SavedRoleReopens(table: seq<RoleRow>, p: Profile, role: string)
    requires role != ""
    ensures var after := ApplyRoles(table, [DeleteRoles(p.userId), InsertRole(p.userId, role)]);
      OpenEdit(Join([p], after)[0]).role == role
  {
    ResetLeavesOneRole(table, p.userId, role, p.userId);
  }

  /** A user without roles opens as an editor. */
  lemma FormRoleDefault(user: UserWithRole)
    ensures user.roles == [] ==> FormRole(user) == "editor"
    ensures |user.roles| > 0 && user.roles[0] != "" ==> FormRole(user) == user.roles[0]
  {
  }

  /** An edit needs an id and a name; a complete one ends with exactly the chosen role. */
  lemma EditMeaning(f: EditForm, profileError: Option<string>, roleError: Option<string>, table: seq<RoleRow>)
    ensures var o := Edit(f, profileError, roleError);
      && (o.writes == [] <==> f.id == "" || f.nome == "")
      && (f.id == "" ==> o.notice == Leads.NoNotice)
      && (f.id != "" && f.nome == "" ==> o.notice == Leads.Failure("Informe o nome"))
      && (o.closes <==> f.id != "" && f.nome != "" && profileError.None? && roleError.None?)
      && (o.closes ==> RolesOf(ApplyRoles(table, o.writes), f.id) == [f.role])
  {
    var o := Edit(f, profileError, roleError);
    if o.closes {
      assert o.writes[1..] == [DeleteRoles(f.id), InsertRole(f.id, f.role)];
      ResetLeavesOneRole(table, f.id, f.role, f.id);
    }
  }

  /** Deleting always removes the user's roles, even when the profile delete fails. */
  lemma DeleteDropsRoles(f: EditForm, profileError: Option<string>, table: seq<RoleRow>)
    requires f.id != ""
    ensures RolesOf(ApplyRoles(table, Delete(f, profileError).writes), f.id) == []
    ensures Delete(f, profileError).closes <==> profileError.None?
  {
    var writes := Delete(f, profileError).writes;
    var t := Without(table, f.id);
    assert writes[1..] == [DeleteProfile(f.id)];
    assert writes[1..][1..] == [];
    assert ApplyRoles(table, writes) == ApplyRoles(t, writes[1..]);
    assert ApplyRoles(t, writes[1..]) == ApplyRoles(t, []);
    WithoutMeaning(table, f.id, f.id);
  }

  /**
   * A request goes out only with an id, a field to change and the function
   * configured; the body carries exactly the non-empty fields.
   */
  lemma CredentialsRequestMeaning(f: CredentialsForm, endpoint: string, secret: string)
    ensures var step := CredentialsRequest(f, endpoint, secret);
      && (step.Send? <==> f.id != "" && (f.email != "" || f.password != "") && endpoint != "" && secret != "")
      && (step.Send? ==>
            && step.body.userId == f.id
            && (step.body.email.Some? <==> f.email != "")
            && (step.body.password.Some? <==> f.password != "")
            && (step.body.email.Some? || step.body.password.Some?))
      && (step.NoRequest? <==> f.id == "")
  {
  }

  /** A freshly opened credentials form sends the email alone. */
  lemma OpenCredentialsSendsEmail(user: UserWithRole, endpoint: string, secret: string)
    requires user.id != "" && user.email != "" && endpoint != "" && secret != ""
    ensures CredentialsRequest(OpenCredentials(user), endpoint, secret)
      == Send(CredentialsBody(user.id, Some(user.email), None))
  {
  }

  lemma CredentialsNoticeMeaning(ok: bool, detail: string)
    ensures CredentialsNotice(ok, detail).Success? <==> ok
    ensures !ok && detail != "" ==> CredentialsNotice(ok, detail) == Leads.Failure(detail)
    ensures !ok && detail == "" ==> CredentialsNotice(ok, detail) == Leads.Failure("Erro ao atualizar credenciais")
  {
  }
}

=== FILE: arrays.dfy ===
/**
 * `Array.prototype.find` and `Array.prototype.filter` on sequences, with
 * what they promise: the first match, and the passing elements in order.
 */
module Arrays {
  import opened Wrappers

  /** `Array.prototype.find`. */
  function Find<T>(s: seq<T>, keep: T -> bool): Option<T> {
    if |s| == 0 then None
    else if keep(s[0]) then Some(s[0])
    else Find(s[1..], keep)
  }

  /** `Array.prototype.filter`. */
  function Filter<T>(s: seq<T>, keep: T -> bool): seq<T> {
    if |s| == 0 then []
    else (if keep(s[0]) then [s[0]] else []) + Filter(s[1..], keep)
  }

  /** `find` answers the first element that passes, and nothing when none does. */
  lemma {:induction false} FindMeaning<T>(s: seq<T>, keep: T -> bool)
    ensures Find(s, keep).None? <==> forall i :: 0 <= i < |s| ==> !keep(s[i])
    ensures Find(s, keep).Some? ==>
      exists i :: (0 <= i < |s| && s[i] == Find(s, keep).value && keep(s[i])
        && forall j :: 0 <= j < i ==> !keep(s[j]))
    decreases |s|
  {
    if |s| > 0 && !keep(s[0]) {
      FindMeaning(s[1..], keep);
      assert forall i :: 0 < i < |s| ==> s[i] == s[1..][i - 1];
      if Find(s, keep).Some? {
        var i :| 0 <= i < |s[1..]| && s[1..][i] == Find(s, keep).value
          && keep(s[1..][i]) && forall j :: 0 <= j < i ==> !keep(s[1..][j]);
        assert s[i + 1] == s[1..][i];
        forall j | 0 <= j < i + 1 ensures !keep(s[j]) {
          if j > 0 { assert s[j] == s[1..][j - 1]; }
        }
      }
    }
  }

  /** `filter` keeps exactly the passing elements, each as often as it occurs. */
  lemma {:induction false} FilterMeaning<T>(s: seq<T>, keep: T -> bool, x: T)
    ensures x in Filter(s, keep) <==> x in s && keep(x)
    ensures |Filter(s, keep)| <= |s|
    decreases |s|
  {
    if |s| > 0 {
      FilterMeaning(s[1..], keep, x);
      assert s == [s[0]] + s[1..];
    }
  }

  /** Filtering twice is filtering once by both tests: order is kept. */
  lemma {:induction false} FilterFilter<T>(s: seq<T>, a: T -> bool, b: T -> bool, both: T -> bool)
    requires forall x :: both(x) == (a(x) && b(x))
    ensures Filter(Filter(s, b), a) == Filter(s, both)
    decreases |s|
  {
    if |s| > 0 {
      FilterFilter(s[1..], a, b, both);
      var rest := Filter(s[1..], b);
      assert both(s[0]) == (a(s[0]) && b(s[0]));
      assert Filter(s, both) == (if both(s[0]) then [s[0]] else []) + Filter(s[1..], both);
      if b(s[0]) {
        assert Filter(s, b) == [s[0]] + rest;
        assert ([s[0]] + rest)[0] == s[0];
        assert ([s[0]] + rest)[1..] == rest;
        assert Filter([s[0]] + rest, a) == (if a(s[0]) then [s[0]] else []) + Filter(rest, a);
      } else {
        assert Filter(s, b) == rest;
      }
    }
  }

  function Shift(xs: seq<nat>): (r: seq<nat>)
    ensures |r| == |xs| && forall k :: 0 <= k < |xs| ==> r[k] == xs[k] + 1
  {
    seq(|xs|, k requires 0 <= k < |xs| => xs[k] + 1)
  }

  /** Positions in `s` of the elements `filter` keeps. */
  function KeptAt<T>(s: seq<T>, keep: T -> bool): seq<nat> {
    if |s| == 0 then []
    else
      var rest := Shift(KeptAt(s[1..], keep));
      if keep(s[0]) then [0] + rest else rest
  }

  /** Each kept element sits at its recorded position of `s`. */
  lemma {:induction false} KeptAtMeaning<T>(s: seq<T>, keep: T -> bool, k: nat)
    ensures |KeptAt(s, keep)| == |Filter(s, keep)|
    ensures k < |Filter(s, keep)| ==>
      KeptAt(s, keep)[k] < |s| && s[KeptAt(s, keep)[k]] == Filter(s, keep)[k]
    decreases |s|
  {
    if |s| > 0 {
      var rest := KeptAt(s[1..], keep);
      if keep(s[0]) {
        assert Filter(s, keep) == [s[0]] + Filter(s[1..], keep);
        if k > 0 {
          KeptAtMeaning(s[1..], keep, k - 1);
          if k < |Filter(s, keep)| {
            assert Filter(s, keep)[k] == Filter(s[1..], keep)[k - 1];
            assert KeptAt(s, keep)[k] == rest[k - 1] + 1;
          }
        } else {
          KeptAtMeaning(s[1..], keep, 0);
        }
      } else {
        KeptAtMeaning(s[1..], keep, k);
        if k < |Filter(s, keep)| {
          assert KeptAt(s, keep)[k] == rest[k] + 1;
        }
      }
    }
  }

  /** The positions rise: `filter` keeps the elements in their order. */
  lemma {:induction false} KeptAtRising<T>(s: seq<T>, keep: T -> bool, a: nat, b: nat)
    requires a < b < |KeptAt(s, keep)|
    ensures KeptAt(s, keep)[a] < KeptAt(s, keep)[b]
    decreases |s|
  {
    var rest := KeptAt(s[1..], keep);
    if keep(s[0]) {
      if a > 0 {
        KeptAtRising(s[1..], keep, a - 1, b - 1);
      }
    } else {
      KeptAtRising(s[1..], keep, a, b);
    }
  }

  lemma {:induction false} FilterAll<T>(s: seq<T>, keep: T -> bool)
    requires forall i :: 0 <= i < |s| ==> keep(s[i])
    ensures Filter(s, keep) == s
    decreases |s|
  {
    if |s| > 0 {
      FilterAll(s[1..], keep);
      assert s == [s[0]] + s[1..];
    }
  }

  /** Two tests no element passes together keep, between them, at most every element. */
  lemma {:induction false} FilterDisjoint<T>(s: seq<T>, a: T -> bool, b: T -> bool)
    requires forall i :: 0 <= i < |s| ==> !(a(s[i]) && b(s[i]))
    ensures |Filter(s, a)| + |Filter(s, b)| <= |s|
    decreases |s|
  {
    if |s| > 0 {
      assert forall i :: 0 <= i < |s[1..]| ==> s[1..][i] == s[i + 1];
      FilterDisjoint(s[1..], a, b);
    }
  }

  /** Filtering a concatenation filters each part. */
  lemma {:induction false} FilterAppend<T>(a: seq<T>, b: seq<T>, keep: T -> bool)
    ensures Filter(a + b, keep) == Filter(a, keep) + Filter(b, keep)
    decreases |a|
  {
    if |a| > 0 {
      assert (a + b)[1..] == a[1..] + b;
      FilterAppend(a[1..], b, keep);
    } else {
      assert a + b == b;
    }
  }
}

=== FILE: catalog.dfy ===
/**
 * The public listing page (`/imoveis`): the URL parameters `q`, `categoria`,
 * `finalidade`, `cidade` and `ordem` select and order the listings, the
 * filter panel writes them back, and the city selector offers every distinct
 * city once, in order.
 */
module Catalog {
  import opened Wrappers
  import Text
  import opened Listing
  import opened UrlParams
  import StableSort

  // ---------------------------------------------------------------------
  // Filtering

  /** One active constraint of the page. */
  datatype Criterion =
    | Search(query: string)      // already lower-cased
    | InCategory(id: string)
    | Purpose(value: string)
    | City(name: string)

  /** The free-text search looks at the title, city, neighbourhood and code. */
  predicate SearchHit(query: string, p: Property) {
    || Text.Contains(Text.Lower(p.titulo), query)
    || Text.Contains(Text.Lower(p.cidade), query)
    || Text.Contains(Text.Lower(p.bairro), query)
    || Text.Contains(Text.Lower(p.codigoInterno), query)
  }

  predicate Holds(c: Criterion, p: Property) {
    match c
    case Search(q) => SearchHit(q, p)
    case InCategory(id) => p.categoriaId == Some(id)
    case Purpose(f) => p.finalidade == f
    case City(name) => p.cidade == name
  }

  /** `Array.prototype.filter` with one criterion. */
  function Keep(s: seq<Property>, c: Criterion): (r: seq<Property>)
    ensures |r| <= |s|
    ensures forall p :: p in r <==> p in s && Holds(c, p)
  {
    if |s| == 0 then []
    else (if Holds(c, s[0]) then [s[0]] else []) + Keep(s[1..], c)
  }

  /** The filters applied one after the other, in the page's order. */
  function ApplyAll(s: seq<Property>, cs: seq<Criterion>): seq<Property>
    decreases |cs|
  {
    if |cs| == 0 then s else ApplyAll(Keep(s, cs[0]), cs[1..])
  }

  predicate AllHold(cs: seq<Criterion>, p: Property) {
    forall i :: 0 <= i < |cs| ==> Holds(cs[i], p)
  }

  /** Reference definition: one pass keeping the listings every criterion accepts. */
  function KeepAll(s: seq<Property>, cs: seq<Criterion>): seq<Property> {
    if |s| == 0 then []
    else (if AllHold(cs, s[0]) then [s[0]] else []) + KeepAll(s[1..], cs)
  }

  /** The first category whose slug matches (`categories.find`). */
  function FindCategory(categories: seq<Category>, slug: string): (r: Option<Category>)
    ensures r.Some? ==> r.value in categories && r.value.slug == slug
    ensures r.Some? ==> exists k :: (0 <= k < |categories| && categories[k] == r.value
                                     && forall j :: 0 <= j < k ==> categories[j].slug != slug)
    ensures r.None? <==> forall i :: 0 <= i < |categories| ==> categories[i].slug != slug
  {
    if |categories| == 0 then None
    else if categories[0].slug == slug then Some(categories[0])
    else FindCategory(categories[1..], slug)
  }

  /**
   * The constraints the URL turns on: an empty parameter is none, and a
   * category slug that names no category is dropped rather than matching nothing.
   */
  function ActiveCriteria(ps: Params, categories: seq<Category>): seq<Criterion> {
    var q := Param(ps, "q");
    var cat := FindCategory(categories, Param(ps, "categoria"));
    var f := Param(ps, "finalidade");
    var city := Param(ps, "cidade");
    (if q != "" then [Search(Text.Lower(q))] else [])
    + (if Param(ps, "categoria") != "" && cat.Some? then [InCategory(cat.value.id)] else [])
    + (if f != "" then [Purpose(f)] else [])
    + (if city != "" then [City(city)] else [])
  }

  /** What the page promises of a listing it shows, stated on the parameters. */
  predicate MatchesParams(ps: Params, categories: seq<Category>, p: Property) {
    var q := Param(ps, "q");
    var slug := Param(ps, "categoria");
    var f := Param(ps, "finalidade");
    var city := Param(ps, "cidade");
    && (q == "" || SearchHit(Text.Lower(q), p))
    && (slug == "" || FindCategory(categories, slug).None?
        || p.categoriaId == Some(FindCategory(categories, slug).value.id))
    && (f == "" || p.finalidade == f)
    && (city == "" || p.cidade == city)
  }

  // ---------------------------------------------------------------------
  // Ordering

  /**
   * The sort key of each `ordem`: ascending price, descending price,
   * descending total area, and otherwise most recent first.
   */
  function Key(order: string, p: Property): int {
    if order == "price-asc" then p.preco
    else if order == "price-desc" then 0 - p.preco
    else if order == "area-desc" then 0 - p.areaTotal
    else 0 - p.createdAt
  }

  /** `searchParams.get('ordem') || 'recent'`. */
  function SortOrder(ps: Params): string {
    var o := Param(ps, "ordem");
    if o == "" then "recent" else o
  }

  /** `Results` is in the order `ordem` asks for. */
  ghost predicate SortedBy(order: string, s: seq<Property>) {
    StableSort.Sorted(k => Key(order, k), s)
  }

  /** The listings the page shows, in the order it shows them. */
  function Results(all: seq<Property>, ps: Params, categories: seq<Category>): seq<Property> {
    var order := SortOrder(ps);
    StableSort.Sort(k => Key(order, k), ApplyAll(all, ActiveCriteria(ps, categories)))
  }

  // ---------------------------------------------------------------------
  // Properties of filtering

  lemma {:induction false} KeepAllNone(s: seq<Property>)
    ensures KeepAll(s, []) == s
    decreases |s|
  {
    if |s| > 0 {
      KeepAllNone(s[1..]);
      assert s == [s[0]] + s[1..];
    }
  }

  lemma {:induction false} KeepAllStep(s: seq<Property>, c: Criterion, cs: seq<Criterion>)
    ensures KeepAll(Keep(s, c), cs) == KeepAll(s, [c] + cs)
    decreases |s|
  {
    if |s| > 0 {
      KeepAllStep(s[1..], c, cs);
      var t := (if Holds(c, s[0]) then [s[0]] else []) + Keep(s[1..], c);
      assert AllHold([c] + cs, s[0]) <==> Holds(c, s[0]) && AllHold(cs, s[0]) by {
        if Holds(c, s[0]) && AllHold(cs, s[0]) {
          forall i | 0 <= i < |[c] + cs| ensures Holds(([c] + cs)[i], s[0]) {
            if i > 0 { assert ([c] + cs)[i] == cs[i - 1]; }
          }
        }
        if AllHold([c] + cs, s[0]) {
          assert ([c] + cs)[0] == c;
          forall i | 0 <= i < |cs| ensures Holds(cs[i], s[0]) {
            assert ([c] + cs)[i + 1] == cs[i];
          }
        }
      }
      if Holds(c, s[0]) {
        assert t[0] == s[0] && t[1..] == Keep(s[1..], c);
      } else {
        assert t == Keep(s[1..], c);
      }
    }
  }

  /** Applying the filters in sequence is one pass that keeps what all accept. */
  lemma {:induction false} ApplyAllIsConjunction(s: seq<Property>, cs: seq<Criterion>)
    ensures ApplyAll(s, cs) == KeepAll(s, cs)
    decreases |cs|
  {
    if |cs| == 0 {
      KeepAllNone(s);
    } else {
      ApplyAllIsConjunction(Keep(s, cs[0]), cs[1..]);
      KeepAllStep(s, cs[0], cs[1..]);
      assert [cs[0]] + cs[1..] == cs;
    }
  }

  lemma {:induction false} KeepAllMembers(s: seq<Property>, cs: seq<Criterion>, p: Property)
    ensures p in KeepAll(s, cs) <==> p in s && AllHold(cs, p)
    decreases |s|
  {
    if |s| > 0 {
      KeepAllMembers(s[1..], cs, p);
      assert s == [s[0]] + s[1..];
    }
  }

  /**
   * KeepAll depends on the set of criteria only: listing the same
   * constraints in another order keeps the same listings in the same order.
   */
  lemma {:induction false} KeepAllOrderFree(s: seq<Property>, cs: seq<Criterion>, ds: seq<Criterion>)
    requires forall c :: c in cs <==> c in ds
    ensures KeepAll(s, cs) == KeepAll(s, ds)
    decreases |s|
  {
    if |s| > 0 {
      KeepAllOrderFree(s[1..], cs, ds);
      assert AllHold(cs, s[0]) <==> AllHold(ds, s[0]) by {
        if AllHold(cs, s[0]) {
          forall i | 0 <= i < |ds| ensures Holds(ds[i], s[0]) {
            assert ds[i] in cs;
          }
        }
        if AllHold(ds, s[0]) {
          forall i | 0 <= i < |cs| ensures Holds(cs[i], s[0]) {
            assert cs[i] in ds;
          }
        }
      }
    }
  }

  /** The order in which the page applies its filters does not matter. */
  lemma FilterOrderIrrelevant(s: seq<Property>, cs: seq<Criterion>, ds: seq<Criterion>)
    requires forall c :: c in cs <==> c in ds
    ensures ApplyAll(s, cs) == ApplyAll(s, ds)
  {
    ApplyAllIsConjunction(s, cs);
    ApplyAllIsConjunction(s, ds);
    KeepAllOrderFree(s, cs, ds);
  }

  /** The criteria the URL turns on accept a listing exactly when it matches the parameters. */
  lemma ActiveCriteriaMeaning(ps: Params, categories: seq<Category>, p: Property)
    ensures AllHold(ActiveCriteria(ps, categories), p) <==> MatchesParams(ps, categories, p)
  {
    var q := Param(ps, "q");
    var slug := Param(ps, "categoria");
    var cat := FindCategory(categories, slug);
    var f := Param(ps, "finalidade");
    var city := Param(ps, "cidade");
    var a: seq<Criterion> := if q != "" then [Search(Text.Lower(q))] else [];
    var b: seq<Criterion> := if slug != "" && cat.Some? then [InCategory(cat.value.id)] else [];
    var c: seq<Criterion> := if f != "" then [Purpose(f)] else [];
    var d: seq<Criterion> := if city != "" then [City(city)] else [];
    assert ActiveCriteria(ps, categories) == ((a + b) + c) + d;
    AllHoldAppend(a, b, p);
    AllHoldAppend(a + b, c, p);
    AllHoldAppend((a + b) + c, d, p);
    assert AllHold(a, p) <==> q == "" || SearchHit(Text.Lower(q), p) by {
      if q != "" { assert a[0] == Search(Text.Lower(q)); }
    }
    assert AllHold(b, p) <==> slug == "" || cat.None? || p.categoriaId == Some(cat.value.id) by {
      if slug != "" && cat.Some? { assert b[0] == InCategory(cat.value.id); }
    }
    assert AllHold(c, p) <==> f == "" || p.finalidade == f by {
      if f != "" { assert c[0] == Purpose(f); }
    }
    assert AllHold(d, p) <==> city == "" || p.cidade == city by {
      if city != "" { assert d[0] == City(city); }
    }
  }

  lemma AllHoldAppend(a: seq<Criterion>, b: seq<Criterion>, p: Property)
    ensures AllHold(a + b, p) <==> AllHold(a, p) && AllHold(b, p)
  {
    if AllHold(a, p) && AllHold(b, p) {
      forall i | 0 <= i < |a + b| ensures Holds((a + b)[i], p) {
        if i >= |a| { assert (a + b)[i] == b[i - |a|]; }
      }
    }
    if AllHold(a + b, p) {
      forall i | 0 <= i < |a| ensures Holds(a[i], p) { assert (a + b)[i] == a[i]; }
      forall i | 0 <= i < |b| ensures Holds(b[i], p) { assert (a + b)[|a| + i] == b[i]; }
    }
  }

  /** The page shows exactly the listings that match every non-empty parameter. */
  lemma ResultsMembers(all: seq<Property>, ps: Params, categories: seq<Category>, p: Property)
    ensures p in Results(all, ps, categories) <==> p in all && MatchesParams(ps, categories, p)
  {
    var cs := ActiveCriteria(ps, categories);
    var f := ApplyAll(all, cs);
    ApplyAllIsConjunction(all, cs);
    KeepAllMembers(all, cs, p);
    ActiveCriteriaMeaning(ps, categories, p);
    assert p in Results(all, ps, categories) <==> p in multiset(f);
  }

  /** Without parameters the page shows every listing, most recent first. */
  lemma NoParamsShowsAll(all: seq<Property>, categories: seq<Category>)
    ensures multiset(Results(all, [], categories)) == multiset(all)
    ensures SortedBy("recent", Results(all, [], categories))
  {
    assert ActiveCriteria([], categories) == [];
  }

  /** An unknown category slug is ignored: the page shows what it would without it. */
  lemma UnknownCategoryIgnored(all: seq<Property>, ps: Params, categories: seq<Category>)
    requires FindCategory(categories, Param(ps, "categoria")).None?
    ensures Results(all, ps, categories) == Results(all, Delete(ps, "categoria"), categories)
  {
    GetDelete(ps, "categoria", "q");
    GetDelete(ps, "categoria", "finalidade");
    GetDelete(ps, "categoria", "cidade");
    GetDelete(ps, "categoria", "ordem");
    assert ActiveCriteria(ps, categories) == ActiveCriteria(Delete(ps, "categoria"), categories);
  }

  // ---------------------------------------------------------------------
  // Properties of ordering

  /**
   * The page's order: sorted by the key of `ordem`, holding exactly the filtered
   * listings, and listings that tie keep the order the store returned them in.
   */
  lemma ResultsOrdered(all: seq<Property>, ps: Params, categories: seq<Category>, k: int)
    ensures var order := SortOrder(ps);
      var f := ApplyAll(all, ActiveCriteria(ps, categories));
      && SortedBy(order, Results(all, ps, categories))
      && multiset(Results(all, ps, categories)) == multiset(f)
      && StableSort.WithKey(k' => Key(order, k'), Results(all, ps, categories), k)
         == StableSort.WithKey(k' => Key(order, k'), f, k)
  {
    var order := SortOrder(ps);
    StableSort.SortStable(k' => Key(order, k'), ApplyAll(all, ActiveCriteria(ps, categories)), k);
  }

  // ---------------------------------------------------------------------
  // The city selector

  /**
   * Lexicographic order of strings by character (the default `sort` on
   * strings, which agrees with it within the Basic Multilingual Plane).
   */
  predicate Below(a: string, b: string) {
    if |a| == 0 then |b| > 0
    else if |b| == 0 then false
    else if a[0] == b[0] then Below(a[1..], b[1..])
    else a[0] < b[0]
  }

  lemma {:induction false} BelowIrreflexive(a: string)
    ensures !Below(a, a)
    decreases |a|
  {
    if |a| > 0 { BelowIrreflexive(a[1..]); }
  }

  lemma {:induction false} BelowTransitive(a: string, b: string, c: string)
    requires Below(a, b) && Below(b, c)
    ensures Below(a, c)
    decreases |a|
  {
    if |a| > 0 && |b| > 0 && |c| > 0 && a[0] == b[0] && b[0] == c[0] {
      BelowTransitive(a[1..], b[1..], c[1..]);
    }
  }

  lemma {:induction false} BelowTotal(a: string, b: string)
    ensures a == b || Below(a, b) || Below(b, a)
    decreases |a|
  {
    if |a| > 0 && |b| > 0 && a[0] == b[0] {
      BelowTotal(a[1..], b[1..]);
      if a[1..] == b[1..] { assert a == [a[0]] + a[1..] && b == [b[0]] + b[1..]; }
    }
  }

  predicate StrictlySorted(s: seq<string>) {
    forall i, j :: 0 <= i < j < |s| ==> Below(s[i], s[j])
  }

  function InsertName(x: string, s: seq<string>): (r: seq<string>)
    requires StrictlySorted(s)
    ensures StrictlySorted(r)
    ensures forall y :: y in r <==> y == x || y in s
  {
    if |s| == 0 then [x]
    else if x == s[0] then s
    else if Below(x, s[0]) then
      assert forall j :: 0 < j < |s| ==> Below(x, s[j]) by {
        forall j | 0 < j < |s| ensures Below(x, s[j]) { BelowTransitive(x, s[0], s[j]); }
      }
      [x] + s
    else
      BelowTotal(x, s[0]);
      var rest := InsertName(x, s[1..]);
      assert forall j :: 0 <= j < |rest| ==> Below(s[0], rest[j]) by {
        forall j | 0 <= j < |rest| ensures Below(s[0], rest[j]) {
          assert rest[j] in rest;
          if rest[j] != x {
            var k :| 0 <= k < |s[1..]| && s[1..][k] == rest[j];
            assert s[k + 1] == rest[j];
          }
        }
      }
      [s[0]] + rest
  }

  function DistinctSorted(names: seq<string>): (r: seq<string>)
    ensures StrictlySorted(r)
    ensures forall y :: y in r <==> y in names
  {
    if |names| == 0 then []
    else
      assert forall y :: y in names <==> y == names[0] || y in names[1..];
      InsertName(names[0], DistinctSorted(names[1..]))
  }

  function CityNames(all: seq<Property>): (r: seq<string>)
    ensures |r| == |all| && forall i :: 0 <= i < |all| ==> r[i] == all[i].cidade
  {
    seq(|all|, i requires 0 <= i < |all| => all[i].cidade)
  }

  /** `Array.from(new Set(cities)).sort()`. */
  function Cities(all: seq<Property>): seq<string> {
    DistinctSorted(CityNames(all))
  }

  /** Each city of some listing appears once, and the list is in order. */
  lemma CitiesMeaning(all: seq<Property>, c: string)
    ensures StrictlySorted(Cities(all))
    ensures c in Cities(all) <==> exists p :: p in all && p.cidade == c
  {
    var names := CityNames(all);
    if c in names {
      var i :| 0 <= i < |names| && names[i] == c;
      assert all[i] in all;
    }
  }

  /** No city is offered twice. */
  lemma CitiesDistinct(all: seq<Property>)
    ensures forall i, j :: 0 <= i < j < |Cities(all)| ==> Cities(all)[i] != Cities(all)[j]
  {
    var r := Cities(all);
    forall i, j | 0 <= i < j < |r| ensures r[i] != r[j] {
      BelowIrreflexive(r[i]);
    }
  }

  // ---------------------------------------------------------------------
  // The filter panel

  /** The panel's local choices before "Aplicar Filtros". */
  datatype Panel = Panel(search: string, category: string, finalidade: string, city: string)

  /** The panel starts from what the URL says. */
  function PanelFrom(ps: Params): Panel {
    Panel(Param(ps, "q"), Param(ps, "categoria"), Param(ps, "finalidade"), Param(ps, "cidade"))
  }

  /** A selector's value as a parameter: empty and 'all' both mean no constraint. */
  function Chosen(v: string): string {
    if v != "" && v != "all" then v else ""
  }

  /** The pairs `applyFilters` would set, empty where it sets nothing. */
  function FilterPairs(panel: Panel, ps: Params): Params {
    [ ("q", panel.search),
      ("categoria", Chosen(panel.category)),
      ("finalidade", Chosen(panel.finalidade)),
      ("cidade", Chosen(panel.city)),
      ("ordem", if SortOrder(ps) != "recent" then SortOrder(ps) else "") ]
  }

  /** `applyFilters`: a fresh parameter list with the non-empty choices and a non-default order. */
  function ApplyFilters(panel: Panel, ps: Params): Params {
    SetNonEmpty(FilterPairs(panel, ps))
  }

  /** `clearFilters`: empty choices and no parameters. */
  function ClearFilters(): (Panel, Params) {
    (Panel("", "", "", ""), [])
  }

  /**
   * What `applyFilters` writes, the page reads back: 'all' reads as no
   * constraint, and the current order survives, written only when not 'recent'.
   */
  lemma ApplyFiltersReadBack(panel: Panel, ps: Params)
    ensures var out := ApplyFilters(panel, ps);
      && PanelFrom(out) == Panel(panel.search, Chosen(panel.category), Chosen(panel.finalidade), Chosen(panel.city))
      && SortOrder(out) == SortOrder(ps)
      && (Get(out, "ordem").None? <==> SortOrder(ps) == "recent")
  {
    var pairs := FilterPairs(panel, ps);
    assert DistinctNames(pairs);
    GetAt(pairs, 0);
    GetAt(pairs, 1);
    GetAt(pairs, 2);
    GetAt(pairs, 3);
    GetAt(pairs, 4);
    SetNonEmptyReadBack(pairs, "q");
    SetNonEmptyReadBack(pairs, "categoria");
    SetNonEmptyReadBack(pairs, "finalidade");
    SetNonEmptyReadBack(pairs, "cidade");
    SetNonEmptyReadBack(pairs, "ordem");
    var out := ApplyFilters(panel, ps);
    assert Param(out, "q") == panel.search;
    assert Param(out, "categoria") == Chosen(panel.category);
    assert Param(out, "finalidade") == Chosen(panel.finalidade);
    assert Param(out, "cidade") == Chosen(panel.city);
    assert Param(out, "ordem") == (if SortOrder(ps) != "recent" then SortOrder(ps) else "");
  }

  /** Clearing the filters shows every listing again. */
  lemma ClearFiltersShowsAll(all: seq<Property>, categories: seq<Category>)
    ensures multiset(Results(all, ClearFilters().1, categories)) == multiset(all)
    ensures PanelFrom(ClearFilters().1) == ClearFilters().0
  {
    NoParamsShowsAll(all, categories);
  }

  /** Removing the search chip drops the search and keeps every other parameter. */
  lemma RemoveChipKeepsOthers(ps: Params, chip: string, other: string)
    requires chip != other
    ensures Param(Delete(ps, chip), chip) == ""
    ensures Param(Delete(ps, chip), other) == Param(ps, other)
  {
    GetDelete(ps, chip, other);
  }

  /** Choosing an order in the sort selector changes the order and nothing else. */
  lemma SortSelectKeepsFilters(ps: Params, order: string, categories: seq<Category>)
    requires order != ""
    ensures SortOrder(Set(ps, "ordem", order)) == order
    ensures ActiveCriteria(Set(ps, "ordem", order), categories) == ActiveCriteria(ps, categories)
  {
    GetSet(ps, "ordem", order, "q");
    GetSet(ps, "ordem", order, "categoria");
    GetSet(ps, "ordem", order, "finalidade");
    GetSet(ps, "ordem", order, "cidade");
  }
}

=== FILE: category_card.dfy ===
/**
 * The category tile of the home and categories pages: its icon, its count
 * line and the catalog link it opens.
 */
module CategoryCard {
  import opened Wrappers
  import Text
  import opened Listing
  import opened UrlParams
  import Catalog

  /** The seven icons the tile knows by name. */
  datatype Icon = Home | Building2 | Mountain | Store | Trees | Umbrella | Layers

  function IconName(i: Icon): string {
    match i
    case Home => "Home"
    case Building2 => "Building2"
    case Mountain => "Mountain"
    case Store => "Store"
    case Trees => "Trees"
    case Umbrella => "Umbrella"
    case Layers => "Layers"
  }

  /** `iconMap[name]`: the icon of that exact name, if there is one. */
  function IconNamed(name: string): Option<Icon> {
    if name == "Home" then Some(Home)
    else if name == "Building2" then Some(Building2)
    else if name == "Mountain" then Some(Mountain)
    else if name == "Store" then Some(Store)
    else if name == "Trees" then Some(Trees)
    else if name == "Umbrella" then Some(Umbrella)
    else if name == "Layers" then Some(Layers)
    else None
  }

  /** `iconMap[category.icon || 'Home'] || Home`. */
  function IconFor(icon: Option<string>): Icon {
    var name := if icon.Some? && icon.value != "" then icon.value else "Home";
    IconNamed(name).GetOr(Home)
  }

  /** `{count} {count === 1 ? 'imóvel' : 'imóveis'}`. */
  function CountLabel(count: nat): string {
    Text.NatToString(count) + " " + (if count == 1 then "imóvel" else "imóveis")
  }

  /** The link target `/imoveis?categoria=<slug>`. */
  function Link(c: Category): string {
    "/imoveis?categoria=" + c.slug
  }

  /** The query string of the link, as the catalog page reads it. */
  function LinkParams(c: Category): Params {
    [("categoria", c.slug)]
  }

  // ---------------------------------------------------------------------
  // Properties

  /** Every icon is found under its own name, and only there. */
  lemma IconNamesRoundTrip(i: Icon, name: string)
    ensures IconNamed(IconName(i)) == Some(i)
    ensures IconNamed(name) == Some(i) ==> name == IconName(i)
  {
  }

  /** A known, non-empty icon name picks that icon; anything else shows Home. */
  lemma IconForMeaning(icon: Option<string>)
    ensures icon.Some? && IconNamed(icon.value).Some? ==> IconFor(icon) == IconNamed(icon.value).value
    ensures icon.None? || IconNamed(icon.value).None? ==> IconFor(icon) == Home
    ensures icon == Some("") ==> IconFor(icon) == Home
  {
  }

  /** The singular is used for exactly one listing, so no listings read 'imóveis'. */
  lemma CountLabelMeaning(count: nat)
    ensures var t := Text.NatToString(count);
      && CountLabel(count)[..|t|] == t
      && CountLabel(count)[|t|..] == (if count == 1 then " imóvel" else " imóveis")
    ensures CountLabel(0) == "0 imóveis" && CountLabel(1) == "1 imóvel"
  {
    var t := Text.NatToString(count);
    var shown := CountLabel(count);
    assert shown == t + (if count == 1 then " imóvel" else " imóveis");
    assert shown[..|t|] == t;
    assert Text.NatToString(0) == "0" && Text.NatToString(1) == "1";
  }

  /** The link carries the slug, and `categoria` reads back as it. */
  lemma LinkMeaning(c: Category)
    ensures Link(c) == "/imoveis?categoria=" + Param(LinkParams(c), "categoria")
    ensures Param(LinkParams(c), "q") == "" && Param(LinkParams(c), "finalidade") == ""
    ensures Param(LinkParams(c), "cidade") == "" && Catalog.SortOrder(LinkParams(c)) == "recent"
  {
    assert |"categoria"| == 9;
    assert |"q"| != 9 && |"finalidade"| != 9 && |"cidade"| != 9 && |"ordem"| != 9;
    GetSingle("categoria", c.slug, "q");
    GetSingle("categoria", c.slug, "finalidade");
    GetSingle("categoria", c.slug, "cidade");
    GetSingle("categoria", c.slug, "ordem");
  }

  /**
   * Following the tile lists exactly the category's listings, when it is the
   * first category with its slug; a tile whose slug is empty lists everything.
   */
  lemma LinkShowsCategory(c: Category, all: seq<Property>, categories: seq<Category>, p: Property)
    requires Catalog.FindCategory(categories, c.slug) == Some(c)
    ensures c.slug != "" ==>
      (p in Catalog.Results(all, LinkParams(c), categories) <==> p in all && p.categoriaId == Some(c.id))
    ensures c.slug == "" ==>
      (p in Catalog.Results(all, LinkParams(c), categories) <==> p in all)
  {
    Catalog.ResultsMembers(all, LinkParams(c), categories, p);
    LinkMeaning(c);
  }
}

=== FILE: dashboard.dfy ===
/**
 * The admin dashboard's figures: the status counts over the fetched rows,
 * the per-day chart over a 7, 30 or 90 day window ending today, the period
 * totals and the CSV report of the chart.
 */
module Dashboard {
  import opened Wrappers
  import Text
  import opened Arrays

  /**
   * A fetched listing or lead: its status and the calendar day it was
   * created on, as a day number (`format(new Date(created_at), 'yyyy-MM-dd')`).
   */
  datatype Item = Item(id: string, status: string, day: int)

  /** The chart's period choices. */
  type Period = n: nat | n == 7 || n == 30 || n == 90 witness 30

  const DefaultPeriod: Period := 30

  datatype Stats = Stats(
    totalProperties: nat, publishedProperties: nat, draftProperties: nat,
    totalLeads: nat, newLeads: nat, totalCategories: nat)

  /** `res.data || []`: a failed query counts as no rows. */
  function OrEmpty<T>(data: Option<seq<T>>): seq<T> {
    if data.Some? then data.value else []
  }

  function WithStatus(items: seq<Item>, status: string): seq<Item> {
    Filter(items, (x: Item) => x.status == status)
  }

  /** The stat cards, from the three queries' results. */
  function StatsOf(properties: Option<seq<Item>>, leads: Option<seq<Item>>, categories: Option<seq<string>>): Stats {
    var ps := OrEmpty(properties);
    var ls := OrEmpty(leads);
    Stats(|ps|, |WithStatus(ps, "publicado")|, |WithStatus(ps, "rascunho")|,
          |ls|, |WithStatus(ls, "novo")|, |OrEmpty(categories)|)
  }

  /** The items created on day `d`. */
  function CountDay(items: seq<Item>, d: int): nat {
    if |items| == 0 then 0 else (if items[0].day == d then 1 else 0) + CountDay(items[1..], d)
  }

  /** The items created in the `n` days from `lo`. */
  function CountWindow(items: seq<Item>, lo: int, n: nat): nat {
    if |items| == 0 then 0
    else (if lo <= items[0].day < lo + n then 1 else 0) + CountWindow(items[1..], lo, n)
  }

  /** One chart row: a day and the leads and listings created on it. */
  datatype Row = Row(day: int, leads: nat, imoveis: nat)

  /** The rows for the `n` days from `lo`. */
  function Rows(leads: seq<Item>, properties: seq<Item>, lo: int, n: nat): seq<Row> {
    seq(n, i requires 0 <= i < n => Row(lo + i, CountDay(leads, lo + i), CountDay(properties, lo + i)))
  }

  /** The first day of the window: `subDays(today, period - 1)`. */
  function WindowStart(today: int, period: Period): int {
    today - (period - 1)
  }

  /** `chartData`: one row per day from the window's start up to and including today. */
  function ChartData(leads: seq<Item>, properties: seq<Item>, today: int, period: Period): seq<Row> {
    Rows(leads, properties, WindowStart(today, period), period)
  }

  /** `chartData.reduce((acc, row) => acc + row.leads, 0)`. */
  function TotalLeads(rows: seq<Row>): nat {
    if |rows| == 0 then 0 else rows[0].leads + TotalLeads(rows[1..])
  }

  function TotalImoveis(rows: seq<Row>): nat {
    if |rows| == 0 then 0 else rows[0].imoveis + TotalImoveis(rows[1..])
  }

  const CsvHeader := "Data,Leads,Imóveis"

  /** One CSV line; `fullDate` is the `dd/MM/yyyy` rendering of a day. */
  function CsvLine(row: Row, fullDate: int -> string): string {
    fullDate(row.day) + "," + Text.NatToString(row.leads) + "," + Text.NatToString(row.imoveis)
  }

  function CsvLines(rows: seq<Row>, fullDate: int -> string): seq<string> {
    seq(|rows|, i requires 0 <= i < |rows| => CsvLine(rows[i], fullDate))
  }

  /** `exportToCSV`'s content: the header and one line per row, joined by newlines. */
  function Csv(rows: seq<Row>, fullDate: int -> string): string {
    Text.Join([CsvHeader] + CsvLines(rows, fullDate), '\n')
  }

  // ---------------------------------------------------------------------
  // Properties

  /**
   * The cards count the rows of each status; published and draft listings
   * are disjoint, and a failed query shows zero.
   */
  lemma StatsMeaning(properties: Option<seq<Item>>, leads: Option<seq<Item>>, categories: Option<seq<string>>, x: Item)
    ensures var s := StatsOf(properties, leads, categories);
      && s.publishedProperties + s.draftProperties <= s.totalProperties
      && s.newLeads <= s.totalLeads
      && (properties.None? ==> s.totalProperties == 0 && s.publishedProperties == 0)
      && (leads.None? ==> s.totalLeads == 0)
      && (properties.Some? ==> s.totalProperties == |properties.value|)
      && (x in WithStatus(OrEmpty(properties), "publicado") <==> x in OrEmpty(properties) && x.status == "publicado")
      && (x in WithStatus(OrEmpty(leads), "novo") <==> x in OrEmpty(leads) && x.status == "novo")
  {
    var ps := OrEmpty(properties);
    FilterDisjoint(ps, (x: Item) => x.status == "publicado", (x: Item) => x.status == "rascunho");
    FilterMeaning(OrEmpty(leads), (x: Item) => x.status == "novo", x);
    FilterMeaning(ps, (x: Item) => x.status == "publicado", x);
  }

  /** The chart has one row per day of the period, consecutive and ending today. */
  lemma ChartDataShape(leads: seq<Item>, properties: seq<Item>, today: int, period: Period, i: nat)
    ensures |ChartData(leads, properties, today, period)| == period
    ensures ChartData(leads, properties, today, period)[period - 1].day == today
    ensures i + 1 < period ==>
      ChartData(leads, properties, today, period)[i + 1].day == ChartData(leads, properties, today, period)[i].day + 1
    ensures i < period ==>
      && ChartData(leads, properties, today, period)[i].leads == CountDay(leads, ChartData(leads, properties, today, period)[i].day)
      && ChartData(leads, properties, today, period)[i].imoveis == CountDay(properties, ChartData(leads, properties, today, period)[i].day)
  {
  }

  /** Splitting the window after its first day splits its count. */
  lemma {:induction false} WindowStep(items: seq<Item>, lo: int, n: nat)
    requires n > 0
    ensures CountWindow(items, lo, n) == CountDay(items, lo) + CountWindow(items, lo + 1, n - 1)
    decreases |items|
  {
    if |items| > 0 {
      WindowStep(items[1..], lo, n);
    }
  }

  lemma {:induction false} CountWindowBound(items: seq<Item>, lo: int, n: nat)
    ensures CountWindow(items, lo, n) <= |items|
    decreases |items|
  {
    if |items| > 0 {
      CountWindowBound(items[1..], lo, n);
    }
  }

  /** The rows' totals count the items created in their window. */
  lemma {:induction false} RowsTotals(leads: seq<Item>, properties: seq<Item>, lo: int, n: nat)
    ensures TotalLeads(Rows(leads, properties, lo, n)) == CountWindow(leads, lo, n)
    ensures TotalImoveis(Rows(leads, properties, lo, n)) == CountWindow(properties, lo, n)
    decreases n
  {
    var rows := Rows(leads, properties, lo, n);
    if n == 0 {
      assert rows == [];
      CountWindowEmpty(leads, lo);
      CountWindowEmpty(properties, lo);
    } else {
      assert rows[1..] == Rows(leads, properties, lo + 1, n - 1);
      RowsTotals(leads, properties, lo + 1, n - 1);
      WindowStep(leads, lo, n);
      WindowStep(properties, lo, n);
    }
  }

  lemma {:induction false} CountWindowEmpty(items: seq<Item>, lo: int)
    ensures CountWindow(items, lo, 0) == 0
    decreases |items|
  {
    if |items| > 0 {
      CountWindowEmpty(items[1..], lo);
    }
  }

  /**
   * The report's period totals are the numbers of leads and listings created
   * within the window, so they never exceed the overall totals.
   */
  lemma PeriodTotals(leads: seq<Item>, properties: seq<Item>, today: int, period: Period)
    ensures var rows := ChartData(leads, properties, today, period);
      && TotalLeads(rows) == CountWindow(leads, WindowStart(today, period), period)
      && TotalImoveis(rows) == CountWindow(properties, WindowStart(today, period), period)
      && TotalLeads(rows) <= |leads| && TotalImoveis(rows) <= |properties|
  {
    RowsTotals(leads, properties, WindowStart(today, period), period);
    CountWindowBound(leads, WindowStart(today, period), period);
    CountWindowBound(properties, WindowStart(today, period), period);
  }

  lemma DigitsFree(n: nat, c: char)
    requires !Text.IsAsciiDigit(c)
    ensures Text.Free(Text.NatToString(n), c)
  {
  }

  /** A CSV line splits at its commas into the date and the two counts, which read back. */
  lemma CsvLineRoundTrip(row: Row, fullDate: int -> string)
    requires Text.Free(fullDate(row.day), ',')
    ensures Text.Split(CsvLine(row, fullDate), ',') ==
      [fullDate(row.day), Text.NatToString(row.leads), Text.NatToString(row.imoveis)]
    ensures Text.ParseInt(Text.NatToString(row.leads)) == Some(row.leads as int)
    ensures Text.ParseInt(Text.NatToString(row.imoveis)) == Some(row.imoveis as int)
  {
    var a, b, c := fullDate(row.day), Text.NatToString(row.leads), Text.NatToString(row.imoveis);
    var fields := [a, b, c];
    assert Text.Join(fields[2..], ',') == c;
    assert Text.Join(fields[1..], ',') == b + [','] + c;
    assert Text.Join(fields, ',') == a + [','] + (b + [','] + c);
    assert CsvLine(row, fullDate) == Text.Join(fields, ',');
    DigitsFree(row.leads, ',');
    DigitsFree(row.imoveis, ',');
    Text.SplitJoin(fields, ',');
    Text.ParseIntNatToString(row.leads);
    Text.ParseIntNatToString(row.imoveis);
  }

  /** No line of the report holds a newline, when the dates do not. */
  lemma CsvLineFree(row: Row, fullDate: int -> string)
    requires Text.Free(fullDate(row.day), '\n')
    ensures Text.Free(CsvLine(row, fullDate), '\n')
  {
    DigitsFree(row.leads, '\n');
    DigitsFree(row.imoveis, '\n');
  }

  /**
   * The report splits at its newlines into the header and one line per row,
   * and holds one newline fewer than it has lines: `period + 1` lines for the chart.
   */
  lemma CsvShape(rows: seq<Row>, fullDate: int -> string)
    requires forall d :: Text.Free(fullDate(d), '\n')
    ensures Text.Split(Csv(rows, fullDate), '\n') == [CsvHeader] + CsvLines(rows, fullDate)
    ensures |Text.Split(Csv(rows, fullDate), '\n')| == |rows| + 1
    ensures Text.Count(Csv(rows, fullDate), '\n') == |rows|
  {
    var lines := [CsvHeader] + CsvLines(rows, fullDate);
    forall k | 0 <= k < |lines| ensures Text.Free(lines[k], '\n') {
      if k > 0 {
        CsvLineFree(rows[k - 1], fullDate);
      }
    }
    Text.SplitJoin(lines, '\n');
    Text.JoinCount(lines, '\n');
  }
}

=== FILE: format.dfy ===
/**
 * Number rendering in Brazilian Portuguese: thousands grouped with `.`, the
 * decimal comma, `R$` prices, and the two `formatArea` helpers (the one the
 * pages import and the one next to the sample data).
 */
module Format {
  import Text

  const NBSP: char := ' '

  /** The text with a `.` before every group of three digits counted from the right. */
  function GroupDigits(s: string): string
    decreases |s|
  {
    if |s| <= 3 then s else GroupDigits(s[..|s| - 3]) + "." + s[|s| - 3..]
  }

  /** `n.toLocaleString('pt-BR')` for a whole number. */
  function Grouped(n: nat): string {
    GroupDigits(Text.NatToString(n))
  }

  function SignedGrouped(n: int): string {
    if n < 0 then "-" + Grouped(0 - n) else Grouped(n)
  }

  /** `Intl.NumberFormat('pt-BR', { style: 'currency', currency: 'BRL' })` without fraction digits. */
  function FormatPrice(n: int): string {
    (if n < 0 then "-" else "") + "R$" + [NBSP] + Grouped(if n < 0 then 0 - n else n)
  }

  /** Tenths of a hectare, rounded half up (`(area / 10000).toFixed(1)`). */
  function HectareTenths(area: nat): nat {
    (area + 500) / 1000
  }

  /** `formatArea` as the pages import it, with its unit literal exactly as written. */
  function FormatAreaAsWritten(area: int): string {
    if area >= 10000 then
      var t := HectareTenths(area);
      Text.NatToString(t / 10) + "," + [Text.DigitChar(t % 10)] + " ha"
    else SignedGrouped(area) + " mÂ²"
  }

  /** `formatArea` with the square-metre sign it evidently means (`m²`). */
  function FormatArea(area: int): string {
    if area >= 10000 then
      var t := HectareTenths(area);
      Text.NatToString(t / 10) + "," + [Text.DigitChar(t % 10)] + " ha"
    else SignedGrouped(area) + " m²"
  }

  /** The three digits of `f`, zero-padded. */
  function Pad3(f: nat): string
    requires f < 1000
  {
    [Text.DigitChar(f / 100), Text.DigitChar(f / 10 % 10), Text.DigitChar(f % 10)]
  }

  function DropTrailingZeros(s: string): string
    decreases |s|
  {
    if |s| > 0 && s[|s| - 1] == '0' then DropTrailingZeros(s[..|s| - 1]) else s
  }

  /**
   * The sample data's `formatArea`: hectares through `toLocaleString('pt-BR')`,
   * which shows up to three fraction digits and no trailing zeros.
   */
  function MockFormatArea(area: int): string {
    if area >= 10000 then
      var m := (area + 5) / 10;      // thousandths of a hectare
      var whole := Grouped(m / 1000);
      var frac := DropTrailingZeros(Pad3(m % 1000));
      (if frac == "" then whole else whole + "," + frac) + " ha"
    else SignedGrouped(area) + " m²"
  }

  // ---------------------------------------------------------------------
  // Properties

  function Undotted(s: string): string {
    if |s| == 0 then ""
    else (if s[0] == '.' then "" else [s[0]]) + Undotted(s[1..])
  }

  lemma {:induction false} UndottedAppend(a: string, b: string)
    ensures Undotted(a + b) == Undotted(a) + Undotted(b)
    decreases |a|
  {
    if |a| == 0 {
      assert a + b == b;
    } else {
      assert (a + b)[1..] == a[1..] + b;
      UndottedAppend(a[1..], b);
    }
  }

  lemma {:induction false} UndottedDigits(s: string)
    requires forall i :: 0 <= i < |s| ==> Text.IsAsciiDigit(s[i])
    ensures Undotted(s) == s
    decreases |s|
  {
    if |s| > 0 {
      UndottedDigits(s[1..]);
      assert s == [s[0]] + s[1..];
    }
  }

  lemma UndottedDot(tail: string)
    requires forall i :: 0 <= i < |tail| ==> Text.IsAsciiDigit(tail[i])
    ensures Undotted("." + tail) == tail
  {
    assert ("." + tail)[1..] == tail;
    UndottedDigits(tail);
  }

  /** Grouping only inserts separators: removing the dots gives back the digits. */
  lemma {:induction false} GroupDigitsUndotted(s: string)
    requires forall i :: 0 <= i < |s| ==> Text.IsAsciiDigit(s[i])
    ensures Undotted(GroupDigits(s)) == s
    decreases |s|
  {
    if |s| <= 3 {
      UndottedDigits(s);
    } else {
      var head := s[..|s| - 3];
      var tail := s[|s| - 3..];
      assert forall i :: 0 <= i < |head| ==> head[i] == s[i];
      assert forall i :: 0 <= i < |tail| ==> tail[i] == s[|s| - 3 + i];
      GroupDigitsUndotted(head);
      assert GroupDigits(s) == GroupDigits(head) + ("." + tail);
      UndottedAppend(GroupDigits(head), "." + tail);
      UndottedDot(tail);
      assert s == head + tail;
    }
  }

  /** Each `.` is followed by three digits. */
  predicate Spaced(g: string) {
    forall i :: 0 <= i < |g| && g[i] == '.' ==> i + 3 < |g| && g[i + 1] != '.' && g[i + 2] != '.' && g[i + 3] != '.'
  }

  predicate DigitsAndDots(g: string) {
    forall i :: 0 <= i < |g| ==> Text.IsAsciiDigit(g[i]) || g[i] == '.'
  }

  /** Every separator is followed by exactly three digits before the next one or the end. */
  lemma {:induction false} GroupDigitsSpacing(s: string)
    requires forall i :: 0 <= i < |s| ==> Text.IsAsciiDigit(s[i])
    ensures Spaced(GroupDigits(s))
    decreases |s|
  {
    if |s| > 3 {
      var head := s[..|s| - 3];
      var tail := s[|s| - 3..];
      GroupDigitsSpacing(head);
      var g := GroupDigits(s);
      var gh := GroupDigits(head);
      assert g == gh + "." + tail;
      assert forall j :: 0 <= j < |gh| ==> g[j] == gh[j];
      assert forall j :: |gh| < j < |g| ==> g[j] == tail[j - |gh| - 1];
      assert forall k :: 0 <= k < 3 ==> tail[k] == s[|s| - 3 + k];
      assert forall j :: |gh| < j < |g| ==> g[j] != '.';
      assert |g| == |gh| + 4;
      forall i | 0 <= i < |g| && g[i] == '.'
        ensures i + 3 < |g| && g[i + 1] != '.' && g[i + 2] != '.' && g[i + 3] != '.'
      {
        if i < |gh| {
          assert gh[i] == '.';
          assert gh[i + 1] != '.' && gh[i + 2] != '.' && gh[i + 3] != '.';
        }
      }
    }
  }

  lemma {:induction false} DigitsOfDots(s: string)
    requires DigitsAndDots(s)
    ensures Text.DigitsOf(s) == Undotted(s)
    decreases |s|
  {
    if |s| > 0 {
      DigitsOfDots(s[1..]);
    }
  }

  lemma {:induction false} GroupDigitsChars(s: string)
    requires forall i :: 0 <= i < |s| ==> Text.IsAsciiDigit(s[i])
    ensures DigitsAndDots(GroupDigits(s))
    decreases |s|
  {
    if |s| > 3 {
      GroupDigitsChars(s[..|s| - 3]);
      var g := GroupDigits(s);
      var gh := GroupDigits(s[..|s| - 3]);
      assert g == gh + "." + s[|s| - 3..];
      forall j | 0 <= j < |g| ensures Text.IsAsciiDigit(g[j]) || g[j] == '.' {
        if j < |gh| {
          assert g[j] == gh[j];
        } else if j == |gh| {
          assert g[j] == '.';
        } else {
          assert g[j] == s[|s| - 3..][j - |gh| - 1] == s[|s| - 3 + (j - |gh| - 1)];
        }
      }
    }
  }

  /** Reading the digits of a grouped number gives back the number. */
  lemma GroupedReadBack(n: nat)
    ensures Text.DigitsOf(Grouped(n)) == Text.NatToString(n)
    ensures Text.DigitsValue(Text.DigitsOf(Grouped(n))) == n
  {
    var s := Text.NatToString(n);
    GroupDigitsUndotted(s);
    GroupDigitsChars(s);
    DigitsOfDots(GroupDigits(s));
    Text.NatToStringValue(n);
  }

  /** A price shows its magnitude in its digits and starts with `-` exactly when negative. */
  lemma FormatPriceReadBack(n: int)
    ensures var m: nat := if n < 0 then 0 - n else n;
      Text.DigitsValue(Text.DigitsOf(FormatPrice(n))) == m
    ensures |FormatPrice(n)| > 0 && (FormatPrice(n)[0] == '-' <==> n < 0)
  {
    var m: nat := if n < 0 then 0 - n else n;
    var sign := if n < 0 then "-" else "";
    assert FormatPrice(n) == (sign + "R$" + [NBSP]) + Grouped(m);
    Text.DigitsOfAppend(sign + "R$" + [NBSP], Grouped(m));
    Text.DigitsOfNone(sign + "R$" + [NBSP]);
    GroupedReadBack(m);
    assert Text.DigitsOf(FormatPrice(n)) == Text.DigitsOf(Grouped(m));
  }

  /**
   * From 10 000 m² on, the digits shown are the area in tenths of a hectare,
   * followed by `ha`; there the corrected helper shows the same text.
   */
  lemma FormatAreaHectares(area: int)
    requires area >= 10000
    ensures Text.DigitsOf(FormatAreaAsWritten(area)) == Text.NatToString(HectareTenths(area))
    ensures FormatAreaAsWritten(area)[|FormatAreaAsWritten(area)| - 3..] == " ha"
    ensures FormatArea(area) == FormatAreaAsWritten(area)
  {
    var t := HectareTenths(area);
    var a := Text.NatToString(t / 10);
    var d := [Text.DigitChar(t % 10)];
    assert FormatAreaAsWritten(area) == (a + ",") + d + " ha";
    Text.DigitsOfAppend((a + ",") + d, " ha");
    Text.DigitsOfAppend(a + ",", d);
    Text.DigitsOfAppend(a, ",");
    Text.DigitsOfNone(",");
    Text.DigitsOfNone(" ha");
    assert Text.NatToString(t) == a + d;
  }

  /** Below a hectare, the digits shown read back the area, followed by the square-metre sign. */
  lemma FormatAreaMetres(area: int)
    requires 0 <= area < 10000
    ensures Text.DigitsValue(Text.DigitsOf(FormatArea(area))) == area
    ensures FormatArea(area)[|FormatArea(area)| - 3..] == " m²"
  {
    assert FormatArea(area) == Grouped(area) + " m²";
    Text.DigitsOfAppend(Grouped(area), " m²");
    Text.DigitsOfNone(" m²");
    GroupedReadBack(area);
    assert Text.DigitsOf(FormatArea(area)) == Text.DigitsOf(Grouped(area));
  }

  /** The pages' `formatArea` ends below a hectare in `mÂ²`, not in the square-metre sign. */
  lemma FormatAreaAsWrittenUnit(area: int)
    requires area < 10000
    ensures FormatAreaAsWritten(area)[|FormatAreaAsWritten(area)| - 2..] == "Â²"
    ensures FormatAreaAsWritten(area)[|FormatAreaAsWritten(area)| - 3..] != " m²"
    ensures FormatAreaAsWritten(100) == "100 mÂ²"
  {
    var s := FormatAreaAsWritten(area);
    assert s[|s| - 2] == 'Â';
    assert Text.NatToString(100) == "100" by {
      assert Text.NatToString(10) == "10";
    }
  }

  /**
   * The sample data's `formatArea` against the pages' one: below a hectare
   * the same digits, and the sample's text is the corrected helper's; on
   * whole hectares the sample shows the number of hectares and the pages'
   * helper the same digits followed by a `0` tenth.
   */
  lemma FormatAreasAgree(area: int)
    requires area < 10000 || area % 10000 == 0
    ensures area < 10000 ==> MockFormatArea(area) == FormatArea(area)
    ensures area < 10000 ==> Text.DigitsOf(MockFormatArea(area)) == Text.DigitsOf(FormatAreaAsWritten(area))
    ensures area >= 10000 ==> Text.DigitsOf(MockFormatArea(area)) == Text.NatToString(area / 10000)
    ensures area >= 10000 ==> Text.DigitsOf(FormatAreaAsWritten(area)) == Text.DigitsOf(MockFormatArea(area)) + "0"
  {
    if area >= 10000 {
      HectaresAgree(area);
    } else {
      MetresAgree(area);
    }
  }

  lemma MetresAgree(area: int)
    requires area < 10000
    ensures MockFormatArea(area) == FormatArea(area)
    ensures Text.DigitsOf(MockFormatArea(area)) == Text.DigitsOf(FormatAreaAsWritten(area))
  {
    assert MockFormatArea(area) == SignedGrouped(area) + " m²";
    assert FormatAreaAsWritten(area) == SignedGrouped(area) + " mÂ²";
    Text.DigitsOfAppend(SignedGrouped(area), " m²");
    Text.DigitsOfNone(" m²");
    Text.DigitsOfAppend(SignedGrouped(area), " mÂ²");
    Text.DigitsOfNone(" mÂ²");
  }

  lemma HectaresAgree(area: int)
    requires area >= 10000 && area % 10000 == 0
    ensures Text.DigitsOf(MockFormatArea(area)) == Text.NatToString(area / 10000)
    ensures Text.DigitsOf(FormatAreaAsWritten(area)) == Text.DigitsOf(MockFormatArea(area)) + "0"
  {
    var n := area / 10000;
    MockWholeHectares(area);
    FormatAreaHectares(area);
    WholeTenths(n);
    assert n * 10000 == area;
  }

  /** `n` whole hectares are `10 n` tenths, written as `n` followed by a `0`. */
  lemma WholeTenths(n: nat)
    requires n >= 1
    ensures HectareTenths(n * 10000) == n * 10
    ensures Text.NatToString(n * 10) == Text.NatToString(n) + "0"
  {
  }

  /** On a whole number of hectares the sample's helper shows that number, with no fraction. */
  lemma MockWholeHectares(area: int)
    requires area >= 10000 && area % 10000 == 0
    ensures Text.DigitsOf(MockFormatArea(area)) == Text.NatToString(area / 10000)
  {
    var n := area / 10000;
    assert MockFormatArea(area) == Grouped(n) + " ha" by {
      var m := (area + 5) / 10;
      assert m == n * 1000;
      assert m % 1000 == 0 && m / 1000 == n;
      NoFraction();
    }
    Text.DigitsOfAppend(Grouped(n), " ha");
    Text.DigitsOfNone(" ha");
    GroupedReadBack(n);
  }

  /** A fraction of zero thousandths is not shown. */
  lemma NoFraction()
    ensures DropTrailingZeros(Pad3(0)) == ""
  {
    assert Pad3(0) == "000";
    assert "000"[..2] == "00";
    assert "00"[..1] == "0";
    assert "0"[..0] == "";
  }

  /** A formatted area is never empty (it always carries a unit). */
  lemma FormatAreaNonEmpty(area: int)
    ensures FormatAreaAsWritten(area) != ""
    ensures FormatArea(area) != ""
  {
    assert |FormatAreaAsWritten(area)| >= 3;
    assert |FormatArea(area)| >= 3;
  }

  lemma FormatPriceNonEmpty(n: int)
    ensures FormatPrice(n) != ""
  {
    assert |FormatPrice(n)| >= 3;
  }
}

=== FILE: header.dfy ===
/**
 * The public header's navigation: its links, and which of them is
 * highlighted for the current path.  It uses the sidebar's rule with `/` as
 * the root.
 */
module Header {
  import Text
  import AdminSidebar

  datatype NavLink = NavLink(caption: string, href: string)

  const NavLinks: seq<NavLink> := [
    NavLink("Início", "/"),
    NavLink("Imóveis", "/imoveis"),
    NavLink("Categorias", "/categorias"),
    NavLink("Anuncie", "/anuncie"),
    NavLink("Sobre", "/sobre"),
    NavLink("Contato", "/contato")
  ]

  /** `isActive`: the home link on `/` only, any other link on every path that begins with its own. */
  predicate IsActive(pathname: string, href: string) {
    AdminSidebar.LinkActive("/", pathname, href)
  }

  // ---------------------------------------------------------------------
  // Properties

  /**
   * The home link is highlighted on `/` alone, although every path begins
   * with `/`; on the home page no other link is.
   */
  lemma IsActiveMeaning(pathname: string, k: nat, rest: string)
    requires k < |NavLinks|
    ensures IsActive(pathname, "/") <==> pathname == "/"
    ensures 0 < k ==> IsActive(NavLinks[k].href + rest, NavLinks[k].href)
    ensures 0 < k ==> !IsActive("/", NavLinks[k].href)
  {
    AdminSidebar.LinkActiveMeaning("/", pathname, NavLinks[k].href, rest);
    if 0 < k {
      assert |NavLinks[k].href| > 1;
    }
  }
}

=== FILE: image_upload.dfy ===
/**
 * The listing form's image editor: choosing files appends accepted images
 * after the existing ones, numbered past the highest `ordem`; removing and
 * choosing a cover rewrite the list.  Each operation keeps at most one cover.
 */
module ImageUpload {
  import opened Wrappers
  import Text

  /** A chosen file: its name, MIME type and size in bytes. */
  datatype FileInfo = FileInfo(name: string, mime: string, size: nat)

  /** An image in the editor; a stored one has an `id`, a new one carries its `file`. */
  datatype EditImage = EditImage(
    id: Option<string>, url: string, isCover: bool, ordem: int,
    file: Option<FileInfo>, isNew: bool, isLoading: bool)

  /** 5 MB. */
  const MaxBytes: nat := 5 * 1024 * 1024

  /** A file is taken when its type starts with `image/` and it is at most 5 MB. */
  predicate Accepted(f: FileInfo) {
    Text.IsPrefix("image/", f.mime) && f.size <= MaxBytes
  }

  function Ordens(images: seq<EditImage>): (r: seq<int>)
    ensures |r| == |images| && forall i :: 0 <= i < |r| ==> r[i] == images[i].ordem
  {
    seq(|images|, i requires 0 <= i < |images| => images[i].ordem)
  }

  /** `Math.max(...s)` of a non-empty list. */
  function MaxOf(s: seq<int>): (m: int)
    requires |s| > 0
    ensures forall i :: 0 <= i < |s| ==> s[i] <= m
    ensures exists i :: 0 <= i < |s| && s[i] == m
  {
    if |s| == 1 then s[0]
    else
      var rest := MaxOf(s[1..]);
      assert forall i :: 1 <= i < |s| ==> s[i] == s[1..][i - 1];
      if s[0] >= rest then s[0] else rest
  }

  /** The highest `ordem` in the list, or -1 when it is empty. */
  function MaxOrdem(images: seq<EditImage>): int {
    if |images| > 0 then MaxOf(Ordens(images)) else -1
  }

  /**
   * The images made from `files[from..]`: file `i` becomes `ordem = base + 1 + i`
   * (rejected files still use up their number) and is the cover only when the
   * list was empty and it is the first file.  `preview` stands for
   * `URL.createObjectURL`.
   */
  function Staged(files: seq<FileInfo>, from: nat, base: int, wasEmpty: bool, preview: FileInfo -> string): seq<EditImage>
    requires from <= |files|
    decreases |files| - from
  {
    if from == |files| then []
    else
      var f := files[from];
      var here := if Accepted(f) then [EditImage(None, preview(f), wasEmpty && from == 0, base + 1 + from, Some(f), true, true)] else [];
      here + Staged(files, from + 1, base, wasEmpty, preview)
  }

  /** `handleFileSelect`: no files change nothing; otherwise the accepted ones are appended. */
  function SelectFiles(images: seq<EditImage>, files: seq<FileInfo>, preview: FileInfo -> string): seq<EditImage> {
    if |files| == 0 then images
    else images + Staged(files, 0, MaxOrdem(images), |images| == 0, preview)
  }

  /** The timer step after a selection: every image stops loading. */
  function DoneLoading(images: seq<EditImage>): (r: seq<EditImage>)
    ensures |r| == |images|
  {
    seq(|images|, i requires 0 <= i < |images| => images[i].(isLoading := false))
  }

  /** `handleRemove(k)`: image `k` goes; if it was the cover, the new first image becomes it. */
  function Remove(images: seq<EditImage>, k: nat): seq<EditImage>
    requires k < |images|
  {
    var rest := images[..k] + images[k + 1..];
    if images[k].isCover && |rest| > 0 then [rest[0].(isCover := true)] + rest[1..] else rest
  }

  /** `handleSetCover(k)`: image `k` is the cover and no other is. */
  function SetCover(images: seq<EditImage>, k: int): (r: seq<EditImage>)
    ensures |r| == |images|
  {
    seq(|images|, i requires 0 <= i < |images| => images[i].(isCover := i == k))
  }

  predicate AtMostOneCover(images: seq<EditImage>) {
    forall i, j :: 0 <= i < j < |images| ==> !(images[i].isCover && images[j].isCover)
  }

  predicate NoCover(images: seq<EditImage>) {
    forall i :: 0 <= i < |images| ==> !images[i].isCover
  }

  // ---------------------------------------------------------------------
  // Properties

  /**
   * A staged image comes from an accepted file at some position `j`, with
   * `ordem = base + 1 + j` and that file's preview.
   */
  lemma {:induction false} StagedOrigin(files: seq<FileInfo>, from: nat, base: int, wasEmpty: bool, preview: FileInfo -> string, k: nat)
    requires from <= |files|
    requires k < |Staged(files, from, base, wasEmpty, preview)|
    ensures var x := Staged(files, from, base, wasEmpty, preview)[k];
      && x.isNew && x.isLoading && x.id.None?
      && exists j :: from <= j < |files| && x.file == Some(files[j]) && Accepted(files[j])
           && x.ordem == base + 1 + j && x.url == preview(files[j])
    decreases |files| - from
  {
    assert from < |files|;
    var r := Staged(files, from, base, wasEmpty, preview);
    var rest := Staged(files, from + 1, base, wasEmpty, preview);
    if !Accepted(files[from]) {
      assert r == rest;
      StagedOrigin(files, from + 1, base, wasEmpty, preview, k);
    } else if k > 0 {
      assert r[k] == rest[k - 1];
      StagedOrigin(files, from + 1, base, wasEmpty, preview, k - 1);
    } else {
      assert r[0].file == Some(files[from]);
    }
  }

  /** Every image staged from `files[from..]` is numbered past `base + from`. */
  lemma StagedAbove(files: seq<FileInfo>, from: nat, base: int, wasEmpty: bool, preview: FileInfo -> string, k: nat)
    requires from <= |files|
    requires k < |Staged(files, from, base, wasEmpty, preview)|
    ensures Staged(files, from, base, wasEmpty, preview)[k].ordem > base + from
  {
    StagedOrigin(files, from, base, wasEmpty, preview, k);
  }

  /** A rejected file stages nothing. */
  lemma StagedSkip(files: seq<FileInfo>, from: nat, base: int, wasEmpty: bool, preview: FileInfo -> string)
    requires from < |files| && !Accepted(files[from])
    ensures Staged(files, from, base, wasEmpty, preview) == Staged(files, from + 1, base, wasEmpty, preview)
  {
  }

  /** An accepted file stages its image in front of the later ones. */
  lemma StagedFront(files: seq<FileInfo>, from: nat, base: int, wasEmpty: bool, preview: FileInfo -> string)
    requires from < |files| && Accepted(files[from])
    ensures var r := Staged(files, from, base, wasEmpty, preview);
      var rest := Staged(files, from + 1, base, wasEmpty, preview);
      |r| == |rest| + 1 && r[0].ordem == base + 1 + from
      && forall k :: 0 < k < |r| ==> r[k] == rest[k - 1]
  {
  }

  /** Staged numbers rise strictly along the list. */
  lemma {:induction false} StagedRising(files: seq<FileInfo>, from: nat, base: int, wasEmpty: bool, preview: FileInfo -> string, a: nat, b: nat)
    requires from <= |files|
    requires a < b < |Staged(files, from, base, wasEmpty, preview)|
    ensures Staged(files, from, base, wasEmpty, preview)[a].ordem < Staged(files, from, base, wasEmpty, preview)[b].ordem
    decreases |files| - from
  {
    assert from < |files|;
    if !Accepted(files[from]) {
      StagedSkip(files, from, base, wasEmpty, preview);
      StagedRising(files, from + 1, base, wasEmpty, preview, a, b);
    } else {
      StagedFront(files, from, base, wasEmpty, preview);
      if a > 0 {
        StagedRising(files, from + 1, base, wasEmpty, preview, a - 1, b - 1);
      } else {
        StagedAbove(files, from + 1, base, wasEmpty, preview, b - 1);
      }
    }
  }

  /** Only the first file can be the cover, and only when the list was empty. */
  lemma {:induction false} StagedCover(files: seq<FileInfo>, from: nat, base: int, wasEmpty: bool, preview: FileInfo -> string, k: nat)
    requires from <= |files|
    requires k < |Staged(files, from, base, wasEmpty, preview)|
    ensures Staged(files, from, base, wasEmpty, preview)[k].isCover <==>
      k == 0 && wasEmpty && from == 0 && Accepted(files[0])
    decreases |files| - from
  {
    assert from < |files|;
    var r := Staged(files, from, base, wasEmpty, preview);
    var rest := Staged(files, from + 1, base, wasEmpty, preview);
    if !Accepted(files[from]) {
      assert r == rest;
      StagedCover(files, from + 1, base, wasEmpty, preview, k);
    } else if k > 0 {
      assert r[k] == rest[k - 1];
      StagedCover(files, from + 1, base, wasEmpty, preview, k - 1);
    }
  }

  /** Every accepted file is staged, under its position's number. */
  lemma {:induction false} StagedComplete(files: seq<FileInfo>, from: nat, base: int, wasEmpty: bool, preview: FileInfo -> string, j: nat)
    requires from <= j < |files| && Accepted(files[j])
    ensures exists k ::
      && 0 <= k < |Staged(files, from, base, wasEmpty, preview)|
      && Staged(files, from, base, wasEmpty, preview)[k].file == Some(files[j])
      && Staged(files, from, base, wasEmpty, preview)[k].ordem == base + 1 + j
    decreases |files| - from
  {
    var r := Staged(files, from, base, wasEmpty, preview);
    if j == from {
      assert r[0].file == Some(files[j]);
    } else {
      StagedComplete(files, from + 1, base, wasEmpty, preview, j);
      var rest := Staged(files, from + 1, base, wasEmpty, preview);
      var k :| 0 <= k < |rest| && rest[k].file == Some(files[j]) && rest[k].ordem == base + 1 + j;
      if Accepted(files[from]) {
        StagedFront(files, from, base, wasEmpty, preview);
        assert r[k + 1] == rest[k];
      } else {
        StagedSkip(files, from, base, wasEmpty, preview);
      }
    }
  }

  /** Choosing files keeps the existing images in place, in front of the new ones. */
  lemma SelectFilesKeeps(images: seq<EditImage>, files: seq<FileInfo>, preview: FileInfo -> string)
    ensures |images| <= |SelectFiles(images, files, preview)|
    ensures SelectFiles(images, files, preview)[..|images|] == images
    ensures |files| == 0 ==> SelectFiles(images, files, preview) == images
  {
  }

  /** Every new image is numbered above each image before it: existing ones and earlier new ones. */
  lemma SelectFilesNumbers(images: seq<EditImage>, files: seq<FileInfo>, preview: FileInfo -> string, a: nat, b: nat)
    requires a < b < |SelectFiles(images, files, preview)| && |images| <= b
    ensures SelectFiles(images, files, preview)[a].ordem < SelectFiles(images, files, preview)[b].ordem
  {
    var r := SelectFiles(images, files, preview);
    var base := MaxOrdem(images);
    var staged := Staged(files, 0, base, |images| == 0, preview);
    assert r == images + staged;
    assert r[b] == staged[b - |images|];
    if a >= |images| {
      assert r[a] == staged[a - |images|];
      StagedRising(files, 0, base, |images| == 0, preview, a - |images|, b - |images|);
    } else {
      StagedOrigin(files, 0, base, |images| == 0, preview, b - |images|);
      assert r[a] == images[a];
      assert Ordens(images)[a] == images[a].ordem;
    }
  }

  /** Choosing files keeps at most one cover; a rejected first file adds none. */
  lemma SelectFilesCover(images: seq<EditImage>, files: seq<FileInfo>, preview: FileInfo -> string)
    ensures AtMostOneCover(images) ==> AtMostOneCover(SelectFiles(images, files, preview))
    ensures NoCover(images) && |files| > 0 && !Accepted(files[0]) ==> NoCover(SelectFiles(images, files, preview))
  {
    var r := SelectFiles(images, files, preview);
    if |files| > 0 {
      var wasEmpty := |images| == 0;
      var staged := Staged(files, 0, MaxOrdem(images), wasEmpty, preview);
      assert r == images + staged;
      forall i | |images| <= i < |r|
        ensures r[i] == staged[i - |images|]
        ensures r[i].isCover <==> i - |images| == 0 && wasEmpty && Accepted(files[0])
      {
        StagedCover(files, 0, MaxOrdem(images), wasEmpty, preview, i - |images|);
      }
    }
  }

  /** After the timer nothing is loading and everything else is as it was. */
  lemma DoneLoadingMeaning(images: seq<EditImage>)
    ensures forall i :: 0 <= i < |images| ==>
      && !DoneLoading(images)[i].isLoading
      && DoneLoading(images)[i].(isLoading := images[i].isLoading) == images[i]
  {
  }

  /**
   * Removing drops exactly element `k` and keeps the rest in order; only the
   * new first image's cover mark can differ.
   */
  lemma RemoveMeaning(images: seq<EditImage>, k: nat, i: nat)
    requires k < |images|
    ensures |Remove(images, k)| == |images| - 1
    ensures i < |images| - 1 ==>
      var was := if i < k then images[i] else images[i + 1];
      && Remove(images, k)[i].(isCover := was.isCover) == was
      && (i > 0 ==> Remove(images, k)[i] == was)
    ensures images[k].isCover && |images| > 1 ==> Remove(images, k)[0].isCover
  {
    var rest := images[..k] + images[k + 1..];
    if i < |images| - 1 {
      assert rest[i] == if i < k then images[i] else images[i + 1];
    }
  }

  /** Removing keeps at most one cover, and a removed cover passes on. */
  lemma RemoveCover(images: seq<EditImage>, k: nat)
    requires k < |images|
    ensures AtMostOneCover(images) ==> AtMostOneCover(Remove(images, k))
  {
    var r := Remove(images, k);
    if AtMostOneCover(images) {
      forall a, b | 0 <= a < b < |r| ensures !(r[a].isCover && r[b].isCover) {
        RemoveMeaning(images, k, a);
        RemoveMeaning(images, k, b);
        var ia := if a < k then a else a + 1;
        var ib := if b < k then b else b + 1;
        if images[k].isCover {
          if ib < k {
            assert !images[ib].isCover;
          } else {
            assert !images[ib].isCover;
          }
        }
      }
    }
  }

  /** Setting a cover marks exactly that image and leaves every other field alone. */
  lemma SetCoverMeaning(images: seq<EditImage>, k: int)
    ensures forall i :: 0 <= i < |images| ==>
      && (SetCover(images, k)[i].isCover <==> i == k)
      && SetCover(images, k)[i].(isCover := images[i].isCover) == images[i]
    ensures AtMostOneCover(SetCover(images, k))
  {
  }
}

=== FILE: leads.dfy ===
/**
 * The two public lead forms: "Contato" and "Anuncie seu imóvel".  Each
 * validates its fields, and only a valid form produces a `leads` record;
 * the record's origin tells the forms apart and every new lead is 'novo'.
 */
module Leads {
  import opened Wrappers
  import Text
  import opened Validation
  import opened Listing

  /** A row for the `leads` table. */
  datatype Lead = Lead(nome: string, email: string, telefone: string, mensagem: string, origem: string, status: string)

  /** The toast shown after a submit. */
  datatype Notice = NoNotice | Success(text: string) | Failure(text: string)

  // ---------------------------------------------------------------------
  // Contato

  datatype ContactForm = ContactForm(nome: string, email: string, telefone: string, mensagem: string)

  const EmptyContact := ContactForm("", "", "", "")

  function ContactSchema(f: ContactForm): Schema {
    Schema([
      Field("nome", f.nome, [MinLen(2, "Nome deve ter pelo menos 2 caracteres"), MaxLen(100, TooBig(100))]),
      Field("email", f.email, [EmailRule("Email inválido"), MaxLen(255, TooBig(255))]),
      Field("telefone", f.telefone, [MinLen(10, "Telefone inválido"), MaxLen(20, TooBig(20))]),
      Field("mensagem", f.mensagem, [MinLen(10, "Mensagem deve ter pelo menos 10 caracteres"), MaxLen(1000, TooBig(1000))])
    ], [])
  }

  /** The page's state: the form and the field errors shown under it. */
  datatype ContactPage = ContactPage(form: ContactForm, errors: map<string, string>)

  /** What a submit does: the page after it, the record written (if any) and the toast. */
  datatype ContactSubmitted = ContactSubmitted(page: ContactPage, inserted: Option<Lead>, notice: Notice)

  /**
   * `handleSubmit`: errors are cleared, the form is validated, and a valid
   * form is inserted; `storeFails` is the insert's outcome.
   */
  function SubmitContact(page: ContactPage, isEmail: string -> bool, storeFails: bool): ContactSubmitted {
    var f := page.form;
    var issues := Issues(ContactSchema(f), isEmail);
    if issues != [] then
      ContactSubmitted(ContactPage(f, ErrorMap(issues)), None, NoNotice)
    else
      var lead := Lead(f.nome, f.email, f.telefone, f.mensagem, "contato", "novo");
      if storeFails then
        ContactSubmitted(ContactPage(f, map[]), Some(lead), Failure("Erro ao enviar mensagem. Tente novamente."))
      else
        ContactSubmitted(ContactPage(EmptyContact, map[]), Some(lead),
          Success("Mensagem enviada com sucesso! Entraremos em contato em breve."))
  }

  /** Sets the named input's value; a name the form has no input for changes nothing. */
  function SetContactField(f: ContactForm, name: string, value: string): ContactForm {
    if name == "nome" then f.(nome := value)
    else if name == "email" then f.(email := value)
    else if name == "telefone" then f.(telefone := value)
    else if name == "mensagem" then f.(mensagem := value)
    else f
  }

  /** `handleChange`: the value is stored and that field's error blanked. */
  function EditContact(page: ContactPage, name: string, value: string): ContactPage {
    ContactPage(SetContactField(page.form, name, value), ClearError(page.errors, name))
  }

  /** The bounds the contact form enforces. */
  predicate ContactAcceptable(f: ContactForm, isEmail: string -> bool) {
    && 2 <= |f.nome| <= 100
    && isEmail(f.email) && |f.email| <= 255
    && 10 <= |f.telefone| <= 20
    && 10 <= |f.mensagem| <= 1000
  }

  // ---------------------------------------------------------------------
  // Anuncie

  datatype AdvertiseForm = AdvertiseForm(
    nome: string, email: string, telefone: string,
    categoria: string, cidade: string, bairro: string, descricao: string)

  function AdvertiseSchema(f: AdvertiseForm): Schema {
    Schema([
      Field("nome", f.nome, [MinLen(2, "Nome deve ter pelo menos 2 caracteres"), MaxLen(100, TooBig(100))]),
      Field("email", f.email, [EmailRule("Email inválido"), MaxLen(255, TooBig(255))]),
      Field("telefone", f.telefone, [MinLen(10, "Telefone inválido"), MaxLen(20, TooBig(20))]),
      Field("categoria", f.categoria, [MinLen(1, "Selecione uma categoria")]),
      Field("cidade", f.cidade, [MinLen(2, "Cidade é obrigatória"), MaxLen(100, TooBig(100))]),
      Field("bairro", f.bairro, [MinLen(2, "Bairro é obrigatório"), MaxLen(100, TooBig(100))]),
      Field("descricao", f.descricao, [MinLen(10, "Descreva seu imóvel"), MaxLen(2000, TooBig(2000))])
    ], [])
  }

  predicate AdvertiseAcceptable(f: AdvertiseForm, isEmail: string -> bool) {
    && 2 <= |f.nome| <= 100
    && isEmail(f.email) && |f.email| <= 255
    && 10 <= |f.telefone| <= 20
    && 1 <= |f.categoria|
    && 2 <= |f.cidade| <= 100
    && 2 <= |f.bairro| <= 100
    && 10 <= |f.descricao| <= 2000
  }

  /** The template literal before `.trim()`, line breaks and indentation included. */
  function RawMessage(f: AdvertiseForm): string {
    "\n" + MessageHead(f) + f.descricao + "\n      "
  }

  /** The template's lines before the description. */
  function MessageHead(f: AdvertiseForm): string {
    "Categoria: " + f.categoria + "\nCidade: " + f.cidade + "\nBairro: " + f.bairro + "\n\nDescrição:\n"
  }

  /** The lead's message: the listing's details and its description. */
  function AdvertiseMessage(f: AdvertiseForm): string {
    Text.Trim(RawMessage(f))
  }

  datatype AdvertisePage = AdvertisePage(form: AdvertiseForm, errors: map<string, string>, isSuccess: bool)

  datatype AdvertiseSubmitted = AdvertiseSubmitted(page: AdvertisePage, inserted: Option<Lead>, notice: Notice)

  /** `handleSubmit` of the advertise form; the form is kept, and success switches the page. */
  function SubmitAdvertise(page: AdvertisePage, isEmail: string -> bool, storeFails: bool): AdvertiseSubmitted {
    var f := page.form;
    var issues := Issues(AdvertiseSchema(f), isEmail);
    if issues != [] then
      AdvertiseSubmitted(AdvertisePage(f, ErrorMap(issues), page.isSuccess), None, NoNotice)
    else
      var lead := Lead(f.nome, f.email, f.telefone, AdvertiseMessage(f), "anuncie", "novo");
      if storeFails then
        AdvertiseSubmitted(AdvertisePage(f, map[], page.isSuccess), Some(lead),
          Failure("Erro ao enviar solicitação. Tente novamente."))
      else
        AdvertiseSubmitted(AdvertisePage(f, map[], true), Some(lead), Success("Solicitação enviada com sucesso!"))
  }

  /** The category selector offers each category by its name, which is what gets stored. */
  function CategoryOptions(categories: seq<Category>): (r: seq<string>)
    ensures |r| == |categories|
  {
    seq(|categories|, i requires 0 <= i < |categories| => categories[i].nome)
  }

  /** Choosing a category stores it and, unlike typing, leaves the shown errors alone. */
  function SelectCategory(page: AdvertisePage, value: string): AdvertisePage {
    page.(form := page.form.(categoria := value))
  }

  // ---------------------------------------------------------------------
  // Properties

  /** The contact form is accepted exactly within its bounds. */
  lemma ContactValidMeaning(f: ContactForm, isEmail: string -> bool)
    ensures Issues(ContactSchema(f), isEmail) == [] <==> ContactAcceptable(f, isEmail)
  {
    var s := ContactSchema(f);
    IssuesEmptyMeaning(s, isEmail);
    if ContactAcceptable(f, isEmail) {
      forall i, j | 0 <= i < |s.fields| && 0 <= j < |s.fields[i].rules|
        ensures Passes(s.fields[i].rules[j], s.fields[i].value, isEmail)
      {
      }
    } else {
      assert !Valid(s, isEmail) by {
        if !(2 <= |f.nome|) { assert !Passes(s.fields[0].rules[0], s.fields[0].value, isEmail); }
        else if !(|f.nome| <= 100) { assert !Passes(s.fields[0].rules[1], s.fields[0].value, isEmail); }
        else if !isEmail(f.email) { assert !Passes(s.fields[1].rules[0], s.fields[1].value, isEmail); }
        else if !(|f.email| <= 255) { assert !Passes(s.fields[1].rules[1], s.fields[1].value, isEmail); }
        else if !(10 <= |f.telefone|) { assert !Passes(s.fields[2].rules[0], s.fields[2].value, isEmail); }
        else if !(|f.telefone| <= 20) { assert !Passes(s.fields[2].rules[1], s.fields[2].value, isEmail); }
        else if !(10 <= |f.mensagem|) { assert !Passes(s.fields[3].rules[0], s.fields[3].value, isEmail); }
        else { assert !Passes(s.fields[3].rules[1], s.fields[3].value, isEmail); }
      }
    }
  }

  /**
   * A lead is written exactly for an acceptable form, carrying its four fields
   * as 'contato'/'novo'; success empties the form, failure keeps it, and the
   * errors are empty either way.
   */
  lemma SubmitContactMeaning(page: ContactPage, isEmail: string -> bool, storeFails: bool)
    ensures var r := SubmitContact(page, isEmail, storeFails); var f := page.form;
      && (r.inserted.Some? <==> ContactAcceptable(f, isEmail))
      && (r.inserted.Some? ==>
            && r.inserted.value == Lead(f.nome, f.email, f.telefone, f.mensagem, "contato", "novo")
            && r.page.errors == map[]
            && r.page.form == (if storeFails then f else EmptyContact)
            && (r.notice.Failure? <==> storeFails))
      && (r.inserted.None? ==> r.page.form == f && r.notice == NoNotice && r.page.errors != map[])
  {
    ContactValidMeaning(page.form, isEmail);
    var issues := Issues(ContactSchema(page.form), isEmail);
    if issues != [] {
      RuleIssuesPaths(page.form, isEmail);
      assert issues[0].path != "";
      ErrorMapMeaning(issues, issues[0].path);
      assert LastMessage(issues, issues[0].path).Some? by {
        LastMessageMember(issues, issues[0].path);
      }
    }
  }

  /** Every contact issue is on one of the form's four fields. */
  lemma RuleIssuesPaths(f: ContactForm, isEmail: string -> bool)
    ensures forall k :: 0 <= k < |Issues(ContactSchema(f), isEmail)| ==>
      Issues(ContactSchema(f), isEmail)[k].path in {"nome", "email", "telefone", "mensagem"}
  {
    var s := ContactSchema(f);
    FieldIssuesPaths(s.fields, isEmail);
    assert Issues(s, isEmail) == FieldIssues(s.fields, isEmail);
  }

  /** Typing in a field blanks its own error only. */
  lemma EditContactMeaning(page: ContactPage, name: string, value: string, other: string)
    ensures EditContact(page, name, value).errors.Keys == page.errors.Keys
    ensures name in page.errors ==> EditContact(page, name, value).errors[name] == ""
    ensures other != name && other in page.errors ==> EditContact(page, name, value).errors[other] == page.errors[other]
    ensures name == "email" ==> EditContact(page, name, value).form == page.form.(email := value)
  {
    ClearErrorMeaning(page.errors, name, other);
  }

  /** The advertise form is accepted exactly within its bounds. */
  lemma AdvertiseValidMeaning(f: AdvertiseForm, isEmail: string -> bool)
    ensures Issues(AdvertiseSchema(f), isEmail) == [] <==> AdvertiseAcceptable(f, isEmail)
  {
    IssuesEmptyMeaning(AdvertiseSchema(f), isEmail);
    if AdvertiseAcceptable(f, isEmail) {
      AdvertiseAccepts(f, isEmail);
    } else {
      AdvertiseRejects(f, isEmail);
    }
  }

  lemma AdvertiseAccepts(f: AdvertiseForm, isEmail: string -> bool)
    requires AdvertiseAcceptable(f, isEmail)
    ensures Valid(AdvertiseSchema(f), isEmail)
  {
    var s := AdvertiseSchema(f);
    forall i, j | 0 <= i < |s.fields| && 0 <= j < |s.fields[i].rules|
      ensures Passes(s.fields[i].rules[j], s.fields[i].value, isEmail)
    {
    }
  }

  lemma AdvertiseRejects(f: AdvertiseForm, isEmail: string -> bool)
    requires !AdvertiseAcceptable(f, isEmail)
    ensures !Valid(AdvertiseSchema(f), isEmail)
  {
    var s := AdvertiseSchema(f);
    var fs := s.fields;
    if !(2 <= |f.nome|) { assert !Passes(fs[0].rules[0], fs[0].value, isEmail); }
    else if !(|f.nome| <= 100) { assert !Passes(fs[0].rules[1], fs[0].value, isEmail); }
    else if !isEmail(f.email) { assert !Passes(fs[1].rules[0], fs[1].value, isEmail); }
    else if !(|f.email| <= 255) { assert !Passes(fs[1].rules[1], fs[1].value, isEmail); }
    else if !(10 <= |f.telefone|) { assert !Passes(fs[2].rules[0], fs[2].value, isEmail); }
    else if !(|f.telefone| <= 20) { assert !Passes(fs[2].rules[1], fs[2].value, isEmail); }
    else if !(1 <= |f.categoria|) { assert !Passes(fs[3].rules[0], fs[3].value, isEmail); }
    else if !(2 <= |f.cidade|) { assert !Passes(fs[4].rules[0], fs[4].value, isEmail); }
    else if !(|f.cidade| <= 100) { assert !Passes(fs[4].rules[1], fs[4].value, isEmail); }
    else if !(2 <= |f.bairro|) { assert !Passes(fs[5].rules[0], fs[5].value, isEmail); }
    else if !(|f.bairro| <= 100) { assert !Passes(fs[5].rules[1], fs[5].value, isEmail); }
    else if !(10 <= |f.descricao|) { assert !Passes(fs[6].rules[0], fs[6].value, isEmail); }
    else { assert !Passes(fs[6].rules[1], fs[6].value, isEmail); }
  }

  /**
   * The stored message lists category, city and neighbourhood, then the
   * description with its trailing blanks trimmed.
   */
  lemma AdvertiseMessageMeaning(f: AdvertiseForm)
    ensures (exists i :: 0 <= i < |f.descricao| && !Text.IsWhitespace(f.descricao[i])) ==>
      AdvertiseMessage(f) ==
        "Categoria: " + f.categoria + "\nCidade: " + f.cidade + "\nBairro: " + f.bairro
        + "\n\nDescrição:\n" + Text.TrimEnd(f.descricao)
  {
    if exists i :: 0 <= i < |f.descricao| && !Text.IsWhitespace(f.descricao[i]) {
      var tail := "\n      ";
      assert MessageHead(f)[0] == 'C';
      assert forall i :: 0 <= i < |tail| ==> Text.IsWhitespace(tail[i]);
      Text.TrimFramed("\n", MessageHead(f), f.descricao, tail);
    }
  }

  /**
   * A description of whitespace alone, which the schema lets through when it
   * is long enough, leaves the message ending at its label `Descrição:`.
   */
  lemma AdvertiseBlankMessage(f: AdvertiseForm)
    ensures Text.Blank(f.descricao) ==>
      AdvertiseMessage(f) ==
        "Categoria: " + f.categoria + "\nCidade: " + f.cidade + "\nBairro: " + f.bairro + "\n\nDescrição:"
  {
    if Text.Blank(f.descricao) {
      var tail := "\n      ";
      assert MessageHead(f)[0] == 'C';
      assert forall i :: 0 <= i < |tail| ==> Text.IsWhitespace(tail[i]);
      Text.TrimBlankBody("\n", MessageHead(f), f.descricao, tail);
      BlankMessageHead(f);
    }
  }

  /** The template's head loses only its final line break to `trimEnd`. */
  lemma BlankMessageHead(f: AdvertiseForm)
    ensures Text.TrimEnd(MessageHead(f)) ==
      "Categoria: " + f.categoria + "\nCidade: " + f.cidade + "\nBairro: " + f.bairro + "\n\nDescrição:"
  {
    var x := "Categoria: " + f.categoria + "\nCidade: " + f.cidade + "\nBairro: " + f.bairro + "\n\nDescrição:";
    assert MessageHead(f) == x + "\n";
    Text.TrimEndWhitespaceTail(x, "\n");
    assert x[|x| - 1] == ':';
  }

  /**
   * The page switches to its thank-you state only after a written lead; a
   * lead is written exactly for an acceptable form, as 'anuncie'/'novo'.
   */
  lemma SubmitAdvertiseMeaning(page: AdvertisePage, isEmail: string -> bool, storeFails: bool)
    ensures var r := SubmitAdvertise(page, isEmail, storeFails); var f := page.form;
      && (r.inserted.Some? <==> AdvertiseAcceptable(f, isEmail))
      && (r.inserted.Some? ==>
            r.inserted.value == Lead(f.nome, f.email, f.telefone, AdvertiseMessage(f), "anuncie", "novo"))
      && (r.page.isSuccess <==> page.isSuccess || (r.inserted.Some? && !storeFails))
      && r.page.form == f
  {
    AdvertiseValidMeaning(page.form, isEmail);
  }

  /** Choosing a category changes only the category. */
  lemma SelectCategoryMeaning(page: AdvertisePage, value: string)
    ensures SelectCategory(page, value).errors == page.errors
    ensures SelectCategory(page, value).form.categoria == value
    ensures SelectCategory(page, value).form.(categoria := page.form.categoria) == page.form
  {
  }

  /** The selector offers a value exactly when some category bears that name. */
  lemma CategoryOptionsMeaning(categories: seq<Category>, v: string)
    ensures v in CategoryOptions(categories) <==> exists c :: c in categories && c.nome == v
  {
    var r := CategoryOptions(categories);
    if v in r {
      var i :| 0 <= i < |r| && r[i] == v;
      assert categories[i] in categories;
    }
    if exists c :: c in categories && c.nome == v {
      var c :| c in categories && c.nome == v;
      var i :| 0 <= i < |categories| && categories[i] == c;
      assert r[i] == v;
    }
  }
}

=== FILE: listing.dfy ===
/**
 * The listing records as the public pages receive them: a `properties` row
 * joined with its category and its images.  Money and areas are whole
 * numbers, timestamps are integers that order like the stored instants.
 */
module Listing {
  import opened Wrappers

  /** One row of `property_images`, without the owning listing's id. */
  datatype PropertyImage = PropertyImage(id: string, url: string, ordem: int, isCover: bool)

  /** The category fields joined onto a listing. */
  datatype CategoryRef = CategoryRef(id: string, nome: string, slug: string, icon: Option<string>)

  datatype Property = Property(
    id: string,
    titulo: string,
    slug: string,
    descricao: Option<string>,
    finalidade: string,       // 'venda' | 'aluguel' | 'temporada', not enforced by the store
    tipo: string,
    status: string,           // 'publicado' | 'rascunho' | 'inativo' | 'vendido' | 'alugado'
    categoriaId: Option<string>,
    cidade: string,
    bairro: string,
    endereco: Option<string>,
    preco: int,
    precoLocacao: Option<int>,
    condominio: Option<int>,
    iptu: Option<int>,
    areaTotal: int,
    areaConstruida: Option<int>,
    quartos: int,
    suites: int,
    banheiros: int,
    vagas: int,
    mobiliado: bool,
    aceitaPermuta: bool,
    destaque: bool,
    codigoInterno: string,
    createdAt: int,
    images: seq<PropertyImage>,
    category: Option<CategoryRef>)

  /** A row of `categories`. */
  datatype Category = Category(id: string, nome: string, slug: string, ordem: int, icon: Option<string>)

  /** JavaScript truthiness of an optional number: present and not zero. */
  predicate TruthyNumber(x: Option<int>) { x.Some? && x.value != 0 }
}

=== FILE: mock_data.dfy ===
/**
 * The sample catalogue the site was built against, its lookup helpers, and
 * the facts the sample data keeps: distinct ids and slugs, categories that
 * exist, exactly one cover per listing.
 */
module MockData {
  import opened Wrappers
  import opened Listing
  import PropertyCard
  import opened Arrays

  /** A sample listing, with the fields the helpers and the dataset facts read. */
  datatype MockProperty = MockProperty(
    id: string,
    slug: string,
    finalidade: string,
    status: string,
    destaque: bool,
    categoriaId: string,
    cidade: string,
    preco: int,
    areaTotal: int,
    images: seq<PropertyImage>)

  const Categories: seq<Category> := [
    Category("1", "Casa", "casa", 1, Some("Home")),
    Category("2", "Apartamento", "apartamento", 2, Some("Building2")),
    Category("3", "Terreno", "terreno", 3, Some("Mountain")),
    Category("4", "Comercial", "comercial", 4, Some("Store")),
    Category("5", "Rural", "rural", 5, Some("Trees")),
    Category("6", "Temporada", "temporada", 6, Some("Umbrella"))
  ]

  function Cover(id: string, url: string): PropertyImage {
    PropertyImage(id, url, 1, true)
  }

  const Properties: seq<MockProperty> := [
    MockProperty("1", "apartamento-luxuoso-vista-panoramica", "venda", "publicado", true, "2",
      "São Paulo", 2850000, 180,
      [Cover("1", "apartamento-1.jpg"), PropertyImage("2", "cobertura-1.jpg", 2, false)]),
    MockProperty("2", "casa-moderna-piscina-jardim-tropical", "venda", "publicado", true, "1",
      "Campinas", 4500000, 600, [Cover("3", "casa-1.jpg")]),
    MockProperty("3", "cobertura-duplex-terraco-panoramico", "venda", "publicado", true, "2",
      "Rio de Janeiro", 12000000, 400, [Cover("4", "cobertura-1.jpg")]),
    MockProperty("4", "sala-comercial-edificio-triple-a", "aluguel", "publicado", false, "4",
      "São Paulo", 450000, 150, [Cover("5", "comercial-1.jpg")]),
    MockProperty("5", "fazenda-produtiva-sede-luxo", "venda", "publicado", true, "5",
      "Bragança Paulista", 8500000, 500000, [Cover("6", "rural-1.jpg")]),
    MockProperty("6", "terreno-condominio-fechado", "venda", "publicado", false, "3",
      "Sorocaba", 680000, 450, [Cover("7", "terreno-1.jpg")]),
    MockProperty("7", "casa-praia-pe-areia", "temporada", "publicado", true, "6",
      "Ubatuba", 5200000, 800, [Cover("8", "temporada-1.jpg")]),
    MockProperty("8", "apartamento-garden-area-externa", "venda", "publicado", false, "2",
      "São Paulo", 1250000, 120, [Cover("9", "apartamento-1.jpg")]),
    MockProperty("9", "casa-terrea-bairro-nobre", "venda", "publicado", false, "1",
      "Ribeirão Preto", 1800000, 400, [Cover("10", "casa-1.jpg")]),
    MockProperty("10", "loja-rua-ponto-comercial", "aluguel", "publicado", false, "4",
      "São Paulo", 850000, 80, [Cover("11", "comercial-1.jpg")]),
    MockProperty("11", "sitio-lago-area-lazer", "venda", "publicado", false, "5",
      "Atibaia", 1200000, 48000, [Cover("12", "rural-1.jpg")]),
    MockProperty("12", "terreno-comercial-rodovia", "venda", "publicado", false, "3",
      "Jundiaí", 3500000, 5000, [Cover("13", "terreno-1.jpg")])
  ]

  // ---------------------------------------------------------------------
  // The helpers

  function CategoryById(id: string): Option<Category> {
    Find(Categories, (c: Category) => c.id == id)
  }

  function CategoryBySlug(slug: string): Option<Category> {
    Find(Categories, (c: Category) => c.slug == slug)
  }

  function PropertyById(id: string): Option<MockProperty> {
    Find(Properties, (p: MockProperty) => p.id == id)
  }

  function PropertyBySlug(slug: string): Option<MockProperty> {
    Find(Properties, (p: MockProperty) => p.slug == slug)
  }

  function PropertiesByCategory(categoryId: string): seq<MockProperty> {
    Filter(Properties, (p: MockProperty) => p.categoriaId == categoryId)
  }

  function FeaturedProperties(): seq<MockProperty> {
    Filter(Properties, (p: MockProperty) => p.destaque && p.status == "publicado")
  }

  function PublishedProperties(): seq<MockProperty> {
    Filter(Properties, (p: MockProperty) => p.status == "publicado")
  }

  // ---------------------------------------------------------------------
  // Properties of the helpers

  /** The featured listings are the published ones that are featured, in the same order. */
  lemma FeaturedArePublished()
    ensures FeaturedProperties() == Filter(PublishedProperties(), (p: MockProperty) => p.destaque)
  {
    FilterFilter(Properties, (p: MockProperty) => p.destaque, (p: MockProperty) => p.status == "publicado",
      (p: MockProperty) => p.destaque && p.status == "publicado");
  }

  /** A listing of the category list belongs to it, and every listing of it is listed. */
  lemma PropertiesByCategoryMeaning(categoryId: string, p: MockProperty)
    ensures p in PropertiesByCategory(categoryId) <==> p in Properties && p.categoriaId == categoryId
  {
    FilterMeaning(Properties, (q: MockProperty) => q.categoriaId == categoryId, p);
  }

  /** Looking a listing up by its own id or slug finds it. */
  lemma LookupsFindTheirOwn(i: nat)
    requires i < |Properties|
    ensures PropertyById(Properties[i].id) == Some(Properties[i])
    ensures PropertyBySlug(Properties[i].slug) == Some(Properties[i])
  {
    IdsDistinct();
    SlugsDistinct();
    var id := Properties[i].id;
    var slug := Properties[i].slug;
    FindMeaning(Properties, (p: MockProperty) => p.id == id);
    FindMeaning(Properties, (p: MockProperty) => p.slug == slug);
  }

  /** Looking a category up by its own id or slug finds it. */
  lemma CategoryLookupsFindTheirOwn(i: nat)
    requires i < |Categories|
    ensures CategoryById(Categories[i].id) == Some(Categories[i])
    ensures CategoryBySlug(Categories[i].slug) == Some(Categories[i])
  {
    var id := Categories[i].id;
    var slug := Categories[i].slug;
    FindMeaning(Categories, (c: Category) => c.id == id);
    FindMeaning(Categories, (c: Category) => c.slug == slug);
  }

  // ---------------------------------------------------------------------
  // Facts of the sample data

  lemma IdsDistinct()
    ensures forall i, j :: 0 <= i < j < |Properties| ==> Properties[i].id != Properties[j].id
  {
  }

  lemma SlugsDistinct()
    ensures forall i, j :: 0 <= i < j < |Properties| ==> Properties[i].slug != Properties[j].slug
  {
  }

  /** Every listing's category is one of the six. */
  lemma CategoriesExist(i: nat)
    requires i < |Properties|
    ensures CategoryById(Properties[i].categoriaId).Some?
  {
    var cid := Properties[i].categoriaId;
    FindMeaning(Categories, (c: Category) => c.id == cid);
    assert cid in {"1", "2", "3", "4", "5", "6"};
  }

  /** Every listing has exactly one cover, its `ordem` 1 image, and the card shows it. */
  lemma OneCoverEach(i: nat)
    requires i < |Properties|
    ensures var imgs := Properties[i].images;
      && |imgs| > 0 && imgs[0].isCover && imgs[0].ordem == 1
      && (forall j :: 0 < j < |imgs| ==> !imgs[j].isCover)
      && PropertyCard.CoverImage(imgs) == Some(imgs[0])
  {
  }

  /** Every sample listing is published, so the published list is the whole catalogue. */
  lemma AllPublished()
    ensures PublishedProperties() == Properties
  {
    FilterAll(Properties, (p: MockProperty) => p.status == "publicado");
  }
}

=== FILE: notifications.dfy ===
/**
 * The admin bell: the recent leads as notifications, new leads arriving at
 * the front of a list capped at ten, read marks, the unread badge and the
 * "Novo Lead!" toast.
 */
module Notifications {
  import opened Wrappers
  import Text
  import StableSort
  import PropertyQueries

  /** A `leads` row as the panel reads it; `createdAt` is a timestamp as an integer. */
  datatype LeadRow = LeadRow(
    id: string, nome: string, email: string, telefone: string,
    mensagem: Option<string>, origem: string, status: string, createdAt: int)

  datatype Notification = Notification(id: string, lead: LeadRow, read: bool, createdAt: int)

  /** The component's state: the list, the popover, and the toast. */
  datatype Panel = Panel(items: seq<Notification>, isOpen: bool, showToast: bool, latestLead: Option<LeadRow>)

  /** The list never holds more than this many entries. */
  const Cap: nat := 10

  const Initial := Panel([], false, false, None)

  /** A fetched lead becomes a notification that is read unless the lead is still 'novo'. */
  function FromRow(l: LeadRow): Notification {
    Notification(l.id, l, l.status != "novo", l.createdAt)
  }

  function FromRows(rows: seq<LeadRow>): (r: seq<Notification>)
    ensures |r| == |rows|
  {
    if |rows| == 0 then [] else [FromRow(rows[0])] + FromRows(rows[1..])
  }

  /** `.order('created_at', { ascending: false }).limit(10)`. */
  function RecentLeads(table: seq<LeadRow>): seq<LeadRow> {
    PropertyQueries.Take(StableSort.Sort((l: LeadRow) => 0 - l.createdAt, table), Cap)
  }

  /** The mount fetch: a result replaces the list; a failed query (`None`) leaves it as it was. */
  function Loaded(p: Panel, fetched: Option<seq<LeadRow>>): Panel {
    if fetched.Some? then p.(items := FromRows(fetched.value)) else p
  }

  /** The realtime INSERT handler: the new lead goes first, unread, ahead of the first nine. */
  function Receive(p: Panel, l: LeadRow): Panel {
    var kept := if |p.items| <= Cap - 1 then p.items else p.items[..Cap - 1];
    Panel([Notification(l.id, l, false, l.createdAt)] + kept, p.isOpen, true, Some(l))
  }

  function UnreadCount(items: seq<Notification>): nat {
    if |items| == 0 then 0 else (if items[0].read then 0 else 1) + UnreadCount(items[1..])
  }

  function MarkAsRead(items: seq<Notification>, id: string): (r: seq<Notification>)
    ensures |r| == |items|
  {
    if |items| == 0 then []
    else [if items[0].id == id then items[0].(read := true) else items[0]] + MarkAsRead(items[1..], id)
  }

  function MarkAllAsRead(items: seq<Notification>): (r: seq<Notification>)
    ensures |r| == |items|
  {
    if |items| == 0 then [] else [items[0].(read := true)] + MarkAllAsRead(items[1..])
  }

  /** Following an entry marks it read and closes the popover. */
  function OpenEntry(p: Panel, id: string): Panel {
    p.(items := MarkAsRead(p.items, id), isOpen := false)
  }

  function DismissToast(p: Panel): Panel {
    p.(showToast := false)
  }

  /** The lead the toast shows, when it is up. */
  function Toast(p: Panel): Option<LeadRow> {
    if p.showToast && p.latestLead.Some? then p.latestLead else None
  }

  /** The bell's badge: nothing, or the text inside the red dot. */
  datatype Badge = NoBadge | BadgeText(text: string)

  function BadgeFor(unread: nat): Badge {
    if unread == 0 then NoBadge
    else if unread > 9 then BadgeText("9+")
    else BadgeText(Text.NatToString(unread))
  }

  /** The list respects the cap. */
  predicate Bounded(p: Panel) {
    |p.items| <= Cap
  }

  // ---------------------------------------------------------------------
  // Properties

  /** Every fetched lead is kept in place, and is read exactly when its status is not 'novo'. */
  lemma {:induction false} FromRowsMeaning(rows: seq<LeadRow>, i: nat)
    requires i < |rows|
    ensures FromRows(rows)[i].lead == rows[i] && FromRows(rows)[i].id == rows[i].id
    ensures FromRows(rows)[i].read <==> rows[i].status != "novo"
    decreases i
  {
    if i > 0 {
      FromRowsMeaning(rows[1..], i - 1);
    }
  }

  /**
   * The initial query: the ten newest leads of the table, or all of them when
   * there are fewer, newest first; a lead is left out only behind ten no older than it.
   */
  lemma RecentLeadsMeaning(table: seq<LeadRow>)
    ensures |RecentLeads(table)| == if |table| < Cap then |table| else Cap
    ensures multiset(RecentLeads(table)) <= multiset(table)
    ensures forall i, j :: 0 <= i < j < |RecentLeads(table)| ==>
      RecentLeads(table)[i].createdAt >= RecentLeads(table)[j].createdAt
    ensures forall l :: (l in table && l !in RecentLeads(table)) ==>
      |RecentLeads(table)| == Cap && l.createdAt <= RecentLeads(table)[Cap - 1].createdAt
  {
    var sorted := StableSort.Sort((l: LeadRow) => 0 - l.createdAt, table);
    assert |sorted| == |table| by {
      assert |multiset(sorted)| == |multiset(table)|;
    }
    var top := RecentLeads(table);
    assert sorted == top + sorted[|top|..];
    assert multiset(sorted) == multiset(top) + multiset(sorted[|top|..]);
    forall i, j | 0 <= i < j < |top| ensures top[i].createdAt >= top[j].createdAt {
      assert top[i] == sorted[i] && top[j] == sorted[j];
    }
    RecentLeadsOmitted(table);
  }

  /** A lead left out of the initial query sits behind ten leads no older than it. */
  lemma RecentLeadsOmitted(table: seq<LeadRow>)
    ensures forall l :: (l in table && l !in RecentLeads(table)) ==>
      |RecentLeads(table)| == Cap && l.createdAt <= RecentLeads(table)[Cap - 1].createdAt
  {
    var sorted := StableSort.Sort((l: LeadRow) => 0 - l.createdAt, table);
    var top := RecentLeads(table);
    assert top == sorted[..|top|];
    forall l | l in table && l !in top
      ensures |top| == Cap && l.createdAt <= top[Cap - 1].createdAt
    {
      assert l in multiset(sorted);
      var k :| 0 <= k < |sorted| && sorted[k] == l;
      assert |top| <= k;
      assert top[Cap - 1] == sorted[Cap - 1];
    }
  }

  /**
   * A failed fetch keeps the list; a successful one shows exactly the fetched
   * leads, in order, each read exactly when its status is not 'novo'.
   */
  lemma LoadedMeaning(p: Panel, fetched: Option<seq<LeadRow>>)
    ensures fetched.None? ==> Loaded(p, fetched) == p
    ensures fetched.Some? ==>
      && |Loaded(p, fetched).items| == |fetched.value|
      && Loaded(p, fetched).isOpen == p.isOpen && Loaded(p, fetched).showToast == p.showToast
    ensures fetched.Some? ==> forall i :: 0 <= i < |fetched.value| ==>
      && Loaded(p, fetched).items[i].lead == fetched.value[i]
      && (Loaded(p, fetched).items[i].read <==> fetched.value[i].status != "novo")
    ensures fetched.Some? && |fetched.value| <= Cap ==> Bounded(Loaded(p, fetched))
  {
    if fetched.Some? {
      forall i | 0 <= i < |fetched.value|
        ensures Loaded(p, fetched).items[i].lead == fetched.value[i]
        ensures Loaded(p, fetched).items[i].read <==> fetched.value[i].status != "novo"
      {
        FromRowsMeaning(fetched.value, i);
      }
    }
  }

  /**
   * A new lead is first and unread, the previous first nine follow in order,
   * the toast shows it, and the list stays within the cap whatever it held.
   */
  lemma ReceiveMeaning(p: Panel, l: LeadRow)
    ensures var q := Receive(p, l);
      && |q.items| <= Cap
      && |q.items| == 1 + (if |p.items| < Cap then |p.items| else Cap - 1)
      && q.items[0] == Notification(l.id, l, false, l.createdAt)
      && (forall i :: 0 <= i < |q.items| - 1 ==> q.items[i + 1] == p.items[i])
      && Toast(q) == Some(l)
      && q.isOpen == p.isOpen
  {
  }

  /** Nothing removes an older entry with the same id: a repeated lead is listed twice. */
  lemma ReceiveKeepsDuplicates(p: Panel, l: LeadRow, i: nat)
    requires i < |p.items| && i < Cap - 1 && p.items[i].id == l.id
    ensures Receive(p, l).items[0].id == Receive(p, l).items[i + 1].id
  {
  }

  /** The unread count counts the unread entries: none exactly when all are read. */
  lemma {:induction false} UnreadCountMeaning(items: seq<Notification>)
    ensures UnreadCount(items) <= |items|
    ensures UnreadCount(items) == 0 <==> forall i :: 0 <= i < |items| ==> items[i].read
    decreases |items|
  {
    if |items| > 0 {
      UnreadCountMeaning(items[1..]);
      assert forall i :: 0 < i < |items| ==> items[i] == items[1..][i - 1];
    }
  }

  lemma {:induction false} UnreadCountAppend(a: seq<Notification>, b: seq<Notification>)
    ensures UnreadCount(a + b) == UnreadCount(a) + UnreadCount(b)
    decreases |a|
  {
    if |a| == 0 {
      assert a + b == b;
    } else {
      UnreadCountAppend(a[1..], b);
      assert (a + b)[1..] == a[1..] + b;
    }
  }

  /** A new lead adds one to the unread count of the entries it keeps. */
  lemma ReceiveUnread(p: Panel, l: LeadRow)
    ensures var kept := if |p.items| < Cap then p.items else p.items[..Cap - 1];
      UnreadCount(Receive(p, l).items) == 1 + UnreadCount(kept)
  {
    var kept := if |p.items| <= Cap - 1 then p.items else p.items[..Cap - 1];
    UnreadCountAppend([Notification(l.id, l, false, l.createdAt)], kept);
  }

  /**
   * Marking one id read sets `read` on the entries with that id and changes
   * nothing else: order, length, leads and the other entries' marks stay.
   */
  lemma {:induction false} MarkAsReadMeaning(items: seq<Notification>, id: string, i: nat)
    requires i < |items|
    ensures MarkAsRead(items, id)[i].id == items[i].id
    ensures MarkAsRead(items, id)[i].lead == items[i].lead
    ensures MarkAsRead(items, id)[i].createdAt == items[i].createdAt
    ensures MarkAsRead(items, id)[i].read <==> items[i].read || items[i].id == id
    decreases i
  {
    if i > 0 {
      MarkAsReadMeaning(items[1..], id, i - 1);
    }
  }

  /** Marking read never raises the unread count. */
  lemma {:induction false} MarkAsReadUnread(items: seq<Notification>, id: string)
    ensures UnreadCount(MarkAsRead(items, id)) <= UnreadCount(items)
    decreases |items|
  {
    if |items| > 0 {
      MarkAsReadUnread(items[1..], id);
    }
  }

  /** After "Marcar como lidas" nothing is unread, and the entries are otherwise the same. */
  lemma {:induction false} MarkAllAsReadMeaning(items: seq<Notification>)
    ensures UnreadCount(MarkAllAsRead(items)) == 0
    ensures forall i :: 0 <= i < |items| ==> MarkAllAsRead(items)[i] == items[i].(read := true)
    decreases |items|
  {
    if |items| > 0 {
      MarkAllAsReadMeaning(items[1..]);
      assert forall i :: 0 < i < |items| ==> MarkAllAsRead(items)[i] == MarkAllAsRead(items[1..])[i - 1];
    }
  }

  /** The badge is hidden exactly at zero, shows one digit up to nine, and '9+' beyond. */
  lemma BadgeMeaning(unread: nat)
    ensures BadgeFor(unread) == NoBadge <==> unread == 0
    ensures 1 <= unread <= 9 ==> BadgeFor(unread) == BadgeText([Text.DigitChar(unread)])
    ensures unread > 9 ==> BadgeFor(unread) == BadgeText("9+")
  {
  }

  /** Dismissing hides the toast and keeps the list. */
  lemma DismissToastMeaning(p: Panel)
    ensures Toast(DismissToast(p)) == None
    ensures DismissToast(p).items == p.items
  {
  }

  /** Every step of the panel keeps the list within the cap. */
  lemma StepsStayBounded(p: Panel, l: LeadRow, id: string, table: seq<LeadRow>)
    requires Bounded(p)
    ensures Bounded(Receive(p, l))
    ensures Bounded(OpenEntry(p, id))
    ensures Bounded(p.(items := MarkAllAsRead(p.items)))
    ensures Bounded(DismissToast(p))
    ensures Bounded(Loaded(p, Some(RecentLeads(table))))
    ensures Bounded(Loaded(p, None))
  {
    ReceiveMeaning(p, l);
    RecentLeadsMeaning(table);
  }
}

=== FILE: property_card.dfy ===
/**
 * The listing card: cover picture, purpose badge, category, feature row and
 * the price with its rental suffix.  The purpose labels and the price rule
 * are also what the detail page shows.
 */
module PropertyCard {
  import opened Wrappers
  import opened Listing
  import Format

  /** The first image marked as cover, else the first image, else none. */
  function CoverImage(images: seq<PropertyImage>): Option<PropertyImage> {
    if |images| == 0 then None
    else match FirstCover(images)
      case Some(img) => Some(img)
      case None => Some(images[0])
  }

  function FirstCover(images: seq<PropertyImage>): Option<PropertyImage> {
    if |images| == 0 then None
    else if images[0].isCover then Some(images[0])
    else FirstCover(images[1..])
  }

  /** `images.find(img => img.is_cover)` answers the earliest cover. */
  lemma {:induction false} FirstCoverMeaning(images: seq<PropertyImage>)
    ensures FirstCover(images).None? <==> forall i :: 0 <= i < |images| ==> !images[i].isCover
    ensures FirstCover(images).Some? ==>
      exists i :: (0 <= i < |images| && images[i] == FirstCover(images).value
        && images[i].isCover && forall j :: 0 <= j < i ==> !images[j].isCover)
    decreases |images|
  {
    if |images| > 0 && !images[0].isCover {
      FirstCoverMeaning(images[1..]);
      assert forall i :: 0 < i < |images| ==> images[i] == images[1..][i - 1];
      if FirstCover(images).Some? {
        var i :| 0 <= i < |images[1..]| && images[1..][i] == FirstCover(images).value
          && images[1..][i].isCover && forall j :: 0 <= j < i ==> !images[1..][j].isCover;
        assert images[i + 1] == images[1..][i];
        forall j | 0 <= j < i + 1 ensures !images[j].isCover {
          if j > 0 { assert images[j] == images[1..][j - 1]; }
        }
      }
    }
  }

  /** A card has a picture exactly when the listing has an image; a marked cover wins over order. */
  lemma CoverImageMeaning(images: seq<PropertyImage>)
    ensures CoverImage(images).None? <==> |images| == 0
    ensures CoverImage(images).Some? ==> CoverImage(images).value in images
    ensures (exists i :: 0 <= i < |images| && images[i].isCover) ==>
      CoverImage(images).Some? && CoverImage(images).value.isCover
    ensures (forall i :: 0 <= i < |images| ==> !images[i].isCover) && |images| > 0 ==>
      CoverImage(images) == Some(images[0])
  {
    FirstCoverMeaning(images);
  }

  /** The purpose labels, falling back to the stored value. */
  function PurposeLabel(finalidade: string): string {
    if finalidade == "venda" then "Venda"
    else if finalidade == "aluguel" then "Aluguel"
    else if finalidade == "temporada" then "Temporada"
    else finalidade
  }

  predicate IsRental(finalidade: string) {
    finalidade == "aluguel" || finalidade == "temporada"
  }

  /** The amount shown: the rental price for rentals when it is set and not zero, else the sale price. */
  function DisplayPrice(p: Property): int {
    if IsRental(p.finalidade) && TruthyNumber(p.precoLocacao) then p.precoLocacao.value else p.preco
  }

  /** '/mês' for rent, '/dia' for seasonal stays, nothing otherwise. */
  function PriceSuffix(finalidade: string): string {
    if finalidade == "aluguel" then "/mês"
    else if finalidade == "temporada" then "/dia"
    else ""
  }

  function PriceLine(p: Property): string {
    Format.FormatPrice(DisplayPrice(p)) + PriceSuffix(p.finalidade)
  }

  /** The badge colour class of the purpose chip. */
  function ChipClass(finalidade: string): string {
    if finalidade == "venda" then "chip-sale"
    else if finalidade == "aluguel" then "chip-rent"
    else "chip-highlight"
  }

  /** The category's name, or 'Imóvel' when the listing has none (or it is empty). */
  function CategoryName(p: Property): string {
    if p.category.Some? && p.category.value.nome != "" then p.category.value.nome else "Imóvel"
  }

  /** One item of the feature row. */
  datatype Feature = Bedrooms(n: int) | Bathrooms(n: int) | Parking(n: int) | TotalArea(text: string)

  /** The row appears when there are bedrooms or an area; the area is always its last item. */
  function Features(p: Property): seq<Feature> {
    if p.quartos > 0 || p.areaTotal > 0 then
      (if p.quartos > 0 then [Bedrooms(p.quartos)] else [])
      + (if p.banheiros > 0 then [Bathrooms(p.banheiros)] else [])
      + (if p.vagas > 0 then [Parking(p.vagas)] else [])
      + [TotalArea(Format.FormatAreaAsWritten(p.areaTotal))]
    else []
  }

  /** The card links to the listing's page by its slug. */
  function Link(p: Property): string {
    "/imovel/" + p.slug
  }

  /** The badges over the picture: the purpose, then 'Destaque' for featured listings. */
  function Badges(p: Property): seq<string> {
    [PurposeLabel(p.finalidade)] + (if p.destaque then ["Destaque"] else [])
  }

  // ---------------------------------------------------------------------
  // Properties

  /**
   * A price line carries a suffix exactly for rentals; a rental with a non-zero
   * rental price shows that price, and anything else, a rental priced at zero
   * included, shows the sale price.
   */
  lemma PriceLineMeaning(p: Property)
    ensures PriceSuffix(p.finalidade) != "" <==> IsRental(p.finalidade)
    ensures !IsRental(p.finalidade) ==> PriceLine(p) == Format.FormatPrice(p.preco)
    ensures IsRental(p.finalidade) && p.precoLocacao.Some? && p.precoLocacao.value != 0 ==>
      DisplayPrice(p) == p.precoLocacao.value
    ensures IsRental(p.finalidade) && (p.precoLocacao.None? || p.precoLocacao.value == 0) ==>
      DisplayPrice(p) == p.preco
    ensures DisplayPrice(p) == p.preco || DisplayPrice(p) == p.precoLocacao.GetOr(p.preco)
  {
  }

  /** The suffix can be read back off the price line: the text after the amount tells the purpose. */
  lemma PriceSuffixReadBack(p: Property, q: Property)
    requires DisplayPrice(p) == DisplayPrice(q)
    requires PriceLine(p) == PriceLine(q)
    ensures PriceSuffix(p.finalidade) == PriceSuffix(q.finalidade)
  {
    var a := Format.FormatPrice(DisplayPrice(p));
    assert PriceLine(p) == a + PriceSuffix(p.finalidade);
    assert PriceLine(q) == a + PriceSuffix(q.finalidade);
    assert PriceLine(p)[|a|..] == PriceSuffix(p.finalidade);
    assert PriceLine(q)[|a|..] == PriceSuffix(q.finalidade);
  }

  /**
   * The row shows when there are bedrooms or an area, each count only when
   * positive, and always ends with the total area.
   */
  lemma FeaturesMeaning(p: Property)
    ensures |Features(p)| > 0 <==> p.quartos > 0 || p.areaTotal > 0
    ensures |Features(p)| > 0 ==> Features(p)[|Features(p)| - 1] == TotalArea(Format.FormatAreaAsWritten(p.areaTotal))
    ensures |Features(p)| > 0 ==>
      && (Bedrooms(p.quartos) in Features(p) <==> p.quartos > 0)
      && (Bathrooms(p.banheiros) in Features(p) <==> p.banheiros > 0)
      && (Parking(p.vagas) in Features(p) <==> p.vagas > 0)
    ensures |Features(p)| <= 4
  {
  }

  /** The card's category text is never empty. */
  lemma CategoryNameNonEmpty(p: Property)
    ensures CategoryName(p) != ""
    ensures p.category.None? ==> CategoryName(p) == "Imóvel"
  {
  }
}

=== FILE: property_detail.dfy ===
/**
 * The listing page (`/imovel/:slug`): the photo gallery with wrap-around
 * arrows, the feature and detail grids that hide empty values, the status
 * badge and the address line.
 */
module PropertyDetail {
  import opened Wrappers
  import opened Listing
  import Format
  import PropertyCard

  // ---------------------------------------------------------------------
  // Gallery

  /** `(images?.length || 1)`: an empty gallery counts as one slot. */
  function Slots(images: seq<PropertyImage>): nat {
    if |images| == 0 then 1 else |images|
  }

  function NextImage(i: int, images: seq<PropertyImage>): int {
    if i == Slots(images) - 1 then 0 else i + 1
  }

  function PrevImage(i: int, images: seq<PropertyImage>): int {
    if i == 0 then Slots(images) - 1 else i - 1
  }

  /** The arrows keep the index on a slot, and each undoes the other. */
  lemma ArrowsInverse(i: int, images: seq<PropertyImage>)
    requires 0 <= i < Slots(images)
    ensures 0 <= NextImage(i, images) < Slots(images)
    ensures 0 <= PrevImage(i, images) < Slots(images)
    ensures PrevImage(NextImage(i, images), images) == i
    ensures NextImage(PrevImage(i, images), images) == i
  {
  }

  function NextTimes(i: int, images: seq<PropertyImage>, k: nat): int
    decreases k
  {
    if k == 0 then i else NextImage(NextTimes(i, images, k - 1), images)
  }

  lemma {:induction false} NextTimesAdd(i: int, images: seq<PropertyImage>, a: nat, b: nat)
    ensures NextTimes(i, images, a + b) == NextTimes(NextTimes(i, images, a), images, b)
    decreases b
  {
    if b > 0 {
      NextTimesAdd(i, images, a, b - 1);
    }
  }

  /** Before the last photo, pressing "next" k times moves k photos forward. */
  lemma {:induction false} NextTimesForward(i: int, images: seq<PropertyImage>, k: nat)
    requires 0 <= i && i + k < Slots(images)
    ensures NextTimes(i, images, k) == i + k
    decreases k
  {
    if k > 0 {
      NextTimesForward(i, images, k - 1);
    }
  }

  /** A full round of "next" comes back to the same photo. */
  lemma FullRound(i: int, images: seq<PropertyImage>)
    requires 0 <= i < Slots(images)
    ensures NextTimes(i, images, Slots(images)) == i
  {
    var n := Slots(images);
    NextTimesForward(i, images, n - 1 - i);
    NextTimesAdd(i, images, n - 1 - i, 1);
    assert NextTimes(i, images, n - i) == 0;
    NextTimesAdd(i, images, n - i, i);
    NextTimesForward(0, images, i);
  }

  /** The arrows and dots are shown only for more than one photo. */
  predicate ShowsArrows(images: seq<PropertyImage>) { |images| > 1 }

  // ---------------------------------------------------------------------
  // Feature and detail grids

  /** A grid value before `.filter(x => x.value)`. */
  datatype Value = Num(n: int) | Text(s: string) | Absent

  /** JavaScript truthiness of a grid value. */
  predicate Truthy(v: Value) {
    match v
    case Num(n) => n != 0
    case Text(s) => s != ""
    case Absent => false
  }

  datatype Entry = Entry(name: string, value: Value)

  function ShownOnly(es: seq<Entry>): seq<Entry> {
    if |es| == 0 then []
    else (if Truthy(es[0].value) then [es[0]] else []) + ShownOnly(es[1..])
  }

  lemma {:induction false} ShownOnlyMembers(es: seq<Entry>, e: Entry)
    ensures e in ShownOnly(es) <==> e in es && Truthy(e.value)
    decreases |es|
  {
    if |es| > 0 {
      ShownOnlyMembers(es[1..], e);
      assert es == [es[0]] + es[1..];
    }
  }

  /** An entry whose name no other entry has shows exactly when its value is truthy. */
  lemma ShownNamed(es: seq<Entry>, k: nat)
    requires k < |es|
    requires forall j :: 0 <= j < |es| && j != k ==> es[j].name != es[k].name
    ensures (exists e :: e in ShownOnly(es) && e.name == es[k].name) <==> Truthy(es[k].value)
  {
    ShownOnlyMembers(es, es[k]);
    forall e | e in ShownOnly(es) && e.name == es[k].name ensures e == es[k] {
      ShownOnlyMembers(es, e);
    }
  }

  function YesNo(b: bool): string { if b then "Sim" else "Não" }

  function AllFeatures(p: Property): seq<Entry> {
    [ Entry("Quartos", Num(p.quartos)),
      Entry("Banheiros", Num(p.banheiros)),
      Entry("Vagas", Num(p.vagas)),
      Entry("Área Total", Text(Format.FormatAreaAsWritten(p.areaTotal))),
      Entry("Área Construída",
        if TruthyNumber(p.areaConstruida) then Text(Format.FormatAreaAsWritten(p.areaConstruida.value)) else Absent),
      Entry("Mobiliado", Text(YesNo(p.mobiliado))) ]
  }

  function Features(p: Property): seq<Entry> {
    ShownOnly(AllFeatures(p))
  }

  function AllDetails(p: Property): seq<Entry> {
    [ Entry("Tipo", Text(p.tipo)),
      Entry("Categoria", if p.category.Some? then Text(p.category.value.nome) else Absent),
      Entry("Cidade", Text(p.cidade)),
      Entry("Bairro", Text(p.bairro)),
      Entry("Suítes", Num(p.suites)),
      Entry("Condomínio", if TruthyNumber(p.condominio) then Text(Format.FormatPrice(p.condominio.value)) else Absent),
      Entry("IPTU", if TruthyNumber(p.iptu) then Text(Format.FormatPrice(p.iptu.value)) else Absent),
      Entry("Aceita Permuta", Text(YesNo(p.aceitaPermuta))) ]
  }

  function Details(p: Property): seq<Entry> {
    ShownOnly(AllDetails(p))
  }

  /** The total area and the furnishing flag are always in the feature grid. */
  lemma FeaturesAlwaysShown(p: Property)
    ensures Entry("Área Total", Text(Format.FormatAreaAsWritten(p.areaTotal))) in Features(p)
    ensures Entry("Mobiliado", Text(YesNo(p.mobiliado))) in Features(p)
  {
    var all := AllFeatures(p);
    Format.FormatAreaNonEmpty(p.areaTotal);
    assert all[3] in all && all[5] in all;
    ShownOnlyMembers(all, all[3]);
    ShownOnlyMembers(all, all[5]);
  }

  /** A count is in the feature grid exactly when it is not zero. */
  lemma FeaturesCounts(p: Property)
    ensures Entry("Quartos", Num(p.quartos)) in Features(p) <==> p.quartos != 0
    ensures Entry("Banheiros", Num(p.banheiros)) in Features(p) <==> p.banheiros != 0
    ensures Entry("Vagas", Num(p.vagas)) in Features(p) <==> p.vagas != 0
  {
    var all := AllFeatures(p);
    assert all[0] in all && all[1] in all && all[2] in all;
    ShownOnlyMembers(all, all[0]);
    ShownOnlyMembers(all, all[1]);
    ShownOnlyMembers(all, all[2]);
  }

  /** The built area is in the feature grid exactly when it is set and not zero. */
  lemma FeaturesBuiltArea(p: Property)
    ensures (exists e :: e in Features(p) && e.name == "Área Construída") <==> TruthyNumber(p.areaConstruida)
  {
    if TruthyNumber(p.areaConstruida) {
      Format.FormatAreaNonEmpty(p.areaConstruida.value);
    }
    ShownNamed(AllFeatures(p), 4);
  }

  /** The exchange flag always shows; the type and the suite count show when not empty or zero. */
  lemma DetailsPlain(p: Property)
    ensures Entry("Aceita Permuta", Text(YesNo(p.aceitaPermuta))) in Details(p)
    ensures Entry("Tipo", Text(p.tipo)) in Details(p) <==> p.tipo != ""
    ensures Entry("Suítes", Num(p.suites)) in Details(p) <==> p.suites != 0
  {
    var all := AllDetails(p);
    assert all[0] in all && all[4] in all && all[7] in all;
    ShownOnlyMembers(all, all[0]);
    ShownOnlyMembers(all, all[4]);
    ShownOnlyMembers(all, all[7]);
  }

  /** The category shows when there is one with a name. */
  lemma DetailsCategory(p: Property)
    ensures (exists e :: e in Details(p) && e.name == "Categoria") <==>
      p.category.Some? && p.category.value.nome != ""
  {
    ShownNamed(AllDetails(p), 1);
  }

  /** The condominium fee and the property tax show when set and not zero. */
  lemma DetailsFees(p: Property)
    ensures (exists e :: e in Details(p) && e.name == "Condomínio") <==> TruthyNumber(p.condominio)
    ensures (exists e :: e in Details(p) && e.name == "IPTU") <==> TruthyNumber(p.iptu)
  {
    DetailsCondominio(p);
    DetailsIptu(p);
  }

  lemma DetailsCondominio(p: Property)
    ensures (exists e :: e in Details(p) && e.name == "Condomínio") <==> TruthyNumber(p.condominio)
  {
    if TruthyNumber(p.condominio) { Format.FormatPriceNonEmpty(p.condominio.value); }
    var all := AllDetails(p);
    assert all[5].name == "Condomínio";
    ShownNamed(all, 5);
  }

  lemma DetailsIptu(p: Property)
    ensures (exists e :: e in Details(p) && e.name == "IPTU") <==> TruthyNumber(p.iptu)
  {
    if TruthyNumber(p.iptu) { Format.FormatPriceNonEmpty(p.iptu.value); }
    var all := AllDetails(p);
    assert all[6].name == "IPTU";
    ShownNamed(all, 6);
  }

  // ---------------------------------------------------------------------
  // Header

  /** The status badge text, falling back to the stored value. */
  function StatusLabel(status: string): string {
    if status == "publicado" then "Disponível"
    else if status == "rascunho" then "Rascunho"
    else if status == "inativo" then "Inativo"
    else if status == "vendido" then "Vendido"
    else if status == "alugado" then "Alugado"
    else status
  }

  /** `${endereco}, ` when there is a street address, then `bairro - cidade`. */
  function AddressLine(p: Property): string {
    (if p.endereco.Some? && p.endereco.value != "" then p.endereco.value + ", " else "")
    + p.bairro + " - " + p.cidade
  }

  /** The address line always ends with the neighbourhood and city, and starts with the street when there is one. */
  lemma AddressLineMeaning(p: Property)
    ensures var tail := p.bairro + " - " + p.cidade;
      && |AddressLine(p)| >= |tail|
      && AddressLine(p)[|AddressLine(p)| - |tail|..] == tail
    ensures p.endereco.Some? && p.endereco.value != "" ==>
      AddressLine(p)[..|p.endereco.value| + 2] == p.endereco.value + ", "
    ensures (p.endereco.None? || p.endereco.value == "") ==> AddressLine(p) == p.bairro + " - " + p.cidade
  {
    var head := if p.endereco.Some? && p.endereco.value != "" then p.endereco.value + ", " else "";
    assert AddressLine(p) == head + (p.bairro + " - " + p.cidade);
  }

  /** The page's description for search engines: the first 160 characters, or nothing. */
  function SeoDescription(p: Property): string {
    match p.descricao
    case Some(d) => if |d| <= 160 then d else d[..160]
    case None => ""
  }

  /** What the page shows for a fetch: the listing, or the not-found message. */
  datatype Page = Loading | NotFound | Shown(p: Property)

  datatype Fetch<T> = Pending | Failed | Done(value: T)

  function PageFor(f: Fetch<Option<Property>>): Page {
    match f
    case Pending => Loading
    case Failed => NotFound
    case Done(None) => NotFound
    case Done(Some(p)) => Shown(p)
  }

  /** The page shows a listing only when the fetch found one, and shows that one. */
  lemma PageForMeaning(f: Fetch<Option<Property>>)
    ensures PageFor(f).Shown? <==> f.Done? && f.value.Some?
    ensures PageFor(f).Shown? ==> PageFor(f).p == f.value.value
    ensures PageFor(f) == Loading <==> f.Pending?
  {
  }

  /** The detail page reuses the card's price rule and purpose labels. */
  function PriceLine(p: Property): string {
    PropertyCard.PriceLine(p)
  }
}

=== FILE: property_form.dfy ===
/**
 * The admin listing form: the title drives the slug, seven fields are
 * required, the payload turns empty optional texts into null and numbers
 * into numbers, and saving the images deletes the stored ones that were
 * removed and then inserts or updates the rest.
 */
module PropertyForm {
  import opened Wrappers
  import Text
  import Slug
  import opened ImageUpload

  /** The form as typed: every input is text except the switches. */
  datatype Form = Form(
    titulo: string, slug: string, descricao: string, finalidade: string, status: string,
    destaque: bool, tipo: string, categoriaId: string, cidade: string, bairro: string,
    endereco: string, preco: string, precoLocacao: string, condominio: string, iptu: string,
    areaTotal: string, areaConstruida: string, quartos: string, suites: string,
    banheiros: string, vagas: string, mobiliado: bool, aceitaPermuta: bool,
    codigoInterno: string, codigoPortal: string, codigoCrm: string, codigoExterno: string,
    seoTitle: string, seoDescription: string,
    contatoWhatsapp: string, contatoTelefone: string, contatoEmail: string)

  const InitialForm := Form(
    "", "", "", "venda", "rascunho", false, "", "", "", "", "", "", "", "", "", "", "",
    "0", "0", "0", "0", false, false, "", "", "", "", "", "", "", "", "")

  /** The row written to `properties`; `None` is null. */
  datatype Payload = Payload(
    titulo: string, slug: string, descricao: Option<string>, finalidade: string, status: string,
    destaque: bool, tipo: string, categoriaId: Option<string>, cidade: string, bairro: string,
    endereco: Option<string>, preco: int, precoLocacao: Option<int>, condominio: Option<int>,
    iptu: Option<int>, areaTotal: int, areaConstruida: Option<int>,
    quartos: int, suites: int, banheiros: int, vagas: int, mobiliado: bool, aceitaPermuta: bool,
    codigoInterno: string, codigoPortal: Option<string>, codigoCrm: Option<string>,
    codigoExterno: Option<string>, seoTitle: Option<string>, seoDescription: Option<string>,
    contatoWhatsapp: Option<string>, contatoTelefone: Option<string>, contatoEmail: Option<string>,
    createdBy: Option<string>)

  /** `handleTitleChange`: the title is stored and the slug regenerated from it. */
  function TitleChanged(f: Form, titulo: string): Form {
    f.(titulo := titulo, slug := Slug.GenerateSlug(titulo))
  }

  /** The guard at the top of `handleSubmit`. */
  predicate MissingRequired(f: Form) {
    f.titulo == "" || f.cidade == "" || f.bairro == "" || f.tipo == ""
    || f.codigoInterno == "" || f.preco == "" || f.areaTotal == ""
  }

  /** `text || null`. */
  function OrNull(s: string): Option<string> {
    if s == "" then None else Some(s)
  }

  /** `parseInt(s) || 0`: an unreadable count is 0. */
  function Count(s: string): int {
    Text.ParseInt(s).GetOr(0)
  }

  /**
   * `s ? parseFloat(s) : null`; `parseNumber` stands for `parseFloat`, with
   * `None` for NaN, which the store receives as null.
   */
  function OptionalNumber(s: string, parseNumber: string -> Option<int>): Option<int> {
    if s == "" then None else parseNumber(s)
  }

  function BuildPayload(f: Form, parseNumber: string -> Option<int>, userId: Option<string>): Payload {
    Payload(
      f.titulo, if f.slug != "" then f.slug else Slug.GenerateSlug(f.titulo), OrNull(f.descricao),
      f.finalidade, f.status, f.destaque, f.tipo, OrNull(f.categoriaId), f.cidade, f.bairro,
      OrNull(f.endereco), parseNumber(f.preco).GetOr(0),
      OptionalNumber(f.precoLocacao, parseNumber), OptionalNumber(f.condominio, parseNumber),
      OptionalNumber(f.iptu, parseNumber), parseNumber(f.areaTotal).GetOr(0),
      OptionalNumber(f.areaConstruida, parseNumber),
      Count(f.quartos), Count(f.suites), Count(f.banheiros), Count(f.vagas),
      f.mobiliado, f.aceitaPermuta, f.codigoInterno,
      OrNull(f.codigoPortal), OrNull(f.codigoCrm), OrNull(f.codigoExterno),
      OrNull(f.seoTitle), OrNull(f.seoDescription),
      OrNull(f.contatoWhatsapp), OrNull(f.contatoTelefone), OrNull(f.contatoEmail),
      userId)
  }

  // ---------------------------------------------------------------------
  // Saving the images

  /** `img.id` is truthy. */
  predicate HasId(img: EditImage) {
    img.id.Some? && img.id.value != ""
  }

  /** `images.filter(img => img.id).map(img => img.id)`. */
  function CurrentIds(images: seq<EditImage>): seq<string> {
    if |images| == 0 then []
    else (if HasId(images[0]) then [images[0].id.value] else []) + CurrentIds(images[1..])
  }

  /** `existingIds.filter(id => !currentIds.includes(id))`. */
  function ToDelete(existing: seq<string>, current: seq<string>): seq<string> {
    if |existing| == 0 then []
    else (if existing[0] in current then [] else [existing[0]]) + ToDelete(existing[1..], current)
  }

  /** What the loop does with one image. */
  datatype ImageAction =
    | InsertImage(isCover: bool, ordem: int)
    | UpdateImage(id: string, isCover: bool, ordem: int)
    | NoAction

  /**
   * A new image with a file is uploaded and inserted (nothing when the
   * upload fails); otherwise an image with an id has its cover mark and
   * `ordem` updated; otherwise nothing happens.
   */
  function ActionFor(img: EditImage, uploadFails: FileInfo -> bool): ImageAction {
    if img.isNew && img.file.Some? then
      if uploadFails(img.file.value) then NoAction else InsertImage(img.isCover, img.ordem)
    else if HasId(img) then UpdateImage(img.id.value, img.isCover, img.ordem)
    else NoAction
  }

  function Actions(images: seq<EditImage>, uploadFails: FileInfo -> bool): (r: seq<ImageAction>)
    ensures |r| == |images|
  {
    if |images| == 0 then [] else [ActionFor(images[0], uploadFails)] + Actions(images[1..], uploadFails)
  }

  /** The store writes of `saveImages`: the ids to delete, then one action per image. */
  datatype ImagePlan = ImagePlan(deletes: seq<string>, actions: seq<ImageAction>)

  const NoPlan := ImagePlan([], [])

  /**
   * As the page is written: `saveImages` runs only when at least one image
   * is left, so emptying the list deletes nothing.
   */
  function ImagePlanAsWritten(images: seq<EditImage>, existing: seq<string>, uploadFails: FileInfo -> bool): ImagePlan {
    if |images| > 0 then ImagePlan(ToDelete(existing, CurrentIds(images)), Actions(images, uploadFails))
    else NoPlan
  }

  /** The plan with the removals always applied, whatever is left: the evidently intended one. */
  function ImagePlanFor(images: seq<EditImage>, existing: seq<string>, uploadFails: FileInfo -> bool): ImagePlan {
    ImagePlan(ToDelete(existing, CurrentIds(images)), Actions(images, uploadFails))
  }

  // ---------------------------------------------------------------------
  // Submitting

  /** The toast and whether the page leaves for the listing table. */
  datatype Submitted = Submitted(written: Option<Payload>, plan: ImagePlan, message: string, navigates: bool)

  /**
   * `handleSubmit`: the required-field gate, then the insert or update whose
   * outcome `storeError` gives (its error code, if any), then the images.
   */
  function Submit(
    f: Form, isEditing: bool, images: seq<EditImage>, existing: seq<string>,
    parseNumber: string -> Option<int>, userId: Option<string>,
    storeError: Option<string>, uploadFails: FileInfo -> bool): Submitted
  {
    if MissingRequired(f) then Submitted(None, NoPlan, "Preencha todos os campos obrigatórios", false)
    else
      var payload := BuildPayload(f, parseNumber, userId);
      if storeError.Some? then
        Submitted(Some(payload), NoPlan,
          if storeError.value == "23505" then "Código interno já existe. Use um código diferente." else "Erro ao salvar imóvel",
          false)
      else
        Submitted(Some(payload), ImagePlanAsWritten(images, existing, uploadFails),
          if isEditing then "Imóvel atualizado com sucesso!" else "Imóvel cadastrado com sucesso!",
          true)
  }

  // ---------------------------------------------------------------------
  // Properties

  /** Typing a title changes only the title and the slug, and the slug is a well-formed slug of it. */
  lemma TitleChangedMeaning(f: Form, titulo: string)
    ensures TitleChanged(f, titulo).titulo == titulo
    ensures TitleChanged(f, titulo).(titulo := f.titulo, slug := f.slug) == f
    ensures Slug.IsSlug(TitleChanged(f, titulo).slug)
    ensures Slug.GenerateSlug(TitleChanged(f, titulo).slug) == TitleChanged(f, titulo).slug
  {
    Slug.GenerateSlugIsSlug(titulo);
    Slug.GenerateSlugIdempotent(titulo);
  }

  /** Nothing is written while a required field is empty; once all are filled, the payload carries them. */
  lemma RequiredGateMeaning(
    f: Form, isEditing: bool, images: seq<EditImage>, existing: seq<string>,
    parseNumber: string -> Option<int>, userId: Option<string>,
    storeError: Option<string>, uploadFails: FileInfo -> bool)
    ensures var s := Submit(f, isEditing, images, existing, parseNumber, userId, storeError, uploadFails);
      && (s.written.None? <==> MissingRequired(f))
      && (s.written.None? ==> s.plan == NoPlan && !s.navigates)
      && (s.written.Some? ==>
            && s.written.value.titulo != "" && s.written.value.cidade != "" && s.written.value.bairro != ""
            && s.written.value.tipo != "" && s.written.value.codigoInterno != "")
    ensures InitialForm.titulo == "" && MissingRequired(InitialForm)
  {
  }

  /** An empty slug is filled from the title, and then it is a well-formed slug; a typed slug is kept. */
  lemma PayloadSlug(f: Form, parseNumber: string -> Option<int>, userId: Option<string>)
    ensures f.slug != "" ==> BuildPayload(f, parseNumber, userId).slug == f.slug
    ensures f.slug == "" ==> BuildPayload(f, parseNumber, userId).slug == Slug.GenerateSlug(f.titulo)
    ensures f.slug == "" ==> Slug.IsSlug(BuildPayload(f, parseNumber, userId).slug)
  {
    Slug.GenerateSlugIsSlug(f.titulo);
  }

  /** `|| null` gives null for exactly the empty text and keeps any other text. */
  lemma OrNullMeaning(s: string)
    ensures OrNull(s).None? <==> s == ""
    ensures OrNull(s).Some? ==> OrNull(s).value == s
  {
  }

  /** A count reads back the number it renders, and an unreadable count is 0. */
  lemma CountMeaning(n: nat, s: string)
    ensures Count(Text.NatToString(n)) == n
    ensures Text.ParseInt(s).None? ==> Count(s) == 0
    ensures Count("") == 0
  {
    Text.ParseIntNatToString(n);
  }

  /** The empty optionals of the form are null in the payload, and the filled ones are copied. */
  lemma PayloadOptionals(f: Form, parseNumber: string -> Option<int>, userId: Option<string>)
    ensures var p := BuildPayload(f, parseNumber, userId);
      && (p.descricao.None? <==> f.descricao == "") && (p.endereco.None? <==> f.endereco == "")
      && (p.categoriaId.None? <==> f.categoriaId == "") && (p.codigoPortal.None? <==> f.codigoPortal == "")
      && (p.codigoCrm.None? <==> f.codigoCrm == "") && (p.codigoExterno.None? <==> f.codigoExterno == "")
      && (p.seoTitle.None? <==> f.seoTitle == "") && (p.seoDescription.None? <==> f.seoDescription == "")
      && (p.contatoWhatsapp.None? <==> f.contatoWhatsapp == "") && (p.contatoTelefone.None? <==> f.contatoTelefone == "")
      && (p.contatoEmail.None? <==> f.contatoEmail == "")
      && (p.descricao.Some? ==> p.descricao.value == f.descricao) && (p.contatoEmail.Some? ==> p.contatoEmail.value == f.contatoEmail)
      && (p.precoLocacao.Some? ==> f.precoLocacao != "") && (p.condominio.Some? ==> f.condominio != "")
      && (p.iptu.Some? ==> f.iptu != "") && (p.areaConstruida.Some? ==> f.areaConstruida != "")
      && (f.precoLocacao != "" ==> p.precoLocacao == parseNumber(f.precoLocacao))
      && (f.areaConstruida != "" ==> p.areaConstruida == parseNumber(f.areaConstruida))
      && p.preco == parseNumber(f.preco).GetOr(0) && p.areaTotal == parseNumber(f.areaTotal).GetOr(0)
      && p.createdBy == userId
  {
  }

  /** The current ids are the truthy ids of the images, in order. */
  lemma {:induction false} CurrentIdsMeaning(images: seq<EditImage>, x: string)
    ensures x in CurrentIds(images) <==> exists i :: 0 <= i < |images| && HasId(images[i]) && images[i].id.value == x
    decreases |images|
  {
    if |images| > 0 {
      CurrentIdsMeaning(images[1..], x);
      assert forall i :: 0 < i < |images| ==> images[i] == images[1..][i - 1];
      if exists i :: 0 <= i < |images[1..]| && HasId(images[1..][i]) && images[1..][i].id.value == x {
        var i :| 0 <= i < |images[1..]| && HasId(images[1..][i]) && images[1..][i].id.value == x;
        assert images[i + 1] == images[1..][i];
      }
    }
  }

  /**
   * The delete set is exactly the stored ids no current image has: it lies
   * inside the stored ids and misses every current one.
   */
  lemma {:induction false} ToDeleteMeaning(existing: seq<string>, current: seq<string>, x: string)
    ensures x in ToDelete(existing, current) <==> x in existing && x !in current
    ensures |ToDelete(existing, current)| <= |existing|
    decreases |existing|
  {
    if |existing| > 0 {
      ToDeleteMeaning(existing[1..], current, x);
      assert existing == [existing[0]] + existing[1..];
    }
  }

  /** Each image gets the action its kind calls for, in the order of the list. */
  lemma {:induction false} ActionsMeaning(images: seq<EditImage>, uploadFails: FileInfo -> bool, i: nat)
    requires i < |images|
    ensures var a := Actions(images, uploadFails)[i];
      && (a.InsertImage? <==> images[i].isNew && images[i].file.Some? && !uploadFails(images[i].file.value))
      && (a.UpdateImage? <==> !(images[i].isNew && images[i].file.Some?) && HasId(images[i]))
      && (a.InsertImage? ==> a.isCover == images[i].isCover && a.ordem == images[i].ordem)
      && (a.UpdateImage? ==> a.id == images[i].id.value && a.isCover == images[i].isCover && a.ordem == images[i].ordem)
    decreases i
  {
    if i > 0 {
      ActionsMeaning(images[1..], uploadFails, i - 1);
    }
  }

  /**
   * As written, removing every image of a stored listing deletes none of
   * them: the stored rows outlive the edit.
   */
  lemma EmptiedListKeepsStoredImages(existing: seq<string>, uploadFails: FileInfo -> bool)
    requires |existing| > 0
    ensures ImagePlanAsWritten([], existing, uploadFails).deletes == []
    ensures existing[0] !in CurrentIds([])
  {
  }

  /** With the removals always applied, the store ends with no image the editor dropped. */
  lemma ImagePlanDeletesRemoved(images: seq<EditImage>, existing: seq<string>, uploadFails: FileInfo -> bool, x: string)
    ensures x in ImagePlanFor(images, existing, uploadFails).deletes <==> x in existing && x !in CurrentIds(images)
    ensures images == [] ==> ImagePlanFor(images, existing, uploadFails).deletes == existing
  {
    ToDeleteMeaning(existing, CurrentIds(images), x);
    if images == [] {
      ToDeleteNone(existing);
    }
  }

  lemma {:induction false} ToDeleteNone(existing: seq<string>)
    ensures ToDelete(existing, []) == existing
    decreases |existing|
  {
    if |existing| > 0 {
      ToDeleteNone(existing[1..]);
      assert existing == [existing[0]] + existing[1..];
    }
  }

  /** Where there are images left, the two plans agree. */
  lemma PlansAgreeWhenImagesRemain(images: seq<EditImage>, existing: seq<string>, uploadFails: FileInfo -> bool)
    requires |images| > 0
    ensures ImagePlanAsWritten(images, existing, uploadFails) == ImagePlanFor(images, existing, uploadFails)
  {
  }

  /** The toast: the duplicate-code message for 23505, a generic one for other errors, and success per mode. */
  lemma SubmitMessages(
    f: Form, isEditing: bool, images: seq<EditImage>, existing: seq<string>,
    parseNumber: string -> Option<int>, userId: Option<string>,
    storeError: Option<string>, uploadFails: FileInfo -> bool)
    requires !MissingRequired(f)
    ensures var s := Submit(f, isEditing, images, existing, parseNumber, userId, storeError, uploadFails);
      && (s.navigates <==> storeError.None?)
      && (storeError == Some("23505") ==> s.message == "Código interno já existe. Use um código diferente.")
      && (storeError.Some? && storeError.value != "23505" ==> s.message == "Erro ao salvar imóvel")
      && (storeError.None? ==> s.plan == ImagePlanAsWritten(images, existing, uploadFails))
      && (storeError.None? && |images| > 0 ==> s.plan == ImagePlanFor(images, existing, uploadFails))
      && (storeError.None? && isEditing ==> s.message == "Imóvel atualizado com sucesso!")
      && (storeError.None? && !isEditing ==> s.message == "Imóvel cadastrado com sucesso!")
  {
  }
}

=== FILE: property_queries.dfy ===
/**
 * The listing queries of the public site, as pure functions over the two
 * tables they read: `properties` and `property_images`.  Each query selects
 * and orders the listing rows, then attaches to every listing the image rows
 * that carry its id, in `ordem` order.
 */
module PropertyQueries {
  import opened Wrappers
  import opened Listing
  import StableSort

  /** A row of `property_images`: the image and the listing it belongs to. */
  datatype ImageRow = ImageRow(propertyId: string, image: PropertyImage)

  /** The outcome of a query: still loading, an error, or the data. */
  datatype Fetch<T> = Pending | Failed | Done(value: T)

  /** `images.filter(img => img.property_id === id)`, keeping the images. */
  function ImagesOf(rows: seq<ImageRow>, id: string): seq<PropertyImage> {
    if |rows| == 0 then []
    else (if rows[0].propertyId == id then [rows[0].image] else []) + ImagesOf(rows[1..], id)
  }

  /** `.order('ordem', { ascending: true })` on the image rows. */
  function ByOrdem(rows: seq<ImageRow>): seq<ImageRow> {
    StableSort.Sort((r: ImageRow) => r.image.ordem, rows)
  }

  /** `.in('property_id', ids)`. */
  function RowsFor(rows: seq<ImageRow>, ids: seq<string>): seq<ImageRow> {
    if |rows| == 0 then []
    else (if rows[0].propertyId in ids then [rows[0]] else []) + RowsFor(rows[1..], ids)
  }

  function Ids(ps: seq<Property>): (r: seq<string>)
    ensures |r| == |ps| && forall i :: 0 <= i < |ps| ==> r[i] == ps[i].id
  {
    seq(|ps|, i requires 0 <= i < |ps| => ps[i].id)
  }

  /** Every listing of `ps` with its own images from `rows`. */
  function Attach(ps: seq<Property>, rows: seq<ImageRow>): (r: seq<Property>)
    ensures |r| == |ps|
    ensures forall i :: 0 <= i < |ps| ==> r[i] == ps[i].(images := ImagesOf(rows, ps[i].id))
  {
    seq(|ps|, i requires 0 <= i < |ps| => ps[i].(images := ImagesOf(rows, ps[i].id)))
  }

  /** The two-step fetch: the selected listings, then their images. */
  function WithImages(ps: seq<Property>, imageTable: seq<ImageRow>): seq<Property> {
    Attach(ps, ByOrdem(RowsFor(imageTable, Ids(ps))))
  }

  function Where(table: seq<Property>, keep: Property -> bool): (r: seq<Property>)
    ensures forall p :: p in r <==> p in table && keep(p)
    ensures |r| <= |table|
  {
    if |table| == 0 then []
    else (if keep(table[0]) then [table[0]] else []) + Where(table[1..], keep)
  }

  function Take<T>(s: seq<T>, n: nat): (r: seq<T>)
    ensures |r| == if |s| < n then |s| else n
    ensures r == s[..|r|]
  {
    if |s| <= n then s else s[..n]
  }

  /** `.order('created_at', { ascending: false })`. */
  function NewestFirst(ps: seq<Property>): seq<Property> {
    StableSort.Sort((p: Property) => 0 - p.createdAt, ps)
  }

  /** `.eq('status', 'publicado')`. */
  function PublishedRows(table: seq<Property>): seq<Property> {
    Where(table, (p: Property) => p.status == "publicado")
  }

  /** `.eq('status', 'publicado').eq('destaque', true)`. */
  function FeaturedRows(table: seq<Property>): seq<Property> {
    Where(table, (p: Property) => p.status == "publicado" && p.destaque)
  }

  /** `useProperties`: every published listing, newest first. */
  function PublishedListings(table: seq<Property>, imageTable: seq<ImageRow>): seq<Property> {
    WithImages(NewestFirst(PublishedRows(table)), imageTable)
  }

  /** `useFeaturedProperties`: at most six published featured listings, newest first. */
  function FeaturedListings(table: seq<Property>, imageTable: seq<ImageRow>): seq<Property> {
    WithImages(Take(NewestFirst(FeaturedRows(table)), 6), imageTable)
  }

  /**
   * `usePropertyBySlug`: no slug gives no listing; otherwise `.single()`
   * succeeds only when exactly one row has the slug, whatever its status.
   */
  function ListingBySlug(slug: string, table: seq<Property>, imageTable: seq<ImageRow>): Fetch<Option<Property>> {
    if slug == "" then Done(None)
    else
      var rows := Where(table, (p: Property) => p.slug == slug);
      if |rows| == 1 then Done(Some(rows[0].(images := ImagesOf(ByOrdem(imageTable), rows[0].id))))
      else Failed
  }

  /**
   * `useRelatedProperties`: no category gives nothing; otherwise up to three
   * published listings of the category other than the current one.
   */
  function RelatedListings(categoryId: Option<string>, currentId: Option<string>,
                           table: seq<Property>, imageTable: seq<ImageRow>): seq<Property> {
    if categoryId.None? || categoryId.value == "" then []
    else
      WithImages(Take(RelatedRows(table, categoryId.value, currentId.GetOr("")), 3), imageTable)
  }

  /** The rows `useRelatedProperties` asks for: published, of the category, and not the current listing. */
  function RelatedRows(table: seq<Property>, cid: string, other: string): seq<Property> {
    Where(table, (p: Property) => p.status == "publicado" && p.categoriaId == Some(cid) && p.id != other)
  }

  // ---------------------------------------------------------------------
  // Properties

  lemma {:induction false} ImagesOfMembers(rows: seq<ImageRow>, id: string, img: PropertyImage)
    ensures img in ImagesOf(rows, id) <==> ImageRow(id, img) in rows
    decreases |rows|
  {
    if |rows| > 0 {
      ImagesOfMembers(rows[1..], id, img);
      assert rows == [rows[0]] + rows[1..];
    }
  }

  lemma {:induction false} ImagesOfSorted(rows: seq<ImageRow>, id: string)
    requires StableSort.Sorted((r: ImageRow) => r.image.ordem, rows)
    ensures forall i, j :: 0 <= i < j < |ImagesOf(rows, id)| ==>
      ImagesOf(rows, id)[i].ordem <= ImagesOf(rows, id)[j].ordem
    decreases |rows|
  {
    if |rows| > 0 {
      var tail := rows[1..];
      assert StableSort.Sorted((r: ImageRow) => r.image.ordem, tail) by {
        forall i, j | 0 <= i < j < |tail| ensures tail[i].image.ordem <= tail[j].image.ordem {
          assert tail[i] == rows[i + 1] && tail[j] == rows[j + 1];
        }
      }
      ImagesOfSorted(tail, id);
      if rows[0].propertyId == id {
        var r := ImagesOf(rows, id);
        var t := ImagesOf(tail, id);
        assert r == [rows[0].image] + t;
        forall j | 0 < j < |r| ensures rows[0].image.ordem <= r[j].ordem {
          assert r[j] == t[j - 1];
          assert t[j - 1] in t;
          ImagesOfMembers(tail, id, t[j - 1]);
          var k :| 0 <= k < |tail| && tail[k] == ImageRow(id, t[j - 1]);
          assert rows[k + 1] == tail[k];
        }
      }
    }
  }

  /** Filtering the image rows by the fetched ids loses none of a fetched listing's images. */
  lemma {:induction false} RowsForKeeps(rows: seq<ImageRow>, ids: seq<string>, id: string)
    requires id in ids
    ensures ImagesOf(RowsFor(rows, ids), id) == ImagesOf(rows, id)
    decreases |rows|
  {
    if |rows| > 0 {
      RowsForKeeps(rows[1..], ids, id);
      if rows[0].propertyId in ids {
        var r := RowsFor(rows, ids);
        assert r == [rows[0]] + RowsFor(rows[1..], ids);
        assert r[1..] == RowsFor(rows[1..], ids);
      } else {
        assert rows[0].propertyId != id;
        assert RowsFor(rows, ids) == RowsFor(rows[1..], ids);
      }
    }
  }

  lemma {:induction false} ImagesOfPermutation(a: seq<ImageRow>, b: seq<ImageRow>, id: string)
    requires multiset(a) == multiset(b)
    ensures multiset(ImagesOf(a, id)) == multiset(ImagesOf(b, id))
    decreases |a|
  {
    if |a| > 0 {
      var x := a[0];
      assert x in multiset(b);
      var k :| 0 <= k < |b| && b[k] == x;
      var b' := b[..k] + b[k + 1..];
      RemoveAt(b, k);
      assert a == [x] + a[1..];
      assert multiset(a[1..]) == multiset(a) - multiset{x};
      ImagesOfPermutation(a[1..], b', id);
      ImagesOfAppend([x], a[1..], id);
      ImagesOfRemove(b, k, id);
    }
  }

  lemma RemoveAt<T>(b: seq<T>, k: nat)
    requires k < |b|
    ensures multiset(b[..k] + b[k + 1..]) == multiset(b) - multiset{b[k]}
  {
    assert b == b[..k] + [b[k]] + b[k + 1..];
  }

  lemma ImagesOfRemove(b: seq<ImageRow>, k: nat, id: string)
    requires k < |b|
    ensures multiset(ImagesOf(b, id)) == multiset(ImagesOf([b[k]], id)) + multiset(ImagesOf(b[..k] + b[k + 1..], id))
  {
    ImagesOfAppend(b[..k], b[k..], id);
    ImagesOfAppend([b[k]], b[k + 1..], id);
    ImagesOfAppend(b[..k], b[k + 1..], id);
    assert b[k..] == [b[k]] + b[k + 1..];
    assert b == b[..k] + b[k..];
  }

  lemma {:induction false} ImagesOfAppend(a: seq<ImageRow>, b: seq<ImageRow>, id: string)
    ensures ImagesOf(a + b, id) == ImagesOf(a, id) + ImagesOf(b, id)
    decreases |a|
  {
    if |a| == 0 {
      assert a + b == b;
    } else {
      var ab := a + b;
      assert ab[0] == a[0];
      assert ab[1..] == a[1..] + b;
      ImagesOfAppend(a[1..], b, id);
      var head := if a[0].propertyId == id then [a[0].image] else [];
      assert ImagesOf(ab, id) == head + ImagesOf(a[1..] + b, id);
      assert ImagesOf(a, id) == head + ImagesOf(a[1..], id);
      assert head + (ImagesOf(a[1..], id) + ImagesOf(b, id)) == (head + ImagesOf(a[1..], id)) + ImagesOf(b, id);
    }
  }

  /** `q` is the stored row `p` with its images filled in, every other field as stored. */
  predicate RowOf(q: Property, p: Property) {
    q == p.(images := q.images)
  }

  /**
   * Every fetched listing is its stored row with exactly the images stored
   * under its id, lowest `ordem` first.
   */
  lemma WithImagesMeaning(ps: seq<Property>, imageTable: seq<ImageRow>, i: nat)
    requires i < |ps|
    ensures |WithImages(ps, imageTable)| == |ps|
    ensures var q := WithImages(ps, imageTable)[i];
      && RowOf(q, ps[i])
      && multiset(q.images) == multiset(ImagesOf(imageTable, ps[i].id))
      && forall a, b :: 0 <= a < b < |q.images| ==> q.images[a].ordem <= q.images[b].ordem
  {
    var ids := Ids(ps);
    assert ids[i] == ps[i].id;
    var restricted := RowsFor(imageTable, ids);
    var sorted := ByOrdem(restricted);
    ImagesOfPermutation(sorted, restricted, ps[i].id);
    RowsForKeeps(imageTable, ids, ps[i].id);
    ImagesOfSorted(sorted, ps[i].id);
  }

  /** The fetch keeps the selected rows, in their order, each with its images filled in. */
  lemma WithImagesRows(ps: seq<Property>, imageTable: seq<ImageRow>)
    ensures var r := WithImages(ps, imageTable);
      |r| == |ps| && forall i :: 0 <= i < |r| ==> RowOf(r[i], ps[i])
  {
  }

  /** `q` is a row of `table` with its images filled in. */
  predicate Stored(q: Property, table: seq<Property>) {
    exists p :: p in table && RowOf(q, p)
  }

  /** The stored row `p` is among the fetched listings `r`. */
  predicate Shown(p: Property, r: seq<Property>) {
    exists i :: 0 <= i < |r| && RowOf(r[i], p)
  }

  /** Rows filled in one by one: each comes from the table, and each selected row shows up. */
  lemma FetchedRows(top: seq<Property>, table: seq<Property>, r: seq<Property>)
    requires |r| == |top| && forall i :: 0 <= i < |r| ==> RowOf(r[i], top[i])
    requires forall p :: p in top ==> p in table
    ensures forall i :: 0 <= i < |r| ==> Stored(r[i], table)
    ensures forall p :: p in top ==> Shown(p, r)
  {
    forall i | 0 <= i < |r| ensures Stored(r[i], table) {
      assert top[i] in top && RowOf(r[i], top[i]);
    }
    forall p | p in top ensures Shown(p, r) {
      var i :| 0 <= i < |top| && top[i] == p;
      assert RowOf(r[i], top[i]);
    }
  }

  /** A selected row missing from the first `n` fetched rows lies past them, so `n` rows were fetched. */
  lemma Omitted(sel: seq<Property>, n: nat, r: seq<Property>, p: Property) returns (k: nat)
    requires |r| == |Take(sel, n)| && forall i :: 0 <= i < |r| ==> RowOf(r[i], sel[i])
    requires p in sel && !Shown(p, r)
    ensures n <= k < |sel| && sel[k] == p && |r| == n
  {
    k :| 0 <= k < |sel| && sel[k] == p;
    assert |r| <= k;
  }

  /** The newest-first order keeps the listings, newest first. */
  lemma NewestFirstMeaning(ps: seq<Property>)
    ensures var r := NewestFirst(ps);
      && |r| == |ps|
      && (forall p :: p in r <==> p in ps)
      && (forall i, j :: 0 <= i < j < |r| ==> r[i].createdAt >= r[j].createdAt)
  {
    var r := NewestFirst(ps);
    assert |multiset(r)| == |multiset(ps)|;
    forall p ensures p in r <==> p in ps {
      assert p in r <==> p in multiset(r);
      assert p in ps <==> p in multiset(ps);
    }
  }

  /** Nothing passes, so `Where` keeps nothing. */
  lemma WhereNone(table: seq<Property>, keep: Property -> bool)
    requires forall j :: 0 <= j < |table| ==> !keep(table[j])
    ensures Where(table, keep) == []
  {
  }

  /** A row that alone passes is all `Where` keeps. */
  lemma {:induction false} WhereSingle(table: seq<Property>, keep: Property -> bool, k: nat)
    requires k < |table| && keep(table[k])
    requires forall j :: 0 <= j < |table| && j != k ==> !keep(table[j])
    ensures Where(table, keep) == [table[k]]
    decreases |table|
  {
    var tail := table[1..];
    if k == 0 {
      assert forall j :: 0 <= j < |tail| ==> tail[j] == table[j + 1];
      WhereNone(tail, keep);
    } else {
      assert forall j :: 0 <= j < |tail| ==> tail[j] == table[j + 1];
      WhereSingle(tail, keep, k - 1);
    }
  }

  /** Two passing rows make `Where` keep at least two. */
  lemma {:induction false} WhereTwo(table: seq<Property>, keep: Property -> bool, a: nat, b: nat)
    requires a < b < |table| && keep(table[a]) && keep(table[b])
    ensures |Where(table, keep)| >= 2
    decreases |table|
  {
    var tail := table[1..];
    assert table[b] == tail[b - 1];
    if a == 0 {
      assert tail[b - 1] in tail;
      assert Where(tail, keep) != [] by {
        assert tail[b - 1] !in [];
      }
    } else {
      assert table[a] == tail[a - 1];
      WhereTwo(tail, keep, a - 1, b - 1);
    }
  }

  /**
   * `useProperties` lists the published rows of the table, as many as are
   * stored, every one of them and nothing else, newest first.
   */
  lemma PublishedListingsMeaning(table: seq<Property>, imageTable: seq<ImageRow>)
    ensures var r := PublishedListings(table, imageTable);
      && |r| == |PublishedRows(table)|
      && (forall i :: 0 <= i < |r| ==> Stored(r[i], table) && r[i].status == "publicado")
      && (forall p :: p in table && p.status == "publicado" ==> Shown(p, r))
      && (forall i, j :: 0 <= i < j < |r| ==> r[i].createdAt >= r[j].createdAt)
  {
    var sel := PublishedRows(table);
    var sorted := NewestFirst(sel);
    NewestFirstMeaning(sel);
    var r := PublishedListings(table, imageTable);
    WithImagesRows(sorted, imageTable);
    FetchedRows(sorted, table, r);
    forall i | 0 <= i < |r| ensures r[i].status == "publicado" {
      assert RowOf(r[i], sorted[i]) && sorted[i] in sel;
    }
    forall p | p in table && p.status == "publicado" ensures Shown(p, r) {
      assert p in sel;
    }
  }

  /**
   * The home page shows the six newest published featured listings: as many
   * as there are up to six, newest first, and a featured listing is left out
   * only when six are shown, none of them older than it.
   */
  lemma FeaturedListingsMeaning(table: seq<Property>, imageTable: seq<ImageRow>)
    ensures var r := FeaturedListings(table, imageTable);
      var n := |FeaturedRows(table)|;
      && |r| == (if n < 6 then n else 6)
      && (forall i :: 0 <= i < |r| ==> Stored(r[i], table) && r[i].status == "publicado" && r[i].destaque)
      && (forall i, j :: 0 <= i < j < |r| ==> r[i].createdAt >= r[j].createdAt)
      && (forall p :: (p in table && p.status == "publicado" && p.destaque && !Shown(p, r)) ==>
            |r| == 6 && p.createdAt <= r[5].createdAt)
  {
    FeaturedChosen(table, imageTable);
    FeaturedOmitted(table, imageTable);
  }

  /** The featured listings shown are published featured rows, newest first. */
  lemma FeaturedChosen(table: seq<Property>, imageTable: seq<ImageRow>)
    ensures var r := FeaturedListings(table, imageTable);
      var n := |FeaturedRows(table)|;
      && |r| == (if n < 6 then n else 6)
      && (forall i :: 0 <= i < |r| ==> Stored(r[i], table) && r[i].status == "publicado" && r[i].destaque)
      && (forall i, j :: 0 <= i < j < |r| ==> r[i].createdAt >= r[j].createdAt)
  {
    var sel := FeaturedRows(table);
    var sorted := NewestFirst(sel);
    NewestFirstMeaning(sel);
    var top := Take(sorted, 6);
    var r := FeaturedListings(table, imageTable);
    WithImagesRows(top, imageTable);
    FetchedRows(top, table, r);
    forall i | 0 <= i < |r|
      ensures r[i].status == "publicado" && r[i].destaque && r[i].createdAt == sorted[i].createdAt
    {
      assert RowOf(r[i], top[i]);
      assert top[i] == sorted[i];
      assert sorted[i] in sel;
    }
  }

  /** A published featured row is left off the home page only behind six newer ones. */
  lemma FeaturedOmitted(table: seq<Property>, imageTable: seq<ImageRow>)
    ensures var r := FeaturedListings(table, imageTable);
      forall p :: (p in table && p.status == "publicado" && p.destaque && !Shown(p, r)) ==>
        |r| == 6 && p.createdAt <= r[5].createdAt
  {
    var sel := FeaturedRows(table);
    var sorted := NewestFirst(sel);
    NewestFirstMeaning(sel);
    var r := FeaturedListings(table, imageTable);
    WithImagesRows(Take(sorted, 6), imageTable);
    assert forall i :: 0 <= i < |r| ==> RowOf(r[i], sorted[i]);
    forall p | p in table && p.status == "publicado" && p.destaque && !Shown(p, r)
      ensures |r| == 6 && p.createdAt <= r[5].createdAt
    {
      assert p in sorted;
      var k := Omitted(sorted, 6, r, p);
    }
  }

  /**
   * Related listings: none without a category; otherwise the first three
   * published listings of that category other than the one being viewed,
   * or all of them when there are fewer; one is left out only when three are shown.
   */
  lemma RelatedListingsMeaning(categoryId: Option<string>, currentId: Option<string>,
                               table: seq<Property>, imageTable: seq<ImageRow>)
    ensures var r := RelatedListings(categoryId, currentId, table, imageTable);
      && ((categoryId.None? || categoryId.value == "") ==> r == [])
      && (forall i :: 0 <= i < |r| ==>
            && Stored(r[i], table)
            && r[i].status == "publicado"
            && r[i].categoriaId == categoryId
            && r[i].id != currentId.GetOr(""))
      && (categoryId.Some? && categoryId.value != "" ==>
            var n := |RelatedRows(table, categoryId.value, currentId.GetOr(""))|;
            && |r| == (if n < 3 then n else 3)
            && (forall p :: (p in table && p.status == "publicado" && p.categoriaId == categoryId
                  && p.id != currentId.GetOr("") && !Shown(p, r)) ==> |r| == 3))
  {
    if categoryId.Some? && categoryId.value != "" {
      RelatedChosen(categoryId.value, currentId.GetOr(""), table, imageTable);
    }
  }

  /** `RelatedListingsMeaning` for a given category and current id. */
  lemma RelatedChosen(cid: string, other: string, table: seq<Property>, imageTable: seq<ImageRow>)
    ensures var r := WithImages(Take(RelatedRows(table, cid, other), 3), imageTable);
      var n := |RelatedRows(table, cid, other)|;
      && |r| == (if n < 3 then n else 3)
      && (forall i :: 0 <= i < |r| ==>
            Stored(r[i], table) && r[i].status == "publicado" && r[i].categoriaId == Some(cid) && r[i].id != other)
      && (forall p :: (p in table && p.status == "publicado" && p.categoriaId == Some(cid)
            && p.id != other && !Shown(p, r)) ==> |r| == 3)
  {
    var sel := RelatedRows(table, cid, other);
    var top := Take(sel, 3);
    var r := WithImages(top, imageTable);
    WithImagesRows(top, imageTable);
    FetchedRows(top, table, r);
    forall i | 0 <= i < |r|
      ensures r[i].status == "publicado" && r[i].categoriaId == Some(cid) && r[i].id != other
      ensures RowOf(r[i], sel[i])
    {
      assert RowOf(r[i], top[i]);
      assert top[i] == sel[i];
      assert sel[i] in sel;
    }
    forall p | p in table && p.status == "publicado" && p.categoriaId == Some(cid) && p.id != other && !Shown(p, r)
      ensures |r| == 3
    {
      assert p in sel;
      var k := Omitted(sel, 3, r, p);
    }
  }

  /**
   * `.single()` on the slug: no slug gives no listing; exactly one row with
   * the slug gives that row with its own images, lowest `ordem` first; no
   * row, or two rows, fail.
   */
  lemma ListingBySlugMeaning(slug: string, table: seq<Property>, imageTable: seq<ImageRow>, k: nat)
    ensures slug == "" ==> ListingBySlug(slug, table, imageTable) == Done(None)
    ensures slug != "" && (forall j :: 0 <= j < |table| ==> table[j].slug != slug) ==>
      ListingBySlug(slug, table, imageTable) == Failed
    ensures slug != "" && (exists a, b :: 0 <= a < b < |table| && table[a].slug == slug && table[b].slug == slug) ==>
      ListingBySlug(slug, table, imageTable) == Failed
    ensures (slug != "" && k < |table| && table[k].slug == slug
      && (forall j :: 0 <= j < |table| && j != k ==> table[j].slug != slug)) ==>
      var f := ListingBySlug(slug, table, imageTable);
      && f.Done? && f.value.Some? && RowOf(f.value.value, table[k])
      && multiset(f.value.value.images) == multiset(ImagesOf(imageTable, table[k].id))
      && forall a, b :: 0 <= a < b < |f.value.value.images| ==>
           f.value.value.images[a].ordem <= f.value.value.images[b].ordem
  {
    var keep := (p: Property) => p.slug == slug;
    if slug != "" {
      if forall j :: 0 <= j < |table| ==> table[j].slug != slug {
        WhereNone(table, keep);
      }
      if exists a, b :: 0 <= a < b < |table| && table[a].slug == slug && table[b].slug == slug {
        var a, b :| 0 <= a < b < |table| && table[a].slug == slug && table[b].slug == slug;
        WhereTwo(table, keep, a, b);
      }
      if k < |table| && table[k].slug == slug && (forall j :: 0 <= j < |table| && j != k ==> table[j].slug != slug) {
        WhereSingle(table, keep, k);
        var id := table[k].id;
        var sorted := ByOrdem(imageTable);
        ImagesOfPermutation(sorted, imageTable, id);
        ImagesOfSorted(sorted, id);
      }
    }
  }
}

=== FILE: reset_password.dfy ===
/**
 * The password reset page: who may stay on it, the schema of the new
 * password, and what a submit does.
 */
module ResetPassword {
  import opened Wrappers
  import opened Validation

  datatype Page = Page(password: string, confirmPassword: string, errors: map<string, string>, isSuccess: bool)

  const Mismatch := "As senhas não coincidem"

  /** `resetSchema`: at least six characters, and a confirmation equal to it, reported on `confirmPassword`. */
  function ResetSchema(p: Page): Schema {
    Schema([Field("password", p.password, [MinLen(6, "Senha deve ter pelo menos 6 caracteres")]),
            Field("confirmPassword", p.confirmPassword, [])],
           [Refinement(p.password == p.confirmPassword, "confirmPassword", Mismatch)])
  }

  /**
   * The recovery gate: the visitor is sent to the login page when the URL
   * fragment's `type` is not `recovery` and there is no session.
   */
  function Redirects(hashType: Option<string>, hasSession: bool): bool {
    hashType != Some("recovery") && !hasSession
  }

  datatype Notice = NoNotice | Success(text: string) | Failure(text: string)

  /** A submit's result: the page, the new password sent to `updatePassword` if any, and the toast. */
  datatype Submitted = Submitted(page: Page, call: Option<string>, notice: Notice)

  /** `handleSubmit`; `updateError` is `updatePassword`'s error message, if it returns one. */
  function Submit(p: Page, updateError: Option<string>): Submitted {
    var issues := Issues(ResetSchema(p), (s: string) => true);
    if issues != [] then Submitted(p.(errors := ErrorMap(issues)), None, NoNotice)
    else
      var q := p.(errors := map[]);
      match updateError
      case Some(m) => Submitted(q, Some(p.password), Failure(if m != "" then m else "Erro ao redefinir senha"))
      case None => Submitted(q.(isSuccess := true), Some(p.password), Success("Senha redefinida com sucesso!"))
  }

  // ---------------------------------------------------------------------
  // Properties

  /** The schema accepts exactly a password of six or more characters typed twice alike. */
  lemma ResetValidMeaning(p: Page)
    ensures Issues(ResetSchema(p), (s: string) => true) == [] <==>
      |p.password| >= 6 && p.password == p.confirmPassword
  {
    var s := ResetSchema(p);
    var e := (s: string) => true;
    IssuesEmptyMeaning(s, e);
    if |p.password| < 6 {
      assert !Passes(s.fields[0].rules[0], s.fields[0].value, e);
    } else if p.password != p.confirmPassword {
      assert !s.refinements[0].holds;
    }
  }

  /**
   * A mismatch is always reported on the confirmation, even next to a too
   * short password; the password's own field shows only its length error.
   */
  lemma MismatchOnConfirm(p: Page)
    ensures var m := ErrorMap(Issues(ResetSchema(p), (s: string) => true));
      && (p.password != p.confirmPassword <==> "confirmPassword" in m)
      && (p.password != p.confirmPassword ==> m["confirmPassword"] == Mismatch)
      && (|p.password| < 6 <==> "password" in m)
      && ("password" in m ==> m["password"] == "Senha deve ter pelo menos 6 caracteres")
  {
    var s := ResetSchema(p);
    var e := (s: string) => true;
    assert !Aborted(s.fields, e);
    var pw := if |p.password| >= 6 then [] else [Issue("password", "Senha deve ter pelo menos 6 caracteres")];
    var rf := if p.password == p.confirmPassword then [] else [Issue("confirmPassword", Mismatch)];
    assert RuleIssues("password", s.fields[0].rules, p.password, e) == pw;
    assert FieldIssues(s.fields, e) == pw by {
      assert s.fields[1..][1..] == [];
      assert RuleIssues("confirmPassword", [], p.confirmPassword, e) == [];
      assert FieldIssues(s.fields[1..], e) == [] + FieldIssues(s.fields[1..][1..], e);
      assert FieldIssues(s.fields, e) == pw + FieldIssues(s.fields[1..], e);
    }
    assert RefinementIssues(s.refinements) == rf;
    var issues := Issues(s, e);
    assert issues == pw + rf;
    ErrorMapMeaning(issues, "confirmPassword");
    ErrorMapMeaning(issues, "password");
    if rf != [] && pw != [] {
      assert issues[..1] == pw;
    }
  }

  /** Only an acceptable pair reaches `updatePassword`, with the new password; a rejected one keeps the page and calls nothing. */
  lemma SubmitGate(p: Page, updateError: Option<string>)
    ensures var r := Submit(p, updateError);
      && (r.call.Some? <==> |p.password| >= 6 && p.password == p.confirmPassword)
      && (r.call.Some? ==> r.call.value == p.password && r.page.errors == map[])
      && (r.call.None? ==> r.page.password == p.password && r.page.isSuccess == p.isSuccess && r.notice == NoNotice)
  {
    ResetValidMeaning(p);
  }

  /** The page turns to its success state only when a valid password is stored without error. */
  lemma SuccessMeaning(p: Page, updateError: Option<string>)
    requires !p.isSuccess
    ensures Submit(p, updateError).page.isSuccess <==>
      |p.password| >= 6 && p.password == p.confirmPassword && updateError.None?
  {
    ResetValidMeaning(p);
  }

  /** A recovery link or a live session keeps the visitor on the page; anything else sends them away. */
  lemma RedirectsMeaning(hashType: Option<string>, hasSession: bool)
    ensures !Redirects(Some("recovery"), hasSession)
    ensures !Redirects(hashType, true)
    ensures hashType != Some("recovery") ==> Redirects(hashType, false)
  {
  }
}

=== FILE: search_form.dfy ===
/**
 * The home page search box: the five choices it holds and the catalog
 * parameters `handleSearch` sends, read back by the catalog page.
 */
module SearchForm {
  import opened Listing
  import opened UrlParams
  import Catalog

  /** The form's choices: location text, category slug, purpose, price band and bedrooms. */
  datatype Form = Form(location: string, category: string, finalidade: string, priceRange: string, bedrooms: string)

  /** The compact variant has only the text input; the other choices stay at their initial `''`. */
  function Compact(location: string): Form {
    Form(location, "", "", "", "")
  }

  /** The pairs in the order `handleSearch` sets them. */
  function SearchPairs(f: Form): Params {
    [("q", f.location), ("categoria", f.category), ("finalidade", f.finalidade),
     ("preco", f.priceRange), ("quartos", f.bedrooms)]
  }

  /** `handleSearch`: a fresh parameter list holding every non-empty choice, 'all' included. */
  function SearchParams(f: Form): Params {
    SetNonEmpty(SearchPairs(f))
  }

  // ---------------------------------------------------------------------
  // Properties

  /** Each choice reads back under its name, and an empty choice sends nothing. */
  lemma SearchParamsReadBack(f: Form)
    ensures var out := SearchParams(f);
      && Param(out, "q") == f.location
      && Param(out, "categoria") == f.category
      && Param(out, "finalidade") == f.finalidade
      && Param(out, "preco") == f.priceRange
      && Param(out, "quartos") == f.bedrooms
      && Param(out, "cidade") == "" && Param(out, "ordem") == ""
      && (Get(out, "finalidade").None? <==> f.finalidade == "")
      && (Get(out, "categoria").None? <==> f.category == "")
  {
    var pairs := SearchPairs(f);
    assert "ordem"[0] == 'o' && "preco"[0] == 'p';
    assert |"cidade"| == 6 && |"ordem"| == 5;
    GetMeaning(pairs, "cidade");
    GetMeaning(pairs, "ordem");
    SetNonEmptyReadBack(pairs, "cidade");
    SetNonEmptyReadBack(pairs, "ordem");
    assert DistinctNames(pairs);
    GetAt(pairs, 0);
    GetAt(pairs, 1);
    GetAt(pairs, 2);
    GetAt(pairs, 3);
    GetAt(pairs, 4);
    SetNonEmptyReadBack(pairs, "q");
    SetNonEmptyReadBack(pairs, "categoria");
    SetNonEmptyReadBack(pairs, "finalidade");
    SetNonEmptyReadBack(pairs, "preco");
    SetNonEmptyReadBack(pairs, "quartos");
  }

  /** An untouched form navigates with no parameters at all. */
  lemma EmptyFormSendsNothing()
    ensures SearchParams(Form("", "", "", "", "")) == []
  {
  }

  /** The compact variant can only ever send the text search. */
  lemma CompactSendsOnlySearch(location: string)
    ensures SearchParams(Compact(location)) == if location == "" then [] else [("q", location)]
  {
    var pairs := SearchPairs(Compact(location));
    assert pairs[4..][1..] == [];
    assert pairs[3..][1..] == pairs[4..];
    assert pairs[2..][1..] == pairs[3..];
    assert pairs[1..][1..] == pairs[2..];
    assert SetNonEmpty(pairs[4..]) == [];
    assert SetNonEmpty(pairs[3..]) == [];
    assert SetNonEmpty(pairs[2..]) == [];
    assert SetNonEmpty(pairs[1..]) == [];
  }

  /**
   * 'Todas' sends `finalidade=all`, which the catalog compares by equality:
   * with no listing whose purpose is literally 'all', nothing is shown.
   */
  lemma AllPurposesShowsNothing(f: Form, all: seq<Property>, categories: seq<Category>, p: Property)
    requires f.finalidade == "all"
    requires forall q :: q in all ==> q.finalidade != "all"
    ensures p !in Catalog.Results(all, SearchParams(f), categories)
  {
    SearchParamsReadBack(f);
    Catalog.ResultsMembers(all, SearchParams(f), categories, p);
  }

  /**
   * 'Todos' sends `categoria=all`; no category has that slug, so the catalog
   * drops the constraint and the choice behaves as no choice.
   */
  lemma AllCategoriesShowsAll(f: Form, all: seq<Property>, categories: seq<Category>)
    requires f.category == "all"
    requires forall i :: 0 <= i < |categories| ==> categories[i].slug != "all"
    ensures Catalog.Results(all, SearchParams(f), categories)
         == Catalog.Results(all, Delete(SearchParams(f), "categoria"), categories)
  {
    SearchParamsReadBack(f);
    Catalog.UnknownCategoryIgnored(all, SearchParams(f), categories);
  }

  /** The price band and bedroom count are sent but the catalog never reads them. */
  lemma PriceAndBedroomsIgnored(f: Form, all: seq<Property>, categories: seq<Category>)
    ensures Catalog.Results(all, SearchParams(f), categories)
         == Catalog.Results(all, SearchParams(f.(priceRange := "", bedrooms := "")), categories)
  {
    var g := f.(priceRange := "", bedrooms := "");
    SearchParamsReadBack(f);
    SearchParamsReadBack(g);
    assert Catalog.ActiveCriteria(SearchParams(f), categories) == Catalog.ActiveCriteria(SearchParams(g), categories);
    assert Catalog.SortOrder(SearchParams(f)) == Catalog.SortOrder(SearchParams(g));
  }
}

=== FILE: seo.dfy ===
/**
 * The page head every public page sets: the full title and the meta and
 * link tags, each present or absent as the page's properties ask.
 */
module Seo {
  import opened Wrappers

  const SiteName: string := "EA Corretor de Imóveis"

  const DefaultDescription: string :=
    "Encontre o imóvel dos seus sonhos com EA Corretor de Imóveis. Casas, apartamentos, terrenos e imóveis comerciais em São Paulo e região."

  const DefaultKeywords: string :=
    "imóveis, casas, apartamentos, terrenos, corretor de imóveis, São Paulo, comprar imóvel, alugar imóvel"

  /** The component's properties; `None` is an omitted one. */
  datatype SeoProps = SeoProps(
    title: string,
    description: Option<string>,
    keywords: Option<string>,
    image: Option<string>,
    url: Option<string>,
    kind: Option<string>,
    noIndex: Option<bool>)

  /** A head element: the title, a `<meta>` keyed by `name` or `property`, or the canonical link. */
  datatype Tag = Title(text: string) | Meta(key: string, content: string) | Canonical(href: string)

  /** The home page is titled by the site name alone; every other page gets ` | ` and the site name. */
  function FullTitle(title: string): string {
    if title == "Início" then SiteName else title + " | " + SiteName
  }

  /** A string property renders its tag when it is given and not empty. */
  predicate Given(s: Option<string>) {
    s.Some? && s.value != ""
  }

  /** The head elements in the order the component writes them. */
  function Head(props: SeoProps): seq<Tag> {
    var full := FullTitle(props.title);
    // Destructuring defaults apply only to omitted properties.
    var description := props.description.GetOr(DefaultDescription);
    var keywords := props.keywords.GetOr(DefaultKeywords);
    var kind := props.kind.GetOr("website");
    var noIndex := props.noIndex.GetOr(false);
    [Title(full), Meta("description", description), Meta("keywords", keywords)]
    + (if noIndex then [Meta("robots", "noindex, nofollow")] else [])
    + [Meta("og:type", kind), Meta("og:title", full), Meta("og:description", description),
       Meta("og:site_name", SiteName)]
    + (if Given(props.url) then [Meta("og:url", props.url.value)] else [])
    + (if Given(props.image) then [Meta("og:image", props.image.value)] else [])
    + [Meta("twitter:card", "summary_large_image"), Meta("twitter:title", full),
       Meta("twitter:description", description)]
    + (if Given(props.image) then [Meta("twitter:image", props.image.value)] else [])
    + (if Given(props.url) then [Canonical(props.url.value)] else [])
  }

  /** Whether some `<meta>` carries this key. */
  predicate HasKey(tags: seq<Tag>, key: string) {
    exists i :: 0 <= i < |tags| && tags[i].Meta? && tags[i].key == key
  }

  /** Whether some canonical link is present. */
  predicate HasCanonical(tags: seq<Tag>) {
    exists i :: 0 <= i < |tags| && tags[i].Canonical?
  }

  // ---------------------------------------------------------------------
  // Properties

  /** The site name alone exactly for the home page; otherwise the page title leads. */
  lemma FullTitleMeaning(title: string)
    ensures FullTitle(title) == SiteName <==> title == "Início"
    ensures title != "Início" ==>
      && FullTitle(title)[..|title|] == title
      && FullTitle(title)[|title|..] == " | " + SiteName
  {
    if title != "Início" {
      assert |FullTitle(title)| > |SiteName|;
    }
  }

  /** The document, Open Graph and Twitter titles are one and the same text. */
  lemma TitlesAgree(props: SeoProps)
    ensures var h := Head(props); var full := FullTitle(props.title);
      && h[0] == Title(full)
      && Meta("og:title", full) in h
      && Meta("twitter:title", full) in h
  {
  }

  /** Omitted properties take their defaults; given ones, even empty, are used as they are. */
  lemma DefaultsMeaning(props: SeoProps)
    ensures var h := Head(props);
      && h[1] == Meta("description", props.description.GetOr(DefaultDescription))
      && h[2] == Meta("keywords", props.keywords.GetOr(DefaultKeywords))
      && Meta("og:type", props.kind.GetOr("website")) in h
      && Meta("og:description", props.description.GetOr(DefaultDescription)) in h
  {
  }

  /** Search engines are told to stay away exactly when the page asks for it. */
  lemma RobotsMeaning(props: SeoProps)
    ensures HasKey(Head(props), "robots") <==> props.noIndex == Some(true)
  {
    var h := Head(props);
    if props.noIndex == Some(true) {
      assert h[3] == Meta("robots", "noindex, nofollow");
    }
  }

  /** The page URL appears as `og:url` and as the canonical link exactly when it is given. */
  lemma UrlTagsMeaning(props: SeoProps)
    ensures HasKey(Head(props), "og:url") <==> Given(props.url)
    ensures HasCanonical(Head(props)) <==> Given(props.url)
    ensures Given(props.url) ==>
      Meta("og:url", props.url.value) in Head(props) && Canonical(props.url.value) in Head(props)
  {
    if Given(props.url) {
      UrlPresent(props);
    } else {
      UrlAbsent(props);
    }
  }

  lemma UrlPresent(props: SeoProps)
    requires Given(props.url)
    ensures HasKey(Head(props), "og:url") && HasCanonical(Head(props))
    ensures Meta("og:url", props.url.value) in Head(props) && Canonical(props.url.value) in Head(props)
  {
    var h := Head(props);
    assert Canonical(props.url.value) == h[|h| - 1];
    assert Meta("og:url", props.url.value) in h;
    var i :| 0 <= i < |h| && h[i] == Meta("og:url", props.url.value);
  }

  lemma UrlAbsent(props: SeoProps)
    requires !Given(props.url)
    ensures !HasKey(Head(props), "og:url") && !HasCanonical(Head(props))
  {
  }

  /** The picture is announced to Open Graph and to Twitter exactly when it is given. */
  lemma ImageTagsMeaning(props: SeoProps)
    ensures HasKey(Head(props), "og:image") <==> Given(props.image)
    ensures HasKey(Head(props), "twitter:image") <==> Given(props.image)
  {
    if Given(props.image) {
      ImagePresent(props);
    } else {
      ImageAbsent(props);
    }
  }

  lemma ImagePresent(props: SeoProps)
    requires Given(props.image)
    ensures HasKey(Head(props), "og:image") && HasKey(Head(props), "twitter:image")
  {
    var h := Head(props);
    assert Meta("og:image", props.image.value) in h;
    assert Meta("twitter:image", props.image.value) in h;
    var i :| 0 <= i < |h| && h[i] == Meta("og:image", props.image.value);
    var j :| 0 <= j < |h| && h[j] == Meta("twitter:image", props.image.value);
  }

  lemma ImageAbsent(props: SeoProps)
    requires !Given(props.image)
    ensures !HasKey(Head(props), "og:image") && !HasKey(Head(props), "twitter:image")
  {
  }
}

=== FILE: site_settings.dfy ===
/**
 * The public side of the site settings: the `site_settings` rows fetched
 * once, folded into a key-to-text map, and read with a fallback.
 */
module SiteSettings {
  import opened Wrappers

  /** A `site_settings` row: its key and its possibly null value. */
  datatype Row = Row(key: string, value: Option<string>)

  /** The outcome of the fetch: not back yet, an error, or the rows. */
  datatype Fetch = Pending | Failed | Done(rows: seq<Row>)

  /** The reduce over the rows: each row sets its key to its value or `''`, later rows winning. */
  function Build(rows: seq<Row>): map<string, string> {
    if |rows| == 0 then map[]
    else
      var last := rows[|rows| - 1];
      Build(rows[..|rows| - 1])[last.key := last.value.GetOr("")]
  }

  /** The settings the hook holds: the built map once the rows are in, else the initial `{}`. */
  function Settings(fetch: Fetch): map<string, string> {
    if fetch.Done? then Build(fetch.rows) else map[]
  }

  /** `settings[key] || defaultValue`, with `''` as the default default. */
  function GetSetting(settings: map<string, string>, key: string, defaultValue: string := ""): string {
    if key in settings && settings[key] != "" then settings[key] else defaultValue
  }

  /** Reference definition: the value of the last row with the key, null read as `''`. */
  function LastValue(rows: seq<Row>, key: string): Option<string> {
    if |rows| == 0 then None
    else if rows[|rows| - 1].key == key then Some(rows[|rows| - 1].value.GetOr(""))
    else LastValue(rows[..|rows| - 1], key)
  }

  // ---------------------------------------------------------------------
  // Properties

  /** A key is present exactly when some row has it, and then holds the last such row's value. */
  lemma {:induction false} BuildMeaning(rows: seq<Row>, key: string)
    ensures key in Build(rows) <==> exists i :: 0 <= i < |rows| && rows[i].key == key
    ensures key in Build(rows) ==> LastValue(rows, key) == Some(Build(rows)[key])
    ensures key !in Build(rows) ==> LastValue(rows, key) == None
    decreases |rows|
  {
    if |rows| > 0 {
      var init := rows[..|rows| - 1];
      BuildMeaning(init, key);
      assert forall i :: 0 <= i < |init| ==> init[i] == rows[i];
      if rows[|rows| - 1].key != key && key in Build(rows) {
        var i :| 0 <= i < |init| && init[i].key == key;
        assert rows[i].key == key;
      }
    }
  }

  /** A row with an empty or null value is present but reads as `''`. */
  lemma {:induction false} LastValueNonNull(rows: seq<Row>, key: string)
    ensures LastValue(rows, key).Some? ==>
      exists i :: 0 <= i < |rows| && rows[i].key == key && rows[i].value.GetOr("") == LastValue(rows, key).value
    decreases |rows|
  {
    if |rows| > 0 && rows[|rows| - 1].key != key {
      var init := rows[..|rows| - 1];
      LastValueNonNull(init, key);
      if LastValue(rows, key).Some? {
        var i :| 0 <= i < |init| && init[i].key == key && init[i].value.GetOr("") == LastValue(rows, key).value;
        assert rows[i] == init[i];
      }
    }
  }

  /** The fallback is used exactly when the key is missing or its text is empty. */
  lemma GetSettingMeaning(settings: map<string, string>, key: string, defaultValue: string)
    ensures GetSetting(settings, key, defaultValue) == defaultValue
      <== key !in settings || settings[key] == ""
    ensures key in settings && settings[key] != "" ==> GetSetting(settings, key, defaultValue) == settings[key]
    ensures GetSetting(settings, key) == (if key in settings then settings[key] else "")
  {
  }

  /** Reading through the hook gives the last non-empty row value for the key, else the fallback. */
  lemma GetSettingFromRows(rows: seq<Row>, key: string, defaultValue: string)
    ensures GetSetting(Build(rows), key, defaultValue) ==
      match LastValue(rows, key)
      case Some(v) => if v != "" then v else defaultValue
      case None => defaultValue
  {
    BuildMeaning(rows, key);
  }

  /** Before the rows arrive, or when the fetch fails, every read gives its fallback. */
  lemma UnfetchedDefaults(fetch: Fetch, key: string, defaultValue: string)
    requires !fetch.Done?
    ensures GetSetting(Settings(fetch), key, defaultValue) == defaultValue
  {
  }
}

=== FILE: slug.dfy ===
/**
 * `generateSlug`, shared (character for character) by the property form and
 * the category page: lower-case the text, decompose accented letters and drop
 * the combining marks, turn every run of characters outside `[a-z0-9]` into
 * one `-`, and remove one leading and one trailing `-`.
 */
module Slug {
  import Text

  /** Characters the slug keeps as they are. */
  predicate IsSlugAlnum(c: char) { Text.IsAsciiLower(c) || Text.IsAsciiDigit(c) }

  /** Characters a slug may contain. */
  predicate IsSlugChar(c: char) { IsSlugAlnum(c) || c == '-' }

  /** The combining diacritical marks, U+0300..U+036F. */
  predicate IsCombiningMark(c: char) { 0x300 <= c as int <= 0x36F }

  /**
   * The base letter of a precomposed lower-case Latin-1 letter under canonical
   * decomposition; letters without a decomposition (æ, ð, ø, þ) stay as they are.
   */
  function BaseLetter(c: char): char {
    var n := c as int;
    if 0xE0 <= n <= 0xE5 then 'a'
    else if n == 0xE7 then 'c'
    else if 0xE8 <= n <= 0xEB then 'e'
    else if 0xEC <= n <= 0xEF then 'i'
    else if n == 0xF1 then 'n'
    else if 0xF2 <= n <= 0xF6 then 'o'
    else if 0xF9 <= n <= 0xFC then 'u'
    else if n == 0xFD || n == 0xFF then 'y'
    else c
  }

  /** `.normalize('NFD').replace(/[̀-ͯ]/g, '')` on lower-cased text. */
  function StripAccents(s: string): (r: string)
    ensures |r| <= |s|
    ensures forall i :: 0 <= i < |r| ==> !IsCombiningMark(r[i])
  {
    if |s| == 0 then ""
    else if IsCombiningMark(s[0]) then StripAccents(s[1..])
    else [BaseLetter(s[0])] + StripAccents(s[1..])
  }

  /**
   * `.replace(/[^a-z0-9]+/g, '-')`: each maximal run of other characters becomes
   * one `-`.  `inRun` says whether the character before `s` was already part of
   * such a run.
   */
  function Collapse(s: string, inRun: bool): string
    decreases |s|
  {
    if |s| == 0 then ""
    else if IsSlugAlnum(s[0]) then [s[0]] + Collapse(s[1..], false)
    else if inRun then Collapse(s[1..], true)
    else "-" + Collapse(s[1..], true)
  }

  /** `.replace(/(^-|-$)/g, '')`. */
  function TrimDashes(u: string): string {
    var a := if |u| > 0 && u[0] == '-' then u[1..] else u;
    if |a| > 0 && a[|a| - 1] == '-' then a[..|a| - 1] else a
  }

  /** The text the run-collapsing step sees: lower-cased and without accents. */
  function Folded(t: string): string {
    StripAccents(Text.Lower(t))
  }

  function GenerateSlug(t: string): string {
    TrimDashes(Collapse(Folded(t), false))
  }

  // ---------------------------------------------------------------------
  // The shape of a slug

  predicate NoDoubleDash(s: string) {
    forall i :: 0 <= i < |s| - 1 ==> !(s[i] == '-' && s[i + 1] == '-')
  }

  /** Only `[a-z0-9-]`, no `-` at either end and no `--`. */
  predicate IsSlug(s: string) {
    && (forall i :: 0 <= i < |s| ==> IsSlugChar(s[i]))
    && (|s| == 0 || (s[0] != '-' && s[|s| - 1] != '-'))
    && NoDoubleDash(s)
  }

  /** The letters and digits of `s`, in order. */
  function Alnums(s: string): string {
    if |s| == 0 then ""
    else if IsSlugAlnum(s[0]) then [s[0]] + Alnums(s[1..])
    else Alnums(s[1..])
  }

  lemma {:induction false} CollapseShape(s: string, inRun: bool)
    ensures var r := Collapse(s, inRun);
      && (forall i :: 0 <= i < |r| ==> IsSlugChar(r[i]))
      && NoDoubleDash(r)
      && (inRun && |r| > 0 ==> r[0] != '-')
      && Alnums(r) == Alnums(s)
    decreases |s|
  {
    if |s| > 0 {
      CollapseShape(s[1..], !IsSlugAlnum(s[0]));
      var tail := Collapse(s[1..], !IsSlugAlnum(s[0]));
      if IsSlugAlnum(s[0]) {
        assert Collapse(s, inRun) == [s[0]] + tail;
        assert ([s[0]] + tail)[1..] == tail;
      } else if !inRun {
        assert Collapse(s, inRun) == "-" + tail;
        assert ("-" + tail)[1..] == tail;
      }
    }
  }

  lemma {:induction false} AlnumsAppend(a: string, b: string)
    ensures Alnums(a + b) == Alnums(a) + Alnums(b)
    decreases |a|
  {
    if |a| == 0 {
      assert a + b == b;
    } else {
      assert (a + b)[1..] == a[1..] + b;
      AlnumsAppend(a[1..], b);
    }
  }

  lemma TrimDashesAlnums(u: string)
    ensures Alnums(TrimDashes(u)) == Alnums(u)
  {
    var a := if |u| > 0 && u[0] == '-' then u[1..] else u;
    if |u| > 0 && u[0] == '-' {
      assert u == "-" + a;
      AlnumsAppend("-", a);
    }
    if |a| > 0 && a[|a| - 1] == '-' {
      assert a == a[..|a| - 1] + "-";
      AlnumsAppend(a[..|a| - 1], "-");
    }
  }

  /** A string of dashes alone with no `--` has at most one character. */
  lemma DashesOnly(u: string)
    requires Alnums(u) == ""
    requires forall i :: 0 <= i < |u| ==> IsSlugChar(u[i])
    requires NoDoubleDash(u)
    ensures |u| <= 1
  {
    if |u| >= 2 {
      NoAlnums(u);
    }
  }

  lemma {:induction false} NoAlnums(s: string)
    requires Alnums(s) == ""
    ensures forall i :: 0 <= i < |s| ==> !IsSlugAlnum(s[i])
    decreases |s|
  {
    if |s| > 0 {
      NoAlnums(s[1..]);
    }
  }

  // ---------------------------------------------------------------------
  // Properties of generateSlug

  /** The slug has only `[a-z0-9-]`, no leading or trailing `-` and no `--`. */
  lemma GenerateSlugIsSlug(t: string)
    ensures IsSlug(GenerateSlug(t))
  {
    var u := Collapse(Folded(t), false);
    CollapseShape(Folded(t), false);
    var a := if |u| > 0 && u[0] == '-' then u[1..] else u;
    assert |a| > 0 ==> a[0] != '-' by {
      if |u| > 0 && u[0] == '-' && |a| > 0 { assert u[1] == a[0]; }
    }
    assert forall i :: 0 <= i < |a| ==> IsSlugChar(a[i]);
    assert NoDoubleDash(a);
    var r := TrimDashes(u);
    if |a| > 0 && a[|a| - 1] == '-' {
      assert r == a[..|a| - 1];
      if |r| > 0 {
        assert r[|r| - 1] == a[|a| - 2];
      }
    }
  }

  /** The slug keeps exactly the letters and digits of the folded text, in order. */
  lemma GenerateSlugAlnums(t: string)
    ensures Alnums(GenerateSlug(t)) == Alnums(Folded(t))
  {
    CollapseShape(Folded(t), false);
    TrimDashesAlnums(Collapse(Folded(t), false));
  }

  /** The slug is empty exactly when the folded text has no letter or digit. */
  lemma GenerateSlugEmpty(t: string)
    ensures GenerateSlug(t) == "" <==> Alnums(Folded(t)) == ""
  {
    GenerateSlugAlnums(t);
    var u := Collapse(Folded(t), false);
    CollapseShape(Folded(t), false);
    if Alnums(Folded(t)) == "" {
      DashesOnly(u);
    }
  }

  lemma {:induction false} CollapseFixes(s: string, inRun: bool)
    requires forall i :: 0 <= i < |s| ==> IsSlugChar(s[i])
    requires NoDoubleDash(s)
    requires inRun && |s| > 0 ==> s[0] != '-'
    ensures Collapse(s, inRun) == s
    decreases |s|
  {
    if |s| > 0 {
      CollapseFixes(s[1..], !IsSlugAlnum(s[0]));
    }
  }

  /**
   * Stripping works character by character, in order: a combining mark is
   * dropped and any other character becomes its base letter.
   */
  lemma {:induction false} StripAccentsMeaning(a: string, b: string, c: char)
    ensures StripAccents(a + b) == StripAccents(a) + StripAccents(b)
    ensures StripAccents([c]) == if IsCombiningMark(c) then "" else [BaseLetter(c)]
    decreases |a|
  {
    if |a| > 0 {
      assert (a + b)[1..] == a[1..] + b;
      StripAccentsMeaning(a[1..], b, c);
    } else {
      assert a + b == b;
    }
    assert [c][1..] == "";
  }

  lemma {:induction false} StripAccentsFixes(s: string)
    requires forall i :: 0 <= i < |s| ==> IsSlugChar(s[i])
    ensures StripAccents(s) == s
    decreases |s|
  {
    if |s| > 0 {
      StripAccentsFixes(s[1..]);
    }
  }

  lemma LowerFixes(s: string)
    requires forall i :: 0 <= i < |s| ==> IsSlugChar(s[i])
    ensures Text.Lower(s) == s
  {
    assert forall i :: 0 <= i < |s| ==> Text.Lower(s)[i] == s[i] by {
      forall i | 0 <= i < |s| ensures Text.Lower(s)[i] == s[i] {
        assert IsSlugChar(s[i]);
      }
    }
  }

  /** A slug is its own slug. */
  lemma SlugFixedPoint(s: string)
    requires IsSlug(s)
    ensures GenerateSlug(s) == s
  {
    LowerFixes(s);
    StripAccentsFixes(s);
    assert Folded(s) == s;
    CollapseFixes(s, false);
    assert Collapse(Folded(s), false) == s;
    TrimDashesFixes(s);
  }

  lemma TrimDashesFixes(s: string)
    requires |s| == 0 || (s[0] != '-' && s[|s| - 1] != '-')
    ensures TrimDashes(s) == s
  {
  }

  /** `generateSlug(generateSlug(t)) == generateSlug(t)`. */
  lemma GenerateSlugIdempotent(t: string)
    ensures GenerateSlug(GenerateSlug(t)) == GenerateSlug(t)
  {
    GenerateSlugIsSlug(t);
    SlugFixedPoint(GenerateSlug(t));
  }
}

=== FILE: stable_sort.dfy ===
/**
 * A stable sort by an integer key: the behaviour of `Array.prototype.sort`
 * with a comparator of the form `(a, b) => key(a) - key(b)`.
 */
module StableSort {

  ghost predicate Sorted<T>(key: T -> int, s: seq<T>) {
    forall i, j :: 0 <= i < j < |s| ==> key(s[i]) <= key(s[j])
  }

  /** Inserts `x` before the first element whose key is not smaller. */
  function Insert<T>(key: T -> int, x: T, s: seq<T>): (r: seq<T>)
    requires Sorted(key, s)
    ensures Sorted(key, r)
    ensures multiset(r) == multiset(s) + multiset{x}
  {
    if |s| == 0 then [x]
    else if key(x) <= key(s[0]) then [x] + s
    else
      var rest := Insert(key, x, s[1..]);
      assert forall j :: 0 <= j < |rest| ==> key(s[0]) <= key(rest[j]) by {
        forall j | 0 <= j < |rest| ensures key(s[0]) <= key(rest[j]) {
          assert rest[j] in multiset(rest);
          if rest[j] != x {
            assert rest[j] in multiset(s[1..]);
            var k :| 0 <= k < |s[1..]| && s[1..][k] == rest[j];
            assert s[k + 1] == rest[j];
          }
        }
      }
      assert s == [s[0]] + s[1..];
      [s[0]] + rest
  }

  function Sort<T>(key: T -> int, s: seq<T>): (r: seq<T>)
    ensures Sorted(key, r)
    ensures multiset(r) == multiset(s)
  {
    if |s| == 0 then []
    else
      assert s == [s[0]] + s[1..];
      Insert(key, s[0], Sort(key, s[1..]))
  }

  /** The elements of `s` whose key is `k`, in order. */
  function WithKey<T>(key: T -> int, s: seq<T>, k: int): seq<T> {
    if |s| == 0 then []
    else (if key(s[0]) == k then [s[0]] else []) + WithKey(key, s[1..], k)
  }

  lemma WithKeyCons<T>(key: T -> int, x: T, s: seq<T>, k: int)
    ensures WithKey(key, [x] + s, k) == (if key(x) == k then [x] else []) + WithKey(key, s, k)
  {
    assert ([x] + s)[0] == x;
    assert ([x] + s)[1..] == s;
  }

  lemma {:induction false} InsertWithKey<T>(key: T -> int, x: T, s: seq<T>, k: int)
    requires Sorted(key, s)
    ensures WithKey(key, Insert(key, x, s), k)
         == (if key(x) == k then [x] else []) + WithKey(key, s, k)
    decreases |s|
  {
    if |s| == 0 {
      assert Insert(key, x, s) == [x];
    } else if key(x) <= key(s[0]) {
      WithKeyCons(key, x, s, k);
    } else {
      var rest := Insert(key, x, s[1..]);
      InsertWithKey(key, x, s[1..], k);
      assert Insert(key, x, s) == [s[0]] + rest;
      WithKeyCons(key, s[0], rest, k);
    }
  }

  /** Elements that tie on the key keep their relative order. */
  lemma {:induction false} SortStable<T>(key: T -> int, s: seq<T>, k: int)
    ensures WithKey(key, Sort(key, s), k) == WithKey(key, s, k)
    decreases |s|
  {
    if |s| > 0 {
      SortStable(key, s[1..], k);
      InsertWithKey(key, s[0], Sort(key, s[1..]), k);
    }
  }

  /** A sequence already in order is left as it is. */
  lemma {:induction false} SortSorted<T>(key: T -> int, s: seq<T>)
    requires Sorted(key, s)
    ensures Sort(key, s) == s
    decreases |s|
  {
    if |s| > 0 {
      SortSorted(key, s[1..]);
      assert s == [s[0]] + s[1..];
    }
  }
}

=== FILE: text.dfy ===
/**
 * The JavaScript string operations the application relies on, stated over
 * `string` (a sequence of Unicode scalar values).  Case mapping is modelled
 * for ASCII and the Latin-1 block, which covers Portuguese text.
 */
module Text {
  import opened Wrappers

  // ---------------------------------------------------------------------
  // Characters

  predicate IsAsciiDigit(c: char) { '0' <= c <= '9' }

  predicate IsAsciiLower(c: char) { 'a' <= c <= 'z' }

  predicate IsAsciiUpper(c: char) { 'A' <= c <= 'Z' }

  /** Upper-case letters of the Latin-1 block (À..Þ without ×). */
  predicate IsLatin1Upper(c: char) { 0xC0 <= c as int <= 0xDE && c as int != 0xD7 }

  /** Lower-case letters of the Latin-1 block that have a one-letter upper case (à..þ without ÷). */
  predicate IsLatin1Lower(c: char) { 0xE0 <= c as int <= 0xFE && c as int != 0xF7 }

  /** `String.prototype.toLowerCase` on one character. */
  function LowerChar(c: char): char {
    if IsAsciiUpper(c) || IsLatin1Upper(c) then (c as int + 32) as char else c
  }

  /** `String.prototype.toLowerCase`. */
  function Lower(s: string): (r: string)
    ensures |r| == |s|
    ensures forall i :: 0 <= i < |s| ==> r[i] == LowerChar(s[i])
  {
    seq(|s|, i requires 0 <= i < |s| => LowerChar(s[i]))
  }

  /** `String.prototype.toUpperCase` on one character; `ß` becomes two letters. */
  function UpperChar(c: char): string {
    if IsAsciiLower(c) || IsLatin1Lower(c) then [(c as int - 32) as char]
    else if c as int == 0xDF then "SS"
    else if c as int == 0xFF then [0x178 as char]
    else if c as int == 0xB5 then [0x39C as char]
    else [c]
  }

  lemma LowerCharIdempotent(c: char)
    ensures LowerChar(LowerChar(c)) == LowerChar(c)
  {
  }

  /** JavaScript's `WhiteSpace` and `LineTerminator` code points, which `trim` removes. */
  predicate IsWhitespace(c: char) {
    var n := c as int;
    n == 0x09 || n == 0x0A || n == 0x0B || n == 0x0C || n == 0x0D || n == 0x20
    || n == 0xA0 || n == 0x1680 || (0x2000 <= n <= 0x200A) || n == 0x2028
    || n == 0x2029 || n == 0x202F || n == 0x205F || n == 0x3000 || n == 0xFEFF
  }

  // ---------------------------------------------------------------------
  // Searching

  /** Every character of `s` is whitespace. */
  predicate Blank(s: string) {
    forall i :: 0 <= i < |s| ==> IsWhitespace(s[i])
  }

  predicate IsPrefix(p: string, s: string) {
    |p| <= |s| && s[..|p|] == p
  }

  /** `s.includes(needle)`: some suffix of `s` starts with `needle`. */
  predicate Contains(s: string, needle: string)
    decreases |s|
  {
    IsPrefix(needle, s) || (|s| > 0 && Contains(s[1..], needle))
  }

  /** `Contains` agrees with the positional definition of a substring. */
  lemma {:induction false} ContainsAt(s: string, needle: string)
    ensures Contains(s, needle) <==> exists i :: 0 <= i <= |s| - |needle| && IsPrefix(needle, s[i..])
    decreases |s|
  {
    if IsPrefix(needle, s) {
      assert s[0..] == s;
    } else if |s| > 0 {
      ContainsAt(s[1..], needle);
      if Contains(s[1..], needle) {
        var i :| 0 <= i <= |s[1..]| - |needle| && IsPrefix(needle, s[1..][i..]);
        assert s[1..][i..] == s[i + 1..];
      }
      if exists i :: 0 <= i <= |s| - |needle| && IsPrefix(needle, s[i..]) {
        var i :| 0 <= i <= |s| - |needle| && IsPrefix(needle, s[i..]);
        if i > 0 {
          assert s[1..][i - 1..] == s[i..];
        }
      }
    }
  }

  /** The empty string is a substring of every string. */
  lemma ContainsEmpty(s: string)
    ensures Contains(s, "")
  {
    assert s[..0] == "";
  }

  /** Position of the first `c` in `s`, or `|s|` when there is none. */
  function IndexOf(s: string, c: char): (i: nat)
    ensures i <= |s|
    ensures forall j :: 0 <= j < i ==> s[j] != c
    ensures i < |s| ==> s[i] == c
  {
    if |s| == 0 then 0
    else if s[0] == c then 0
    else 1 + IndexOf(s[1..], c)
  }

  // ---------------------------------------------------------------------
  // Rewriting

  /** `s.trimEnd()`. */
  function TrimEnd(s: string): (r: string)
    ensures IsPrefix(r, s)
    ensures |r| == 0 || !IsWhitespace(r[|r| - 1])
    ensures forall i :: |r| <= i < |s| ==> IsWhitespace(s[i])
  {
    if |s| > 0 && IsWhitespace(s[|s| - 1]) then TrimEnd(s[..|s| - 1]) else s
  }

  /** `s.trimStart()`. */
  function TrimStart(s: string): (r: string)
    ensures |r| <= |s| && r == s[|s| - |r|..]
    ensures |r| == 0 || !IsWhitespace(r[0])
    ensures forall i :: 0 <= i < |s| - |r| ==> IsWhitespace(s[i])
  {
    if |s| > 0 && IsWhitespace(s[0]) then TrimStart(s[1..]) else s
  }

  /** `s.trim()`. */
  function Trim(s: string): string {
    TrimEnd(TrimStart(s))
  }

  /** Trailing whitespace added to a string is removed again by `trimEnd`. */
  lemma {:induction false} TrimEndWhitespaceTail(a: string, w: string)
    requires forall i :: 0 <= i < |w| ==> IsWhitespace(w[i])
    ensures TrimEnd(a + w) == TrimEnd(a)
    decreases |w|
  {
    if |w| == 0 {
      assert a + w == a;
    } else {
      var w' := w[..|w| - 1];
      assert (a + w)[..|a + w| - 1] == a + w';
      TrimEndWhitespaceTail(a, w');
    }
  }

  /** `trimEnd` stops inside the last part when that part holds a non-whitespace character. */
  lemma {:induction false} TrimEndAppend(a: string, b: string)
    requires exists i :: 0 <= i < |b| && !IsWhitespace(b[i])
    ensures TrimEnd(a + b) == a + TrimEnd(b)
    decreases |b|
  {
    if IsWhitespace(b[|b| - 1]) {
      var b' := b[..|b| - 1];
      var i :| 0 <= i < |b| && !IsWhitespace(b[i]);
      assert i < |b| - 1 && b'[i] == b[i];
      assert (a + b)[..|a + b| - 1] == a + b';
      TrimEndAppend(a, b');
    }
  }

  /** Leading whitespace before a non-blank start is removed by `trimStart`. */
  lemma {:induction false} TrimStartWhitespaceHead(w: string, b: string)
    requires forall i :: 0 <= i < |w| ==> IsWhitespace(w[i])
    requires |b| > 0 && !IsWhitespace(b[0])
    ensures TrimStart(w + b) == b
    decreases |w|
  {
    if |w| == 0 {
      assert w + b == b;
    } else {
      assert (w + b)[1..] == w[1..] + b;
      TrimStartWhitespaceHead(w[1..], b);
    }
  }

  /** `trim` of a text framed by blanks: the frame goes, and so does the body's trailing blank run. */
  lemma TrimFramed(lead: string, head: string, body: string, tail: string)
    requires forall i :: 0 <= i < |lead| ==> IsWhitespace(lead[i])
    requires forall i :: 0 <= i < |tail| ==> IsWhitespace(tail[i])
    requires |head| > 0 && !IsWhitespace(head[0])
    requires exists i :: 0 <= i < |body| && !IsWhitespace(body[i])
    ensures Trim(lead + head + body + tail) == head + TrimEnd(body)
  {
    var hb := head + body;
    var rest := hb + tail;
    Regroup(lead, head, body, tail);
    StartStep(lead, hb, tail);
    TrimEndWhitespaceTail(hb, tail);
    TrimEndAppend(head, body);
  }

  /** `trim` of a text framed by blanks around a blank body: only the head is left, without its trailing blanks. */
  lemma TrimBlankBody(lead: string, head: string, body: string, tail: string)
    requires forall i :: 0 <= i < |lead| ==> IsWhitespace(lead[i])
    requires forall i :: 0 <= i < |tail| ==> IsWhitespace(tail[i])
    requires forall i :: 0 <= i < |body| ==> IsWhitespace(body[i])
    requires |head| > 0 && !IsWhitespace(head[0])
    ensures Trim(lead + head + body + tail) == TrimEnd(head)
  {
    BlanksJoin(body, tail);
    Regroup3(lead, head, body, tail);
    TrimHeadBlank(lead, head, body + tail);
  }

  lemma Regroup3(a: string, b: string, c: string, d: string)
    ensures a + b + c + d == a + (b + (c + d))
  {
  }

  /** `trim` of a head between two blank runs: the head without its trailing blanks. */
  lemma TrimHeadBlank(lead: string, head: string, w: string)
    requires forall i :: 0 <= i < |lead| ==> IsWhitespace(lead[i])
    requires forall i :: 0 <= i < |w| ==> IsWhitespace(w[i])
    requires |head| > 0 && !IsWhitespace(head[0])
    ensures Trim(lead + (head + w)) == TrimEnd(head)
  {
    StartStep(lead, head, w);
    TrimEndWhitespaceTail(head, w);
  }

  lemma BlanksJoin(a: string, b: string)
    requires forall i :: 0 <= i < |a| ==> IsWhitespace(a[i])
    requires forall i :: 0 <= i < |b| ==> IsWhitespace(b[i])
    ensures forall i :: 0 <= i < |a + b| ==> IsWhitespace((a + b)[i])
  {
    forall i | 0 <= i < |a + b| ensures IsWhitespace((a + b)[i]) {
      if i < |a| { assert (a + b)[i] == a[i]; } else { assert (a + b)[i] == b[i - |a|]; }
    }
  }

  lemma Regroup(a: string, b: string, c: string, d: string)
    ensures a + b + c + d == a + ((b + c) + d)
  {
  }

  lemma StartStep(lead: string, hb: string, tail: string)
    requires forall i :: 0 <= i < |lead| ==> IsWhitespace(lead[i])
    requires |hb| > 0 && !IsWhitespace(hb[0])
    ensures TrimStart(lead + (hb + tail)) == hb + tail
  {
    assert (hb + tail)[0] == hb[0];
    TrimStartWhitespaceHead(lead, hb + tail);
  }

  /** `s.replace(pat, rep)` with a string pattern: only the first occurrence is replaced. */
  function ReplaceFirst(s: string, pat: string, rep: string): (r: string)
    ensures !Contains(s, pat) ==> r == s
    decreases |s|
  {
    if IsPrefix(pat, s) then rep + s[|pat|..]
    else if |s| == 0 then s
    else [s[0]] + ReplaceFirst(s[1..], pat, rep)
  }

  /** `s.replace(/\D/g, '')`: keep the ASCII digits, in order. */
  function DigitsOf(s: string): (r: string)
    ensures forall i :: 0 <= i < |r| ==> IsAsciiDigit(r[i])
    ensures |r| <= |s|
    ensures (forall i :: 0 <= i < |s| ==> IsAsciiDigit(s[i])) ==> r == s
  {
    if |s| == 0 then ""
    else if IsAsciiDigit(s[0]) then [s[0]] + DigitsOf(s[1..])
    else DigitsOf(s[1..])
  }

  lemma {:induction false} DigitsOfAppend(a: string, b: string)
    ensures DigitsOf(a + b) == DigitsOf(a) + DigitsOf(b)
    decreases |a|
  {
    if |a| == 0 {
      assert a + b == b;
    } else {
      assert (a + b)[1..] == a[1..] + b;
      DigitsOfAppend(a[1..], b);
    }
  }

  lemma {:induction false} DigitsOfNone(s: string)
    requires forall i :: 0 <= i < |s| ==> !IsAsciiDigit(s[i])
    ensures DigitsOf(s) == ""
    decreases |s|
  {
    if |s| > 0 {
      DigitsOfNone(s[1..]);
    }
  }

  // ---------------------------------------------------------------------
  // Joining and splitting

  /** `lines.join(sep)`. */
  function Join(lines: seq<string>, sep: char): string {
    if |lines| == 0 then ""
    else if |lines| == 1 then lines[0]
    else lines[0] + [sep] + Join(lines[1..], sep)
  }

  /** `s.split(sep)`: the pieces between separators; always at least one piece. */
  function Split(s: string, sep: char): (r: seq<string>)
    ensures |r| > 0
    decreases |s|
  {
    var i := IndexOf(s, sep);
    if i == |s| then [s] else [s[..i]] + Split(s[i + 1..], sep)
  }

  predicate Free(s: string, c: char) {
    forall i :: 0 <= i < |s| ==> s[i] != c
  }

  /** Splitting a join gives back the lines, as long as no line holds the separator. */
  lemma {:induction false} SplitJoin(lines: seq<string>, sep: char)
    requires |lines| > 0
    requires forall k :: 0 <= k < |lines| ==> Free(lines[k], sep)
    ensures Split(Join(lines, sep), sep) == lines
    decreases |lines|
  {
    var s := Join(lines, sep);
    if |lines| == 1 {
      assert IndexOf(s, sep) == |s|;
    } else {
      var rest := Join(lines[1..], sep);
      assert s == lines[0] + [sep] + rest;
      var i := IndexOf(s, sep);
      assert i == |lines[0]| by {
        assert s[|lines[0]|] == sep;
        assert forall j :: 0 <= j < |lines[0]| ==> s[j] == lines[0][j];
      }
      assert s[..i] == lines[0];
      assert s[i + 1..] == rest;
      SplitJoin(lines[1..], sep);
    }
  }

  /** The number of separators in a join is one less than the number of lines. */
  lemma {:induction false} JoinCount(lines: seq<string>, sep: char)
    requires |lines| > 0
    requires forall k :: 0 <= k < |lines| ==> Free(lines[k], sep)
    ensures Count(Join(lines, sep), sep) == |lines| - 1
    decreases |lines|
  {
    if |lines| == 1 {
      CountFree(lines[0], sep);
    } else {
      var rest := Join(lines[1..], sep);
      assert Join(lines, sep) == lines[0] + ([sep] + rest);
      CountAppend(lines[0], [sep] + rest, sep);
      CountAppend([sep], rest, sep);
      CountFree(lines[0], sep);
      assert Count([sep], sep) == 1 by {
        assert [sep][1..] == [];
      }
      JoinCount(lines[1..], sep);
    }
  }

  function Count(s: string, c: char): nat {
    if |s| == 0 then 0 else (if s[0] == c then 1 else 0) + Count(s[1..], c)
  }

  lemma {:induction false} CountAppend(a: string, b: string, c: char)
    ensures Count(a + b, c) == Count(a, c) + Count(b, c)
    decreases |a|
  {
    if |a| == 0 {
      assert a + b == b;
    } else {
      assert (a + b)[1..] == a[1..] + b;
      CountAppend(a[1..], b, c);
    }
  }

  lemma {:induction false} CountFree(a: string, c: char)
    requires Free(a, c)
    ensures Count(a, c) == 0
    decreases |a|
  {
    if |a| > 0 {
      CountFree(a[1..], c);
    }
  }

  // ---------------------------------------------------------------------
  // Numbers

  function DigitChar(d: nat): char
    requires d < 10
  {
    ('0' as int + d) as char
  }

  /** Decimal rendering of a natural number (`String(n)`, template `${n}`). */
  function NatToString(n: nat): (r: string)
    ensures |r| > 0
    ensures forall i :: 0 <= i < |r| ==> IsAsciiDigit(r[i])
  {
    if n < 10 then [DigitChar(n)] else NatToString(n / 10) + [DigitChar(n % 10)]
  }

  /** The value of a string of decimal digits. */
  function DigitsValue(s: string): nat
    requires forall i :: 0 <= i < |s| ==> IsAsciiDigit(s[i])
  {
    if |s| == 0 then 0
    else
      assert IsAsciiDigit(s[|s| - 1]);
      10 * DigitsValue(s[..|s| - 1]) + (s[|s| - 1] as int - '0' as int)
  }

  /** Reading back the decimal rendering of `n` gives `n`. */
  lemma {:induction false} NatToStringValue(n: nat)
    ensures DigitsValue(NatToString(n)) == n
  {
    if n >= 10 {
      var s := NatToString(n);
      assert s[..|s| - 1] == NatToString(n / 10);
      NatToStringValue(n / 10);
    }
  }

  /** Length of the longest prefix of `s` made of ASCII digits. */
  function DigitRun(s: string): (k: nat)
    ensures k <= |s|
    ensures forall i :: 0 <= i < k ==> IsAsciiDigit(s[i])
    ensures k < |s| ==> !IsAsciiDigit(s[k])
  {
    if |s| > 0 && IsAsciiDigit(s[0]) then 1 + DigitRun(s[1..]) else 0
  }

  /**
   * `parseInt(s)` in base 10: leading white space, an optional sign and then
   * the longest run of digits; no digits gives `None` (JavaScript's `NaN`).
   */
  function ParseInt(s: string): (r: Option<int>)
    ensures r.None? <==> DigitRun(SignFree(TrimStart(s))) == 0
  {
    var t := TrimStart(s);
    var body := SignFree(t);
    var k := DigitRun(body);
    if k == 0 then None
    else
      var v := DigitsValue(body[..k]);
      var signed: int := if |t| > 0 && t[0] == '-' then 0 - v as int else v;
      Some(signed)
  }

  /** `s` without one leading `+` or `-`. */
  function SignFree(t: string): string {
    if |t| > 0 && (t[0] == '+' || t[0] == '-') then t[1..] else t
  }

  /** `parseInt` reads back every decimal rendering. */
  lemma ParseIntNatToString(n: nat)
    ensures ParseInt(NatToString(n)) == Some(n)
  {
    var s := NatToString(n);
    assert TrimStart(s) == s by {
      assert !IsWhitespace(s[0]);
    }
    assert SignFree(s) == s;
    DigitRunAll(s);
    assert s[..|s|] == s;
    NatToStringValue(n);
  }

  lemma {:induction false} DigitRunAll(s: string)
    requires forall i :: 0 <= i < |s| ==> IsAsciiDigit(s[i])
    ensures DigitRun(s) == |s|
    decreases |s|
  {
    if |s| > 0 {
      DigitRunAll(s[1..]);
    }
  }
}

=== FILE: update_user_function.dfy ===
/**
 * The `admin-update-user` edge function: an ordered chain of guards over the
 * request, each answering with its own HTTP status, and then one call to the
 * auth admin API that changes a user's email, password or both.
 */
module UpdateUserFunction {
  import opened Wrappers
  import Text
  import AdminUsers

  /** JavaScript truthiness of an optional string: present and not empty. */
  predicate Truthy(v: Option<string>) {
    v.Some? && v.value != ""
  }

  /** The deployment's environment: the service key and the shared secret. */
  datatype Env = Env(serviceKey: Option<string>, secret: Option<string>)

  /** The JSON body's three fields; the values are taken as strings. */
  datatype Payload = Payload(userId: Option<string>, email: Option<string>, password: Option<string>)

  /** A request: its HTTP method, the two headers read, and the body (`None` when it is not JSON). */
  datatype Request = Request(
    verb: string, adminSecret: Option<string>, authorization: Option<string>, body: Option<Payload>)

  /** The `updates` object: a field is present only when the payload's is truthy. */
  datatype Updates = Updates(email: Option<string>, password: Option<string>)

  /** One `auth.admin.updateUserById(user_id, updates)`. */
  datatype AdminCall = AdminCall(userId: string, updates: Updates)

  /** The admin API's answer: an error message, or the updated user's id and email. */
  datatype AdminAnswer = AdminError(message: string) | AdminUser(id: Option<string>, email: Option<string>)

  datatype Body =
    | PlainOk
    | ErrorBody(error: string)
    | UpdatedBody(userId: Option<string>, email: Option<string>, updatedEmail: bool, updatedPassword: bool)

  datatype Response = Response(status: nat, body: Body)

  /** What a request does: the response, and the admin call made on the way, if any. */
  datatype Handled = Handled(response: Response, call: Option<AdminCall>)

  /** The presented credential: `x-admin-secret`, else the first "Bearer " in `Authorization` removed. */
  function Credential(r: Request): Option<string> {
    if Truthy(r.adminSecret) then r.adminSecret
    else if r.authorization.Some? then Some(Text.ReplaceFirst(r.authorization.value, "Bearer ", ""))
    else None
  }

  function UpdatesFor(p: Payload): Updates {
    Updates(if Truthy(p.email) then p.email else None,
            if Truthy(p.password) then p.password else None)
  }

  /** The handler, guard by guard; `answer` is what the admin API returns when it is called. */
  function Handle(env: Env, r: Request, answer: AdminAnswer): Handled {
    if r.verb == "OPTIONS" then Handled(Response(200, PlainOk), None)
    else if !Truthy(env.serviceKey) then Handled(Response(500, ErrorBody("SERVICE_ROLE key ausente")), None)
    else if !Truthy(env.secret) then Handled(Response(500, ErrorBody("ADMIN_FUNCTION_SECRET ausente")), None)
    else if !Truthy(Credential(r)) || Credential(r) != env.secret then
      Handled(Response(401, ErrorBody("Não autorizado")), None)
    else if r.body.None? then Handled(Response(400, ErrorBody("JSON inválido")), None)
    else
      var p := r.body.value;
      if !Truthy(p.userId) then Handled(Response(400, ErrorBody("user_id é obrigatório")), None)
      else if !Truthy(p.email) && !Truthy(p.password) then
        Handled(Response(400, ErrorBody("Informe email e/ou password")), None)
      else
        var call := AdminCall(p.userId.value, UpdatesFor(p));
        match answer
        case AdminError(m) => Handled(Response(400, ErrorBody(m)), Some(call))
        case AdminUser(id, email) =>
          Handled(Response(200, UpdatedBody(id, email, Truthy(p.email), Truthy(p.password))), Some(call))
  }

  /** The request the admin page sends for a credentials form. */
  function PageRequest(secret: string, body: AdminUsers.CredentialsBody): Request {
    Request("POST", Some(secret), None, Some(Payload(Some(body.userId), body.email, body.password)))
  }

  // ---------------------------------------------------------------------
  // Properties

  /** A preflight is answered 200 before anything is checked. */
  lemma PreflightFirst(env: Env, r: Request, answer: AdminAnswer)
    requires r.verb == "OPTIONS"
    ensures Handle(env, r, answer) == Handled(Response(200, PlainOk), None)
  {
  }

  /** A missing key or secret is a 500, whatever the request carries. */
  lemma ConfigBeforeAuth(env: Env, r: Request, answer: AdminAnswer)
    requires r.verb != "OPTIONS"
    ensures !Truthy(env.serviceKey) || !Truthy(env.secret) ==>
      Handle(env, r, answer).response.status == 500 && Handle(env, r, answer).call.None?
  {
  }

  /**
   * The admin API is called exactly when every guard passes, for the given
   * user, with the truthy fields only; every refusal is a 4xx or 5xx.
   */
  lemma CallMeaning(env: Env, r: Request, answer: AdminAnswer)
    ensures var h := Handle(env, r, answer);
      && (h.call.Some? <==>
            && r.verb != "OPTIONS" && Truthy(env.serviceKey) && Truthy(env.secret)
            && Credential(r) == env.secret && r.body.Some?
            && Truthy(r.body.value.userId)
            && (Truthy(r.body.value.email) || Truthy(r.body.value.password)))
      && (h.call.Some? ==>
            && h.call.value.userId == r.body.value.userId.value
            && (h.call.value.updates.email.Some? <==> Truthy(r.body.value.email))
            && (h.call.value.updates.password.Some? <==> Truthy(r.body.value.password)))
      && (h.call.None? && r.verb != "OPTIONS" ==> h.response.status >= 400)
  {
  }

  /** Past the configuration checks, a 401 means exactly that the credential did not match. */
  lemma UnauthorizedMeaning(env: Env, r: Request, answer: AdminAnswer)
    requires r.verb != "OPTIONS" && Truthy(env.serviceKey) && Truthy(env.secret)
    ensures Handle(env, r, answer).response.status == 401 <==> Credential(r) != env.secret
  {
  }

  /** The success body flags exactly the fields that were changed; an API error is a 400 with its message. */
  lemma ResponseMeaning(env: Env, r: Request, answer: AdminAnswer)
    ensures var h := Handle(env, r, answer);
      h.call.Some? ==>
        && (answer.AdminError? ==> h.response == Response(400, ErrorBody(answer.message)))
        && (answer.AdminUser? ==>
              && h.response.status == 200
              && h.response.body.updatedEmail == h.call.value.updates.email.Some?
              && h.response.body.updatedPassword == h.call.value.updates.password.Some?)
  {
  }

  /** A bearer token is read with its prefix removed, when no `x-admin-secret` is sent. */
  lemma BearerCredential(token: string, verb: string, body: Option<Payload>)
    ensures Credential(Request(verb, None, Some("Bearer " + token), body)) == Some(token)
  {
    var s := "Bearer " + token;
    assert s[..|"Bearer "|] == "Bearer ";
    assert Text.IsPrefix("Bearer ", s);
    assert s[|"Bearer "|..] == token;
    assert Text.ReplaceFirst(s, "Bearer ", "") == "" + s[|"Bearer "|..];
    assert "" + token == token;
  }

  /** A non-empty `x-admin-secret` wins over any `Authorization` header. */
  lemma SecretHeaderWins(secret: string, authorization: Option<string>, verb: string, body: Option<Payload>)
    requires secret != ""
    ensures Credential(Request(verb, Some(secret), authorization, body)) == Some(secret)
  {
  }

  /**
   * Every request the admin page sends, with the deployment's secret, passes
   * all the guards and changes the form's user.
   */
  lemma PageRequestAccepted(f: AdminUsers.CredentialsForm, endpoint: string, secret: string, env: Env, answer: AdminAnswer)
    requires AdminUsers.CredentialsRequest(f, endpoint, secret).Send?
    requires env.secret == Some(secret) && Truthy(env.serviceKey)
    ensures var body := AdminUsers.CredentialsRequest(f, endpoint, secret).body;
      && Handle(env, PageRequest(secret, body), answer).call.Some?
      && Handle(env, PageRequest(secret, body), answer).call.value.userId == f.id
  {
    AdminUsers.CredentialsRequestMeaning(f, endpoint, secret);
  }
}

=== FILE: url_params.dfy ===
/**
 * The part of `URLSearchParams` the pages use: an ordered list of name/value
 * pairs where `get` answers the first pair with that name, `set` overwrites
 * the first pair and drops the others (or appends), and `delete` drops them all.
 */
module UrlParams {
  import opened Wrappers

  type Params = seq<(string, string)>

  function Get(ps: Params, key: string): Option<string> {
    if |ps| == 0 then None
    else if ps[0].0 == key then Some(ps[0].1)
    else Get(ps[1..], key)
  }

  /** `get` finds a value exactly when some pair has the name, and the value is that pair's. */
  lemma {:induction false} GetMeaning(ps: Params, key: string)
    ensures Get(ps, key).None? <==> forall i :: 0 <= i < |ps| ==> ps[i].0 != key
    ensures Get(ps, key).Some? ==> exists i :: 0 <= i < |ps| && ps[i] == (key, Get(ps, key).value)
    decreases |ps|
  {
    if |ps| > 0 && ps[0].0 != key {
      GetMeaning(ps[1..], key);
      if Get(ps, key).Some? {
        var i :| 0 <= i < |ps[1..]| && ps[1..][i] == (key, Get(ps, key).value);
        assert ps[i + 1] == ps[1..][i];
      }
      assert forall i :: 0 < i < |ps| ==> ps[i] == ps[1..][i - 1];
    }
  }

  lemma GetSingle(name: string, value: string, key: string)
    ensures Get([(name, value)], key) == if name == key then Some(value) else None
  {
    assert [(name, value)][1..] == [];
  }

  /** `searchParams.get(key) || ''`. */
  function Param(ps: Params, key: string): string {
    Get(ps, key).GetOr("")
  }

  function Delete(ps: Params, key: string): (r: Params)
    ensures forall i :: 0 <= i < |r| ==> r[i].0 != key
    ensures forall i :: 0 <= i < |ps| && ps[i].0 != key ==> ps[i] in r
    ensures forall p :: p in r ==> p in ps
  {
    if |ps| == 0 then []
    else if ps[0].0 == key then Delete(ps[1..], key)
    else [ps[0]] + Delete(ps[1..], key)
  }

  function Set(ps: Params, key: string, value: string): Params {
    if |ps| == 0 then [(key, value)]
    else if ps[0].0 == key then [(key, value)] + Delete(ps[1..], key)
    else [ps[0]] + Set(ps[1..], key, value)
  }

  /** Deleting a name leaves every other name's value where it was. */
  lemma {:induction false} GetDelete(ps: Params, key: string, other: string)
    ensures Get(Delete(ps, key), key) == None
    ensures other != key ==> Get(Delete(ps, key), other) == Get(ps, other)
    decreases |ps|
  {
    if |ps| > 0 {
      GetDelete(ps[1..], key, other);
    }
  }

  /** After `set`, the name reads back the new value and the others are untouched. */
  lemma {:induction false} GetSet(ps: Params, key: string, value: string, other: string)
    ensures Get(Set(ps, key, value), key) == Some(value)
    ensures other != key ==> Get(Set(ps, key, value), other) == Get(ps, other)
    decreases |ps|
  {
    if |ps| > 0 {
      if ps[0].0 == key {
        GetDelete(ps[1..], key, other);
      } else {
        GetSet(ps[1..], key, value, other);
      }
    }
  }

  /** `set` leaves exactly one pair with that name. */
  lemma {:induction false} SetSingle(ps: Params, key: string, value: string)
    ensures var r := Set(ps, key, value);
      forall i, j :: 0 <= i < |r| && 0 <= j < |r| && r[i].0 == key && r[j].0 == key ==> i == j
    decreases |ps|
  {
    if |ps| > 0 && ps[0].0 != key {
      SetSingle(ps[1..], key, value);
      var r := Set(ps, key, value);
      assert r == [ps[0]] + Set(ps[1..], key, value);
    }
  }

  /** No name occurs twice. */
  predicate DistinctNames(ps: Params) {
    forall i, j :: 0 <= i < j < |ps| ==> ps[i].0 != ps[j].0
  }

  /** With distinct names, `get` answers each pair's value. */
  lemma {:induction false} GetAt(ps: Params, i: nat)
    requires DistinctNames(ps) && i < |ps|
    ensures Get(ps, ps[i].0) == Some(ps[i].1)
    decreases i
  {
    if i > 0 {
      assert ps[0].0 != ps[i].0;
      assert ps[1..][i - 1] == ps[i];
      GetAt(ps[1..], i - 1);
    }
  }

  /**
   * A fresh `URLSearchParams` with `set(name, value)` called, in order, for
   * each pair whose value is non-empty (`if (value) params.set(name, value)`).
   */
  function SetNonEmpty(pairs: Params): Params {
    if |pairs| == 0 then []
    else (if pairs[0].1 != "" then [pairs[0]] else []) + SetNonEmpty(pairs[1..])
  }

  /** Each name reads back its value, and an empty value leaves the name out. */
  lemma {:induction false} SetNonEmptyReadBack(pairs: Params, key: string)
    requires DistinctNames(pairs)
    ensures Param(SetNonEmpty(pairs), key) == Param(pairs, key)
    ensures Get(SetNonEmpty(pairs), key).None? <==> Param(pairs, key) == ""
    decreases |pairs|
  {
    if |pairs| > 0 {
      var tail := pairs[1..];
      assert DistinctNames(tail) by {
        forall i, j | 0 <= i < j < |tail| ensures tail[i].0 != tail[j].0 {
          assert tail[i] == pairs[i + 1] && tail[j] == pairs[j + 1];
        }
      }
      SetNonEmptyReadBack(tail, key);
      var rest := SetNonEmpty(tail);
      if pairs[0].1 != "" {
        assert SetNonEmpty(pairs) == [pairs[0]] + rest;
        assert ([pairs[0]] + rest)[1..] == rest;
      } else {
        assert SetNonEmpty(pairs) == rest;
      }
      if pairs[0].0 == key {
        GetMeaning(tail, key);
        forall i | 0 <= i < |tail| ensures tail[i].0 != key {
          assert tail[i] == pairs[i + 1];
        }
      }
    }
  }
}

=== FILE: validation.dfy ===
/**
 * The part of zod's object validation the forms use: string fields with
 * length and e-mail checks, two-value enums, and object-level refinements,
 * collected into an issue list; and the field-error map the pages build
 * from that list.
 *
 * Every check of a string field runs, so a field can carry several issues.
 * A failed enum aborts the object, and then no refinement runs.  E-mail
 * syntax is zod's regular expression, taken here as a parameter `isEmail`.
 */
module Validation {
  import opened Wrappers
  import Text

  datatype Rule =
    | MinLen(n: nat, message: string)
    | MaxLen(n: nat, message: string)
    | EmailRule(message: string)
    | OneOf(values: seq<string>, message: string)

  /** A field of the object: its key, the value given, and its checks in declaration order. */
  datatype Field = Field(name: string, value: string, rules: seq<Rule>)

  /** An object-level `.refine(...)`: whether its test holds, and where its issue goes. */
  datatype Refinement = Refinement(holds: bool, path: string, message: string)

  datatype Schema = Schema(fields: seq<Field>, refinements: seq<Refinement>)

  datatype Issue = Issue(path: string, message: string)

  /** zod's default message of `.min(n)` on a string. */
  function TooSmall(n: nat): string {
    "String must contain at least " + Text.NatToString(n) + " character(s)"
  }

  /** zod's default message of `.max(n)` on a string. */
  function TooBig(n: nat): string {
    "String must contain at most " + Text.NatToString(n) + " character(s)"
  }

  predicate Passes(r: Rule, v: string, isEmail: string -> bool) {
    match r
    case MinLen(n, _) => |v| >= n
    case MaxLen(n, _) => |v| <= n
    case EmailRule(_) => isEmail(v)
    case OneOf(values, _) => v in values
  }

  predicate Aborts(r: Rule) {
    r.OneOf?
  }

  /** The issues of one field: one per failing check, in order. */
  function RuleIssues(name: string, rules: seq<Rule>, v: string, isEmail: string -> bool): seq<Issue> {
    if |rules| == 0 then []
    else
      var head := if Passes(rules[0], v, isEmail) then [] else [Issue(name, rules[0].message)];
      head + RuleIssues(name, rules[1..], v, isEmail)
  }

  function FieldIssues(fields: seq<Field>, isEmail: string -> bool): seq<Issue> {
    if |fields| == 0 then []
    else RuleIssues(fields[0].name, fields[0].rules, fields[0].value, isEmail) + FieldIssues(fields[1..], isEmail)
  }

  /** Some field failed a check that aborts the object. */
  predicate Aborted(fields: seq<Field>, isEmail: string -> bool) {
    exists i, j :: 0 <= i < |fields| && 0 <= j < |fields[i].rules|
      && Aborts(fields[i].rules[j]) && !Passes(fields[i].rules[j], fields[i].value, isEmail)
  }

  function RefinementIssues(rs: seq<Refinement>): seq<Issue> {
    if |rs| == 0 then []
    else (if rs[0].holds then [] else [Issue(rs[0].path, rs[0].message)]) + RefinementIssues(rs[1..])
  }

  /** `schema.safeParse(data)`'s issue list; parsing succeeds when it is empty. */
  function Issues(s: Schema, isEmail: string -> bool): seq<Issue> {
    FieldIssues(s.fields, isEmail)
    + (if Aborted(s.fields, isEmail) then [] else RefinementIssues(s.refinements))
  }

  /** All field checks pass and every refinement holds. */
  predicate Valid(s: Schema, isEmail: string -> bool) {
    && (forall i, j :: 0 <= i < |s.fields| && 0 <= j < |s.fields[i].rules| ==>
          Passes(s.fields[i].rules[j], s.fields[i].value, isEmail))
    && (forall k :: 0 <= k < |s.refinements| ==> s.refinements[k].holds)
  }

  /** `errors.forEach(err => { if (err.path[0]) fieldErrors[err.path[0]] = err.message })`. */
  function ErrorMap(issues: seq<Issue>): map<string, string> {
    if |issues| == 0 then map[]
    else
      var last := issues[|issues| - 1];
      var m := ErrorMap(issues[..|issues| - 1]);
      if last.path != "" then m[last.path := last.message] else m
  }

  /** Reference definition: the message of the last issue on `path`. */
  function LastMessage(issues: seq<Issue>, path: string): Option<string> {
    if |issues| == 0 then None
    else if issues[|issues| - 1].path == path then Some(issues[|issues| - 1].message)
    else LastMessage(issues[..|issues| - 1], path)
  }

  /** `handleChange`'s error step: a field's shown error is blanked when it is edited. */
  function ClearError(errors: map<string, string>, name: string): map<string, string> {
    if name in errors && errors[name] != "" then errors[name := ""] else errors
  }

  // ---------------------------------------------------------------------
  // Properties

  lemma {:induction false} RuleIssuesMeaning(name: string, rules: seq<Rule>, v: string, isEmail: string -> bool)
    ensures RuleIssues(name, rules, v, isEmail) == [] <==>
      forall j :: 0 <= j < |rules| ==> Passes(rules[j], v, isEmail)
    ensures forall k :: 0 <= k < |RuleIssues(name, rules, v, isEmail)| ==>
      RuleIssues(name, rules, v, isEmail)[k].path == name
    decreases |rules|
  {
    if |rules| > 0 {
      RuleIssuesMeaning(name, rules[1..], v, isEmail);
      assert forall j :: 0 < j < |rules| ==> rules[j] == rules[1..][j - 1];
    }
  }

  /** An issue names a failing check's message, at its field. */
  lemma {:induction false} RuleIssueMember(name: string, rules: seq<Rule>, v: string, isEmail: string -> bool, m: string)
    ensures Issue(name, m) in RuleIssues(name, rules, v, isEmail) <==>
      exists j :: 0 <= j < |rules| && !Passes(rules[j], v, isEmail) && rules[j].message == m
    decreases |rules|
  {
    if |rules| > 0 {
      RuleIssueMember(name, rules[1..], v, isEmail, m);
      assert forall j :: 0 < j < |rules| ==> rules[j] == rules[1..][j - 1];
      if Issue(name, m) in RuleIssues(name, rules[1..], v, isEmail) {
        var j :| 0 <= j < |rules[1..]| && !Passes(rules[1..][j], v, isEmail) && rules[1..][j].message == m;
        assert rules[j + 1] == rules[1..][j];
      }
    }
  }

  /** Every field issue is on one of the fields. */
  lemma {:induction false} FieldIssuesPaths(fields: seq<Field>, isEmail: string -> bool)
    ensures forall k :: 0 <= k < |FieldIssues(fields, isEmail)| ==>
      exists i :: 0 <= i < |fields| && FieldIssues(fields, isEmail)[k].path == fields[i].name
    decreases |fields|
  {
    if |fields| > 0 {
      var head := RuleIssues(fields[0].name, fields[0].rules, fields[0].value, isEmail);
      var tail := FieldIssues(fields[1..], isEmail);
      RuleIssuesMeaning(fields[0].name, fields[0].rules, fields[0].value, isEmail);
      FieldIssuesPaths(fields[1..], isEmail);
      var all := FieldIssues(fields, isEmail);
      assert all == head + tail;
      forall k | 0 <= k < |all|
        ensures exists i :: 0 <= i < |fields| && all[k].path == fields[i].name
      {
        if k < |head| {
          assert all[k] == head[k];
          assert all[k].path == fields[0].name;
        } else {
          assert all[k] == tail[k - |head|];
          var i :| 0 <= i < |fields[1..]| && tail[k - |head|].path == fields[1..][i].name;
          assert fields[1..][i] == fields[i + 1];
          assert all[k].path == fields[i + 1].name;
        }
      }
    } else {
      assert FieldIssues(fields, isEmail) == [];
    }
  }

  lemma {:induction false} FieldIssuesEmpty(fields: seq<Field>, isEmail: string -> bool)
    ensures FieldIssues(fields, isEmail) == [] <==>
      forall i, j :: 0 <= i < |fields| && 0 <= j < |fields[i].rules| ==>
        Passes(fields[i].rules[j], fields[i].value, isEmail)
    decreases |fields|
  {
    if |fields| > 0 {
      FieldIssuesEmpty(fields[1..], isEmail);
      RuleIssuesMeaning(fields[0].name, fields[0].rules, fields[0].value, isEmail);
      assert forall i :: 0 < i < |fields| ==> fields[i] == fields[1..][i - 1];
    }
  }

  lemma {:induction false} RefinementIssuesEmpty(rs: seq<Refinement>)
    ensures RefinementIssues(rs) == [] <==> forall k :: 0 <= k < |rs| ==> rs[k].holds
    decreases |rs|
  {
    if |rs| > 0 {
      RefinementIssuesEmpty(rs[1..]);
      assert forall k :: 0 < k < |rs| ==> rs[k] == rs[1..][k - 1];
    }
  }

  /** Parsing succeeds exactly when every check passes and every refinement holds. */
  lemma IssuesEmptyMeaning(s: Schema, isEmail: string -> bool)
    ensures Issues(s, isEmail) == [] <==> Valid(s, isEmail)
  {
    FieldIssuesEmpty(s.fields, isEmail);
    RefinementIssuesEmpty(s.refinements);
  }

  /** A field appears in the map exactly when some issue is on it, with the last such message. */
  lemma {:induction false} ErrorMapMeaning(issues: seq<Issue>, path: string)
    requires path != ""
    ensures path in ErrorMap(issues) <==> LastMessage(issues, path).Some?
    ensures path in ErrorMap(issues) ==> ErrorMap(issues)[path] == LastMessage(issues, path).value
    decreases |issues|
  {
    if |issues| > 0 {
      ErrorMapMeaning(issues[..|issues| - 1], path);
    }
  }

  /** The map holds an entry only for a non-empty path some issue names. */
  lemma {:induction false} ErrorMapKeys(issues: seq<Issue>, path: string)
    ensures path in ErrorMap(issues) ==> path != "" && exists i :: 0 <= i < |issues| && issues[i].path == path
    decreases |issues|
  {
    if |issues| > 0 {
      var init := issues[..|issues| - 1];
      ErrorMapKeys(init, path);
      if path in ErrorMap(init) {
        var i :| 0 <= i < |init| && init[i].path == path;
        assert issues[i] == init[i];
      }
    }
  }

  /** The last issue on a path is one of its issues. */
  lemma {:induction false} LastMessageMember(issues: seq<Issue>, path: string)
    ensures LastMessage(issues, path).Some? <==> exists i :: 0 <= i < |issues| && issues[i].path == path
    ensures LastMessage(issues, path).Some? ==> Issue(path, LastMessage(issues, path).value) in issues
    decreases |issues|
  {
    if |issues| > 0 {
      var init := issues[..|issues| - 1];
      LastMessageMember(init, path);
      assert forall i :: 0 <= i < |init| ==> init[i] == issues[i];
      if issues[|issues| - 1].path != path && LastMessage(issues, path).Some? {
        assert Issue(path, LastMessage(issues, path).value) in init;
      }
    }
  }

  /** Editing blanks only the edited field's message, and leaves the set of keys alone. */
  lemma ClearErrorMeaning(errors: map<string, string>, name: string, other: string)
    ensures ClearError(errors, name).Keys == errors.Keys
    ensures name in errors ==> ClearError(errors, name)[name] == ""
    ensures other != name && other in errors ==> ClearError(errors, name)[other] == errors[other]
  {
  }
}

=== FILE: wrappers.dfy ===
/** Optional values: the model's stand-in for JavaScript's `undefined` and `null`. */
module Wrappers {

  datatype Option<+T> = None | Some(value: T) {

    /** The value, or `default` when there is none (JavaScript's `x ?? default`). */
    function GetOr(default: T): T {
      match this
      case Some(v) => v
      case None => default
    }
  }
}
